=== FILE: README.md ===
# Task board state engine in Dafny

This project models the client-side state engine of a Kanban task-board application. The application has users, boards joined by a share code, tasks in three status columns, and notifications. The model covers:

- **The entity store.** `appReducer` is a pure function from the state and one action to the next state (module `Reducer`).
- **The mutation API.** Every operation of the application context reads the state of its render, then dispatches reducer actions, asks for notifications and records an undo entry (modules `TaskOps`, `UserOps`, `BoardOps`, `NoticeOps`, `Session`).
- **The bounded undo/redo log** (module `History`). Module `Engine` ties a mutation, the store and the log together.
- **The derived queries.** These are the current board's tasks in display order and the signed-in user's boards (module `Queries`).
- **The validators, counters and sorting of the views.** These cover the Kanban columns and drag-and-drop, the sign-in and registration form, the task form, the profile dialog, the users view, the header, the notification panel, the analytics view and the task card (modules `Kanban`, `Auth`, `TaskForm`, `Profile`, `Members`, `Header`, `Panel`, `Analytics`, `TaskCard`, with `Stats` for the shared counting).

Each mutation is a pure function of the state it reads. It returns a `Step`: the reducer actions it dispatches in order, the notifications it asks `addNotification` for, and the undo entry it records. `Engine.Commit` applies the actions and then appends the notifications. This reproduces React's closure semantics: a mutation that dispatches several actions keeps reading the state of its render, not the state its own dispatches produce.

Ids, board codes and timestamps are parameters of the operations. So are the instant `Date.now()` gives and the instant a date/time pair in a form names. Times are integers in milliseconds. Users, tasks, boards and notifications are datatypes. A partial update (`Partial<T>`) is a datatype of `Option` fields; an optional field inside an update is `Option<Option<_>>`, where `Some(None)` stands for a key explicitly set to `undefined`.

Behaviours of the code that the model reproduces as written:

- `register` compares usernames and emails case-sensitively, while `addUser` ignores case (`Session.DuplicateChecksDisagreeOnCase`).
- `deleteUser` has no guard against deleting the signed-in user's own account; only the users view refuses it (`UserOps.DeleteUserAllowsSelf`, `Members.RemoveUser`).
- `deleteBoard` lets an administrator delete any board, even the only one. A creator who is not an administrator may delete a board only while more than one board exists (`BoardOps.DeleteBoard`, `BoardOps.SoleBoardCreatorRefused`).
- `login` with a board code does not add a signed-out user to that board; it only makes the board current (Finding 2 below).
- Undoing a task update merges the old snapshot with a fresh `updatedAt`. Undo followed by redo therefore restores fields, not a deep-equal state.
- A stored task is taken to carry every optional key, as the tasks the task form creates do (`deadline: undefined` is present). The undo snapshot therefore resets a deadline the update added. A task whose stored record lacks the `deadline` key keeps the added deadline in the code (see "Left out").

## Model

| member | source | states |
|---|---|---|
| Reducer.ApplyKeepsUntouched | src/context/AppContext.tsx:88-216 | every reducer case replaces only its own part of the state (the task, user, board or notification list, the sign-in, the current board or the saved login); RESTORE_STATE may replace all of it, and every part an action does not touch is left as it was |
| Reducer.ApplyAllKeepsUntouched | src/context/AppContext.tsx:88-219 | dispatching a run of actions in order leaves alone every part of the state that none of them touches |
| Reducer.MergeTaskLaws | src/context/AppContext.tsx:137-145 | merging a task update keeps the id and stamps `updatedAt`; an empty update only refreshes the stamp; merging a whole snapshot yields that snapshot under the old id |
| Reducer.UpdateTaskChangesOnlyTarget | src/context/AppContext.tsx:137-145 | UPDATE_TASK merges into exactly the tasks with the id, keeps the list length and every other task, and touches no other collection |
| Reducer.UpdateUserSyncsCurrentUser | src/context/AppContext.tsx:156-167 | UPDATE_USER merges into the users with that id and into the current user exactly when the ids match; nothing else changes |
| Reducer.DeleteTaskKeepsOthers | src/context/AppContext.tsx:146-150 | DELETE_TASK removes every task with the id and keeps each other task as often as before, in order |
| Reducer.DeleteUserKeepsOthers | src/context/AppContext.tsx:168-172 | DELETE_USER removes the users with the id, keeps the others in order, and leaves the current user alone |
| Reducer.UpdateBoardChangesOnlyTarget | src/context/AppContext.tsx:178-186 | UPDATE_BOARD merges into exactly the boards with the id, with a fresh `updatedAt`; other boards are unchanged |
| Reducer.DeleteBoardKeepsOthers | src/context/AppContext.tsx:187-191 | DELETE_BOARD removes the boards with the id and cascades nothing: no user's board list changes |
| Reducer.DeleteNotificationKeepsOthers | src/context/AppContext.tsx:206-210 | DELETE_NOTIFICATION removes the notifications with the id and keeps the others in order |
| Reducer.UnrecognizedIsIdentity | src/context/AppContext.tsx:213-214 | an action of unknown type returns the state unchanged |
| Reducer.ApplyDeleteNotifications | src/context/AppContext.tsx:414-416 | a run of deletions removes exactly the notifications sharing an id with the list and changes nothing else |
| Engine.ApplyAddNotifications | src/context/AppContext.tsx:477-484 | dispatching ADD_NOTIFICATION for a list appends exactly that list and changes nothing else |
| Engine.Deliver | src/context/AppContext.tsx:477-484 | a delivered notification has the draft's recipient, type and subject, is unread, and carries the fresh id and the instant |
| Engine.DraftsArrive | src/context/AppContext.tsx:477-484 | every notification a mutation asks for is present, unread, after it is committed |
| Engine.Perform | src/context/AppContext.tsx:378-390 | running a mutation keeps the log valid; it records the mutation's entry when there is one, after which undo is possible and redo is not |
| Engine.UndoStore | src/context/AppContext.tsx:392-440 | undo on the whole store keeps the log valid and changes nothing when there is nothing to undo |
| Engine.RedoStore | src/context/AppContext.tsx:442-471 | redo on the whole store keeps the log valid and changes nothing when there is nothing to redo |
| History.Record | src/context/AppContext.tsx:378-390 | recording drops the redo tail and appends the entry; past fifty entries it drops the oldest without moving the cursor; the cursor ends on the new entry |
| History.Undo | src/context/AppContext.tsx:392-440 | undo keeps the entries and moves the cursor back by one when `canUndo`, after which redo is possible; otherwise state and log are unchanged |
| History.Redo | src/context/AppContext.tsx:442-474 | redo keeps the entries and moves the cursor forward by one when `canRedo`, after which undo is possible; otherwise nothing changes |
| History.UndoRedoCursorRoundTrip | src/context/AppContext.tsx:473-474 | undo then redo, and redo then undo, return the log to where it was |
| History.RecordThenUndoRedo | src/context/AppContext.tsx:378-471 | right after recording, undo reverts the new entry and redo re-applies exactly its forward action |
| History.UndoAddedTaskRemovesIt | src/context/AppContext.tsx:397-399 | undoing ADD_TASK leaves no task with the added task's id |
| History.UndoDeletedTaskRestoresIt | src/context/AppContext.tsx:400-404 | undoing DELETE_TASK appends the captured task unchanged |
| History.UndoDeletionOnlyReinserts | src/context/AppContext.tsx:423-434 | undoing DELETE_USER or DELETE_BOARD only re-inserts the entity and restores no membership list |
| History.UndoCompletionRetractsNotices | src/context/AppContext.tsx:405-418 | undoing an update that completed a task restores the prior fields and leaves no completion notice about the task |
| TaskOps.TargetBoard | src/context/AppContext.tsx:683 | a new task goes to the given board, else the current board, else board "1" |
| TaskOps.AddTask | src/context/AppContext.tsx:679-706 | one ADD_TASK with the fields, fresh id, resolved board and both stamps; an assignment notice to every assignee except the actor, and only to them; an undo entry |
| TaskOps.UpdateTask | src/context/AppContext.tsx:708-764 | a missing task is a no-op; otherwise the update is dispatched and recorded with the prior task, and the notices follow the status change and the new assignees |
| TaskOps.CompletionNotifiesPriorAssignees | src/context/AppContext.tsx:718-730 | moving a task into completed leaves an unread completion notice for every prior assignee |
| TaskOps.ReopenRetractsCompletionNotices | src/context/AppContext.tsx:733-740 | moving a task out of completed leaves no completion notice about it |
| TaskOps.NewAssignees | src/context/AppContext.tsx:743-757 | the users notified of an assignment are exactly those the update adds, other than the actor |
| TaskOps.DeleteTask | src/context/AppContext.tsx:766-776 | a missing task is a no-op; otherwise one DELETE_TASK and an undo entry holding the task |
| TaskOps.DeleteThenUndoRestores | src/context/AppContext.tsx:766-776 | deleting removes every task with the id; undoing appends the deleted task back; redoing returns the log to where the deletion left it |
| TaskOps.ToggleTaskPin | src/context/AppContext.tsx:778-783 | toggling dispatches an update of `isPinned` to the negation of the task's flag |
| TaskOps.TogglePinFlips | src/context/AppContext.tsx:778-783 | after a toggle every task with the id has its pin flipped, nothing is notified, and the toggle is undoable |
| TaskOps.AddComment | src/context/AppContext.tsx:786-801 | only an administrator's comment on an existing task is appended, through one update of that task that records its undo entry with the task as it was; anyone else's call is a no-op |
| TaskOps.UpdateComment | src/context/AppContext.tsx:803-813 | an administrator's edit replaces the content of the comments with the id and keeps the rest, through one update of that task that records its undo entry |
| TaskOps.DeleteComment | src/context/AppContext.tsx:815-823 | an administrator's deletion drops the comments with the id and keeps every other comment in order, each as often as before, through one update of that task that records its undo entry |
| UserOps.AddUser | src/context/AppContext.tsx:825-884 | a duplicate email (checked first) or username, ignoring case, is refused; otherwise the user is added upper-cased on the current board, notified, and recorded |
| UserOps.AddUserJoinsCurrentBoard | src/context/AppContext.tsx:825-884 | after a successful `addUser` the new user lists the current board and the board lists the user |
| UserOps.UpperNames | src/context/AppContext.tsx:886-913 | an update's three name fields are upper-cased when present; its other fields are kept |
| UserOps.UpdateUser | src/context/AppContext.tsx:886-913 | a missing user is a no-op; otherwise one UPDATE_USER with the upper-cased names, nothing recorded, and a notice only when it promotes the user to administrator |
| UserOps.UpdateUserStoresUpperNames | src/context/AppContext.tsx:886-913 | after `updateUser`, the user and, when it is the one, the current user carry the merged update with upper-cased names |
| UserOps.UpdateCurrentUser | src/context/AppContext.tsx:915-919 | `updateCurrentUser` is `updateUser` on the signed-in user, and a no-op when nobody is signed in |
| UserOps.DeleteUser | src/context/AppContext.tsx:921-931 | a missing user is a no-op; otherwise one DELETE_USER and an undo entry holding the user |
| UserOps.DeleteUserAllowsSelf | src/context/AppContext.tsx:921-931 | the store deletes the signed-in user's own record when asked |
| BoardOps.AddBoard | src/context/AppContext.tsx:933-957 | a new board has upper-cased texts, the fresh id and code, the given creator and the actor as sole member; the actor's board list gains it |
| BoardOps.AddBoardLinksActor | src/context/AppContext.tsx:933-957 | after `addBoard` the board lists the actor and the actor lists the board |
| BoardOps.UpdateBoard | src/context/AppContext.tsx:959-968 | `updateBoard` dispatches the update with name and description upper-cased and records nothing |
| BoardOps.UpdateBoardStoresUpperName | src/context/AppContext.tsx:959-968 | a renamed board carries the upper-cased name and the other boards are untouched |
| BoardOps.DeleteBoard | src/context/AppContext.tsx:970-1006 | a missing board or an actor without the right is refused; otherwise the board is deleted, unlinked from every user, replaced as current board, and recorded |
| BoardOps.DeleteBoardCascades | src/context/AppContext.tsx:983-999 | after a permitted deletion the board is gone and no user lists it; when it was current, the first remaining board, if any, becomes current |
| BoardOps.SoleBoardCreatorRefused | src/context/AppContext.tsx:975-981 | a creator who is not an administrator cannot delete the only board |
| BoardOps.SetCurrentBoard | src/context/AppContext.tsx:1008-1010 | `setCurrentBoard` dispatches exactly SET_CURRENT_BOARD and records nothing |
| NoticeOps.MarkNotificationAsRead | src/context/AppContext.tsx:487-489 | marking one notification dispatches exactly the read update for that id |
| NoticeOps.MarkOneReadsOnlyIt | src/context/AppContext.tsx:487-489 | afterwards the notifications with that id are read and every other notification is unchanged |
| NoticeOps.OwnUnreadIds | src/context/AppContext.tsx:493 | the ids collected are those of the signed-in user's unread notifications, and only those |
| NoticeOps.MarkAllNotificationsAsRead | src/context/AppContext.tsx:492-497 | one read update per unread notification of the signed-in user |
| NoticeOps.MarkAllReadsOwn | src/context/AppContext.tsx:492-497 | afterwards every notification of the signed-in user is read and only read flags changed |
| Session.JoinBoardByCode | src/context/AppContext.tsx:518-552 | an empty or unknown code fails with nothing dispatched; otherwise a non-member signed-in user is linked both ways and notified, and the board becomes current |
| Session.JoinLinksBothWays | src/context/AppContext.tsx:525-550 | after joining, the user lists the board with role reset to member, the board lists the user, and the board is current |
| Session.FindAccount | src/context/AppContext.tsx:556-558 | the account found matches username or email and the password; none is found exactly when no user matches |
| Session.SignInEffect | src/context/AppContext.tsx:561-567 | signing in makes the user current and authenticated and saves the credentials; nothing else changes |
| Session.Login | src/context/AppContext.tsx:554-587 | login succeeds exactly when an account matches; it signs in, then joins the code's board or opens the user's first board |
| Session.LoginCodeJoinsNobody | src/context/AppContext.tsx:570-571 | as written, a signed-out login with a board code adds nobody to any board |
| Session.LoginJoining | src/context/AppContext.tsx:554-587 | the corrected login joins the code's board as the account just signed in |
| Session.LoginJoiningLinksBothWays | src/context/AppContext.tsx:518-552 | with the correction, the account and the code's board list each other and the board is current |
| Session.Register | src/context/AppContext.tsx:589-667 | a username or email in use, compared case-sensitively, fails with nothing dispatched; otherwise the code's board is joined as member or a personal board is made for an administrator, then the account is added, signed in and placed on that board |
| Session.RegisterSignsIn | src/context/AppContext.tsx:639-664 | after registering, the new account is appended and signed in, its board exists and is current, and a board joined by code lists the join stamp |
| Session.DuplicateChecksDisagreeOnCase | src/context/AppContext.tsx:598 | a username differing only in case passes `register`'s check but not `addUser`'s |
| Session.Logout | src/context/AppContext.tsx:669-672 | `logout` dispatches exactly LOGOUT and records nothing |
| Session.LogoutEndsSession | src/context/AppContext.tsx:669-672 | after logout nobody is signed in and every collection and the current board are kept |
| Session.ClearSavedCredentials | src/context/AppContext.tsx:674-677 | clearing dispatches exactly the removal of the saved credentials |
| Queries.CompareAntisymmetric | src/context/AppContext.tsx:1018-1029 | the comparator is consistent: swapping its arguments negates it |
| Queries.TaskLeIsTotalPreorder | src/context/AppContext.tsx:1018-1029 | the task order is total and transitive |
| Queries.SortedMeansOrdered | src/context/AppContext.tsx:1018-1029 | a sorted list has pinned tasks first, then higher priority first, then newer first |
| Queries.SortTasks | src/components/KanbanBoard.tsx:110-125 | the sort returns a permutation of its input ordered by the task order |
| Queries.BoardTasks | src/context/AppContext.tsx:1017 | the filter keeps exactly the tasks of the current board, in stored order, each as often as stored |
| Queries.GetCurrentBoardTasks | src/context/AppContext.tsx:1012-1030 | exactly the current board's tasks, each as often as stored, in display order; none without a current board |
| Queries.UserBoards | src/components/Header.tsx:110-112 | the boards listed are exactly those in the signed-in user's board list, in stored order, each as often as stored |
| Types.StatusTagRoundTrip | src/types/index.ts:19 | every status is named by its tag, and reading the tag back gives the status |
| Types.PriorityRank | src/components/KanbanBoard.tsx:111 | the priority ranks are 1 to 3, with high the only 3 and low the only 1 |
| Kanban.ColumnTasks | src/components/KanbanBoard.tsx:139-141 | a column holds only tasks of its status |
| Kanban.ColumnTasksPartition | src/components/KanbanBoard.tsx:44-48 | the three status filters together hold each task exactly as often as the board |
| Kanban.Column | src/components/KanbanBoard.tsx:139-141 | a shown column is its status's tasks in display order |
| Kanban.ColumnsPartition | src/components/KanbanBoard.tsx:44-48 | the three shown columns together hold each task exactly as often as the board |
| Kanban.DragEnd | src/components/KanbanBoard.tsx:55-90 | no move without a drop target, onto itself, or for an unknown task; otherwise the dragged task moves to the target's status |
| Kanban.DropOnTaskAdoptsStatus | src/components/KanbanBoard.tsx:76-79 | a drop onto another task hands the dragged task that task's status |
| Kanban.DropOnColumnSetsStatus | src/components/KanbanBoard.tsx:73-74 | a drop onto a column hands the dragged task that column's status |
| Kanban.DragEndStep | src/components/KanbanBoard.tsx:55-90 | a drop is `updateTask` with the new status, or nothing |
| Auth.ValidatePassword | src/components/AuthPage.tsx:37-51 | a password passes exactly when it has 8 to 30 English letters and digits with at least one letter; each failure is named |
| Auth.ValidateEmail | src/components/AuthPage.tsx:54-69 | an email passes exactly when it has 8 to 50 allowed characters and fits the address pattern; each failure is named |
| Auth.HasAddressShapeIffMatches | src/components/AuthPage.tsx:63-64 | the matcher decides the address pattern exactly |
| Auth.ValidEmailHasOneAt | src/components/AuthPage.tsx:63-64 | an accepted email has one `@` and a dot after it |
| Auth.ValidateName | src/components/AuthPage.tsx:72-82 | a name passes exactly when it has at least two Latin or Cyrillic letters and nothing else |
| Auth.NameRuleRefusesYo | src/components/AuthPage.tsx:77 | the name rule refuses a name spelt with `ё` |
| Auth.ValidateUsername | src/components/AuthPage.tsx:85-95 | a username passes exactly when it has 8 to 30 English letters and digits |
| Auth.ValidateLoginForm | src/components/AuthPage.tsx:103-117 | the sign-in form passes exactly when both the username and the password rules do, and reports the username first |
| Auth.LoginFormRefusesEmail | src/components/AuthPage.tsx:105-110 | the sign-in form refuses any identifier containing `@`, although the store accepts email sign-in |
| Auth.ValidateRegisterForm | src/components/AuthPage.tsx:124-167 | the registration form reports the first failing field in order and passes exactly when every field does |
| Auth.SubmitLogin | src/components/AuthPage.tsx:103-122 | a sign-in is refused by a rule, refused by the store, or is exactly the store's login step |
| Auth.ToRegistration | src/components/AuthPage.tsx:169-176 | the data passed to `register` is the form's, with an empty patronymic as undefined |
| Auth.SubmitRegister | src/components/AuthPage.tsx:124-183 | a registration is refused by a rule, refused by the store's duplicate check, or is exactly the store's register step |
| Auth.RegisteredAccountPassesLoginForm | src/components/AuthPage.tsx:124-176 | an account the registration form creates passes the sign-in form's rules with its username and password |
| TaskForm.NewTaskForm | src/components/TaskModal.tsx:84-93 | a new form has empty texts, the column's status, medium priority, no pin and no deadline, and assigns the signed-in user |
| TaskForm.CheckForm | src/components/TaskModal.tsx:139-160 | the form stops on a blank title, a half-given deadline or a deadline in the past, in that order, and passes otherwise |
| TaskForm.AcceptedUploads | src/components/TaskModal.tsx:164-172 | the uploads kept are exactly the picked files of at most 5 MB |
| TaskForm.AcceptedUploadsRestrict | src/components/TaskModal.tsx:164-172 | the size ceiling keeps each small enough file as often as picked, in order, and drops the others |
| TaskForm.ProcessedAttachments | src/components/TaskModal.tsx:173-182 | the saved attachments are the existing ones followed by one per accepted upload |
| TaskForm.TaskData | src/components/TaskModal.tsx:186-199 | the task data carries the form's fields, the deadline only when both halves are given, the editor as creator, and the task's or current board |
| TaskForm.AsPatch | src/components/TaskModal.tsx:201-202 | the data as an update sets every field of a task to the data |
| TaskForm.Submit | src/components/TaskModal.tsx:139-209 | a failed check stops the save; otherwise an edit is `updateTask` and a new task is `addTask` with the task data |
| TaskForm.SubmitNewTaskStoresForm | src/components/TaskModal.tsx:190-204 | a new task saved from the form carries the form's fields and the accepted uploads |
| TaskForm.EditReassignsCreator | src/components/TaskModal.tsx:194 | saving an edit makes the editor the task's creator |
| TaskForm.AddUploads | src/components/TaskModal.tsx:285-298 | picked files within the ceiling are appended after the pending uploads, in the order picked, each as often as picked |
| TaskForm.AddUploadsInRounds | src/components/TaskModal.tsx:285-298 | picking files in two rounds leaves the same pending uploads as picking them at once |
| TaskForm.RemoveUpload | src/components/TaskModal.tsx:300-302 | removing drops the upload at the index and keeps the rest in order; an index outside the list changes nothing |
| TaskForm.RemoveLastUpload | src/components/TaskModal.tsx:300-302 | removing the upload just added restores the pending list |
| TaskForm.RemoveAttachment | src/components/TaskModal.tsx:304-306 | removing keeps exactly the attachments with another id, in order, each as often as before |
| TaskForm.ApplyTextFormat | src/components/TaskModal.tsx:382-428 | the selection is wrapped in the format's opener and closer, the rest of the text is kept, and the caret lands after the closer |
| TaskForm.FormatRoundTrip | src/components/TaskModal.tsx:382-428 | cutting the opener and closer back out of the formatted text gives the original text |
| TaskForm.AssigneeChange | src/components/TaskModal.tsx:454-460 | checking appends the user; unchecking removes every occurrence of the user and keeps the others in order |
| TaskForm.CheckThenUncheck | src/components/TaskModal.tsx:454-460 | checking then unchecking a user who was not assigned leaves the list as it was |
| TaskForm.AddFormComment | src/components/TaskModal.tsx:222-243 | blank content or a non-administrator changes nothing; otherwise the comment is appended to the form and, for a stored task, sent to the store |
| TaskForm.SaveFormComment | src/components/TaskModal.tsx:253-267 | blank text changes nothing; otherwise the form's comments with the id get the text and the store is asked for the same edit |
| TaskForm.SavedCommentAgreesWithStore | src/components/TaskModal.tsx:253-267 | for a stored task, the form's edited comments are exactly the comment list the store is asked to save |
| TaskForm.DeleteFormComment | src/components/TaskModal.tsx:269-276 | the form keeps exactly the comments with another id, in order, each as often as before, and, for a stored task, asks the store for the same deletion |
| TaskForm.DeletedCommentAgreesWithStore | src/components/TaskModal.tsx:269-276 | for a stored task, the form's remaining comments are exactly the comment list the store is asked to save |
| TaskForm.DeleteFromForm | src/components/TaskModal.tsx:278-283 | deleting from the form is `deleteTask` for a stored task and nothing for a new one |
| Stats.Tally | src/components/Analytics.tsx:34-37 | the counts per status are the sizes of the status filters and add up to the total |
| Stats.AssignedTo | src/components/Analytics.tsx:54 | the tasks kept are exactly those assigned to the user, in their order, each as often as it occurs |
| Stats.RoundedPercent | src/components/Analytics.tsx:65 | the percentage is the nearest whole number to the exact share, halves up, and 0 without a whole |
| Stats.PercentInRange | src/components/Analytics.tsx:65 | a share of a whole is between 0 and 100; none is 0 and all is 100 |
| Profile.InitialForm | src/components/ProfileModal.tsx:12-21 | the dialog opens with the signed-in user's details and empty password fields |
| Profile.InitialAvatar | src/components/ProfileModal.tsx:28 | the preview starts as the user's avatar when it is a non-empty string, and empty otherwise |
| Profile.ChooseAvatar | src/components/ProfileModal.tsx:63-86 | an avatar is taken exactly when it is an image of at most 2 MB, and becomes the preview; each refusal is named |
| Profile.RemoveAvatar | src/components/ProfileModal.tsx:88-94 | removing clears the picked file and the preview |
| Profile.CheckProfile | src/components/ProfileModal.tsx:96-143 | saving passes exactly when the names pass and, if a new password is given, the current one is right and the new one passes and is confirmed |
| Profile.ProfileUpdates | src/components/ProfileModal.tsx:145-160 | the update always sends names and email, the password only when changed, and the avatar only when picked or removed; never the username or role |
| Profile.SubmitProfile | src/components/ProfileModal.tsx:96-164 | a failed check stops the save; otherwise the update goes to `updateCurrentUser` |
| Profile.SavedPasswordChangesOnlyWhenConfirmed | src/components/ProfileModal.tsx:122-160 | the stored password changes only to a confirmed, valid new password given with the right current one |
| Profile.BoardTasksOfViewer | src/components/ProfileModal.tsx:174-176 | the tasks counted are exactly the board's tasks assigned to the signed-in user, in stored order, each as often as stored |
| Profile.BoardStats | src/components/ProfileModal.tsx:173-183 | one row per board of the user, with the counts of that board's tasks assigned to the user |
| Members.BoardUsers | src/components/UserManagement.tsx:37 | the users listed are exactly those whose board list holds the current board, in stored order, each as often as stored |
| Members.FindByUsername | src/components/UserManagement.tsx:44 | the account found has exactly the username; none is found exactly when no user has it |
| Members.RolePatch | src/components/UserManagement.tsx:58 | the role update changes only the role |
| Members.SubmitMember | src/components/UserManagement.tsx:39-72 | an unknown username or an account already on the board is refused; otherwise the role is updated, or the account joins the board with the role |
| Members.EditAlwaysRefused | src/components/UserManagement.tsx:74-82 | as written, editing a listed user's role is always refused as already on the board |
| Members.SubmitMemberFixed | src/components/UserManagement.tsx:39-72 | the corrected submit checks membership only when adding |
| Members.FixedEditSetsRole | src/components/UserManagement.tsx:56-58 | with the correction, editing sets the user's role and changes no other user |
| Members.AddMemberJoinsBoard | src/components/UserManagement.tsx:61-67 | adding an account appends the board to its list and sets its role; other users are unchanged |
| Members.RemoveUser | src/components/UserManagement.tsx:84-93 | removing one's own account is refused; any other user is deleted |
| Members.RemoveUserSparesViewer | src/components/UserManagement.tsx:84-93 | removal through the view never removes the signed-in account |
| Members.UserTaskStats | src/components/UserManagement.tsx:95-102 | the total is the number of the board's tasks assigned to the user, each status count is the size of that status's column among them, and the three add up to the total |
| Members.Efficiency | src/components/UserManagement.tsx:405-406 | a row's efficiency is the rounded share of completed tasks among its counts, between 0 and 100, and 0 without tasks |
| Header.TruncateBoardName | src/components/Header.tsx:179-182 | a name up to the limit is kept; a longer one is its first characters up to the limit followed by "..." |
| Header.TruncateKeepsPrefix | src/components/Header.tsx:179-182 | a shortened name starts with the name's prefix and is not shortened again at the widened limit |
| Header.SaveBoardName | src/components/Header.tsx:152-158 | a blank name changes nothing; otherwise `updateBoard` with the trimmed name |
| Header.SavedBoardNameNotBlank | src/components/Header.tsx:152-158 | a saved board name is the upper-cased trimmed name, never empty, and other boards are untouched |
| Header.HandleUndo | src/components/Header.tsx:166-170 | the undo button is undo when `canUndo` and nothing otherwise |
| Header.HandleRedo | src/components/Header.tsx:172-176 | the redo button is redo when `canRedo` and nothing otherwise |
| Header.GuardsAreRedundant | src/components/Header.tsx:166-176 | the buttons' guards repeat the store's own, so pressing them is exactly undo and redo |
| Header.ActiveTaskCount | src/components/Header.tsx:105-106 | the active count is the number of the board's tasks created or in progress |
| Header.UnreadCount | src/components/Header.tsx:115-116 | the header's unread badge equals the number the panel lists as unread, and the number of the user's stored unread notifications |
| Header.BadgeMatchesPanel | src/components/Header.tsx:115-116 | the badge is zero exactly when every notification of the signed-in user is read |
| Header.VisibleDeleteIsPermitted | src/components/Header.tsx:281 | whenever a board's delete button is shown, `deleteBoard` permits the deletion |
| Header.PermittedDeleteMayBeHidden | src/components/Header.tsx:281 | an administrator with a single board may delete it but is not shown the button |
| Panel.OwnNotifications | src/components/NotificationPanel.tsx:17-18 | the panel keeps exactly the signed-in user's notifications |
| Panel.NewerFirstIsTotalPreorder | src/components/NotificationPanel.tsx:19 | the panel's comparator is total and transitive |
| Panel.UserNotifications | src/components/NotificationPanel.tsx:17-19 | the panel lists the user's notifications, each as often as stored, newest first |
| Panel.UnreadNotifications | src/components/NotificationPanel.tsx:21 | the unread list holds exactly the user's unread notifications, each as often as stored, newest first |
| Panel.ClickNotification | src/components/NotificationPanel.tsx:57-59 | a click marks the notification read and records nothing |
| Panel.ClickRemovesFromUnread | src/components/NotificationPanel.tsx:57-59 | after a click the notification leaves the unread list and every other unread one stays |
| Panel.FormatNotificationText | src/components/NotificationPanel.tsx:62-64 | the text keeps its length, with the first character upper-cased and the rest lower-cased |
| Panel.FormatIdempotent | src/components/NotificationPanel.tsx:62-64 | formatting a formatted text changes nothing |
| Analytics.BoardCounts | src/components/Analytics.tsx:34-37 | the total is the number of the board's tasks, each status count is the size of that status's column, and the status counts add up to the total |
| Analytics.OverdueTasks | src/components/Analytics.tsx:40-42 | the overdue tasks are exactly the board's tasks past their deadline and not completed, each as often as stored |
| Analytics.OverdueAmongOpen | src/components/Analytics.tsx:40-42 | there are never more overdue tasks than tasks not completed |
| Analytics.RecentTasks | src/components/Analytics.tsx:45-47 | the recent tasks are exactly the board's tasks created in the last seven days, each as often as stored |
| Analytics.UserRows | src/components/Analytics.tsx:50-62 | one row per user of the board, with the user's name and the counts of the tasks assigned to them |
| Analytics.UserRowsBounded | src/components/Analytics.tsx:53-62 | no user has more tasks, or more completed tasks, than the board |
| Analytics.CompletionRate | src/components/Analytics.tsx:65 | the completion rate is the rounded percentage of completed tasks among the board's tasks, between 0 and 100: 0 without tasks or without completed ones, 100 when all are completed |
| TaskCard.Assignees | src/components/TaskCard.tsx:44 | the card's assignees are exactly the users the task lists, in the users' order, each as often as stored |
| TaskCard.AssigneeBadges | src/components/TaskCard.tsx:240-262 | at most three avatars, the first assignees, then a counter of the rest |
| TaskCard.BadgesCoverAssignees | src/components/TaskCard.tsx:240-262 | the avatars and the counter together account for every assignee once |
| TaskCard.DeleteFromCard | src/components/TaskCard.tsx:81-93 | deleting from the card is refused exactly to anyone other than an administrator or the creator; otherwise it is `deleteTask` |
| TaskCard.CardIsOnlyGuard | src/components/TaskCard.tsx:85-88 | the card refuses the deletion although `deleteTask` would carry it out for anybody |
| TaskCard.MemberDeletesOnlyOwn | src/components/TaskCard.tsx:85-88 | a member who is not an administrator deletes from the card only tasks they created |
| TaskCard.OverdueExcludesDueSoon | src/components/TaskCard.tsx:46-48 | a card is never marked both overdue and due soon |
| TaskCard.LatestComment | src/components/TaskCard.tsx:96 | the card shows the last comment, and none exactly when there are no comments |
| TaskCard.AppendedCommentIsLatest | src/components/TaskCard.tsx:96 | a comment just appended is the one the card shows |
| TaskCard.CommentPreview | src/components/TaskCard.tsx:191-193 | a comment up to 50 characters is shown whole; a longer one is cut to 50 and followed by "..." |
| TaskCard.DescriptionPreview | src/components/TaskCard.tsx:100-113 | the preview is the trimmed description, cut to 100 characters followed by "..." when longer |
| TaskCard.PreviewEmptyIffBlank | src/components/TaskCard.tsx:100-113 | the preview is empty exactly when the description is blank |

## Left out

- Persistence to local storage and the bootstrap from it: the `useLocalStorage` hooks, the demo users, board and tasks seeded on first run, and restoring the session from a stored user id. These are browser storage, not state logic.
- Generation of ids, board codes and timestamps (`Date.now()`, `Math.random()`): they are parameters of each operation.
- `generateBoardLink`, `setLastView` and `getLastView`: they read the browser's location or only forward to storage.
- Alerts, confirmation dialogs and error message texts: confirmations are taken as given, and errors are datatype constructors.
- Clearing the onboarding flag for the demo accounts on login: storage only.
- Date parsing and formatting: a deadline's date and time strings reach the task form as the instant `deadlineAt`, and stored dates are integers.
- Voice recording, audio playback, file reading and object URLs: browser APIs. Attachment URLs and avatar data URLs are parameters.
- The month-by-month charts of the analytics view and the overall task counts of the profile dialog: month boundaries come from a date library and are presentation.
- The markup renderer of the task form and the calendar, manual, onboarding and board dialogs: presentation.
- Header's share button (clipboard) and the edit button's admin-only visibility: presentation.
- TaskCard.DescriptionPreview: leaves out the removal of bold, italic, HTML and list markup before trimming. The contract covers descriptions without markup.
- TaskCard.OverdueOnCard: takes the start of today as a parameter instead of computing the local midnight.
- Analytics.RecentTasks: takes seven days as exactly 7 × 24 hours. Daylight-saving shifts of the date library are not modelled.
- Stats.RoundedPercent: computes exact rational rounding, so floating-point ties of `Math.round` are not reproduced.
- Text.ToUpper: maps only Latin a–z and Cyrillic а–я, ѐ–џ to capitals. Other Unicode case mappings are not modelled.
- Text.ToLower: maps only Latin A–Z and Cyrillic А–Я, Ѐ–Џ to small letters. JavaScript's `toLowerCase` maps every script and may lengthen a string ("İ" becomes two code points); neither is modelled.
- UserOps.AddUser: the case-insensitive duplicate checks of username and email fold only Latin and Cyrillic letters (`Text.ToLower`). Two names that differ only in the case of, say, Greek letters count as duplicates in the code but not in the model.
- Panel.FormatNotificationText: "keeps its length" and the lower-casing hold for `Text.ToUpper` and `Text.ToLower`, not for JavaScript's full Unicode case mapping.
- Dafny strings are sequences of Unicode scalar values, while JavaScript's `length`, `substring` and `slice` count UTF-16 code units. The members listed next agree with the code only on text without characters outside the Basic Multilingual Plane, such as emoji.
- Header.TruncateBoardName: cuts after 15 code points, where the code cuts after 15 UTF-16 units. A name with astral characters is cut at a different point and may have a surrogate pair split in the code.
- TaskCard.CommentPreview: cuts after 50 code points, not 50 UTF-16 units (the same difference).
- TaskCard.DescriptionPreview: the 100-character cut counts code points, not UTF-16 units (the same difference).
- Auth.ValidatePassword, Auth.ValidateUsername, Auth.ValidateEmail, Auth.ValidateName: the length limits count code points. A string with astral characters may be reported as too short or too long in the model where the code reports invalid characters, or the other way round. The set of accepted strings is the same, since every accepted character is ASCII or Cyrillic.
- History.UndoCompletionRetractsNotices: assumes every optional key of a stored task is present, so the undo snapshot sets `deadline` even when it is `undefined`. Reducer.TaskSnapshot models `{ ...task }` this way. For a task whose stored record has no `deadline` key (the seeded demo tasks, or any task read back from local storage, where JSON drops `undefined`), the code's undo keeps a deadline the update added, while the model removes it.
- Queries.GetCurrentBoardTasks: uses a stable insertion sort, as JavaScript's `Array.prototype.sort` is stable. The contract states order and permutation, not which stable algorithm.
- The membership symmetry of users and boards is proved for each linking operation (`BoardOps.AddBoardLinksActor`, `Session.JoinLinksBothWays`, `UserOps.AddUserJoinsCurrentBoard`, `BoardOps.DeleteBoardCascades`), not as an invariant over all call sequences. Undo of a deletion and `register` by code break it in the code itself (`History.UndoDeletionOnlyReinserts`, `Session.RegisterSignsIn`).

## Findings

| source | as written | input that shows it | evidently intended | confidence | as-written member | corrected member |
|---|---|---|---|---|---|---|
| src/components/UserManagement.tsx:39-82 | Edit mode fills the username with the edited user's own. The submit then refuses any user already on the current board, which every listed user is. | Any user listed for the board, edited to another role: the result is "already on this board". | The membership check applies only when adding; editing updates the role. | not executed | Members.EditAlwaysRefused | Members.FixedEditSetsRole |
| src/context/AppContext.tsx:554-587 | With a board code, `login` calls `joinBoardByCode`, whose closure still sees no signed-in user. The board becomes current, but the user is never added to it. | A signed-out session, valid credentials, and the code of a board the account does not list. | The account just signed in joins the board both ways. | not executed | Session.LoginCodeJoinsNobody | Session.LoginJoiningLinksBothWays |

=== FILE: analytics.dfy ===
/** The analytics view (src/components/Analytics.tsx): the status counts of the current
    board, the overdue and recent tasks, the per-user rows and the completion rate. */
module Analytics {
  import opened Wrappers
  import opened Types
  import opened Queries
  import Seqs
  import Stats
  import Kanban
  import Members

  /** The four summary cards: total, completed, in progress and created tasks of the board. */
  function BoardCounts(s: AppState): (r: Stats.Counts)
    ensures r.total == |GetCurrentBoardTasks(s)|
    ensures r.completed + r.inProgress + r.created == r.total
    ensures r.completed == |Kanban.ColumnTasks(GetCurrentBoardTasks(s), Completed)|
    ensures r.inProgress == |Kanban.ColumnTasks(GetCurrentBoardTasks(s), InProgress)|
    ensures r.created == |Kanban.ColumnTasks(GetCurrentBoardTasks(s), Created)|
  {
    Stats.Tally(GetCurrentBoardTasks(s))
  }

  /** A task is overdue when it has a deadline before `now` and is not completed. */
  predicate IsOverdue(t: Task, now: Timestamp) {
    t.deadline.Some? && t.deadline.value < now && t.status != Completed
  }

  /** `overdueTasks`: the board's overdue tasks (the view shows their number). */
  function OverdueTasks(s: AppState, now: Timestamp): (r: seq<Task>)
    ensures forall i :: 0 <= i < |r| ==> r[i] in s.tasks && s.currentBoardId == Some(r[i].boardId) && IsOverdue(r[i], now)
    ensures forall t :: t in s.tasks && s.currentBoardId == Some(t.boardId) && IsOverdue(t, now) ==> t in r
    ensures forall x :: multiset(r)[x] == if s.currentBoardId == Some(x.boardId) && IsOverdue(x, now) then multiset(s.tasks)[x] else 0
  {
    var ts := GetCurrentBoardTasks(s);
    BoardFilterCounts(s, (t: Task) => IsOverdue(t, now));
    Seqs.Filter(ts, (t: Task) => IsOverdue(t, now))
  }

  /** Overdue tasks are open tasks: there are never more of them than tasks not completed, and
      none once every task is completed. */
  lemma OverdueAmongOpen(s: AppState, now: Timestamp)
    ensures |OverdueTasks(s, now)| <= BoardCounts(s).total - BoardCounts(s).completed
  {
    var ts := GetCurrentBoardTasks(s);
    Seqs.FilterStricter(ts, (t: Task) => IsOverdue(t, now), (t: Task) => t.status != Completed);
    OpenAndCompletedPartition(ts);
  }

  /** Every task is either open or completed. */
  lemma OpenAndCompletedPartition(ts: seq<Task>)
    ensures |Seqs.Filter(ts, (t: Task) => t.status != Completed)| + |Kanban.ColumnTasks(ts, Completed)| == |ts|
  {
    var open := Seqs.Filter(ts, (t: Task) => t.status != Completed);
    var done := Kanban.ColumnTasks(ts, Completed);
    Seqs.FilterIsOrderedRestriction(ts, (t: Task) => t.status != Completed);
    Seqs.FilterIsOrderedRestriction(ts, (t: Task) => t.status == Completed);
    assert multiset(open) + multiset(done) == multiset(ts);
    assert |multiset(open) + multiset(done)| == |open| + |done|;
  }

  /** Seven days in milliseconds. */
  const Week := 7 * 24 * 60 * 60 * 1000

  /** `recentTasks`: the board's tasks created in the seven days before `now`. */
  function RecentTasks(s: AppState, now: Timestamp): (r: seq<Task>)
    ensures |r| <= BoardCounts(s).total
    ensures forall i :: 0 <= i < |r| ==> r[i] in s.tasks && s.currentBoardId == Some(r[i].boardId) && r[i].createdAt > now - Week
    ensures forall t :: t in s.tasks && s.currentBoardId == Some(t.boardId) && t.createdAt > now - Week ==> t in r
    ensures forall x :: multiset(r)[x] == if s.currentBoardId == Some(x.boardId) && x.createdAt > now - Week then multiset(s.tasks)[x] else 0
  {
    var ts := GetCurrentBoardTasks(s);
    BoardFilterCounts(s, (t: Task) => t.createdAt > now - Week);
    Seqs.Filter(ts, (t: Task) => t.createdAt > now - Week)
  }

  /** One row of the per-user table: the display name and the user's status counts. */
  datatype UserRow = UserRow(name: string, counts: Stats.Counts)

  /** `userTaskStats`: a row for every user of the current board, in the users' order. */
  function UserRows(s: AppState): (r: seq<UserRow>)
    ensures |r| == |Members.BoardUsers(s)|
    ensures forall i :: 0 <= i < |r| ==>
      var u := Members.BoardUsers(s)[i];
      && r[i].name == u.firstName + " " + u.lastName
      && r[i].counts == Members.UserTaskStats(s, u.id)
  {
    var us := Members.BoardUsers(s);
    seq(|us|, i requires 0 <= i < |us| => UserRow(us[i].firstName + " " + us[i].lastName, Members.UserTaskStats(s, us[i].id)))
  }

  /** No user has more tasks, or more completed tasks, than the board. */
  lemma UserRowsBounded(s: AppState)
    ensures forall i :: 0 <= i < |UserRows(s)| ==>
      && UserRows(s)[i].counts.total <= BoardCounts(s).total
      && UserRows(s)[i].counts.completed <= BoardCounts(s).completed
  {
    var ts := GetCurrentBoardTasks(s);
    forall i | 0 <= i < |UserRows(s)|
      ensures UserRows(s)[i].counts.completed <= BoardCounts(s).completed
    {
      var id := Members.BoardUsers(s)[i].id;
      AssignedCompletedAmongCompleted(ts, id);
    }
  }

  /** The completed tasks assigned to a user are among the completed tasks. */
  lemma {:induction false} AssignedCompletedAmongCompleted(ts: seq<Task>, userId: Id)
    ensures |Kanban.ColumnTasks(Stats.AssignedTo(ts, userId), Completed)| <= |Kanban.ColumnTasks(ts, Completed)|
  {
    if |ts| > 0 {
      AssignedCompletedAmongCompleted(ts[1..], userId);
    }
  }

  /** `completionRate`: the rounded percentage of completed tasks, 0 without tasks. */
  function CompletionRate(s: AppState): (r: nat)
    ensures r <= 100
    ensures BoardCounts(s).total == 0 ==> r == 0
    ensures BoardCounts(s).total > 0 && BoardCounts(s).completed == BoardCounts(s).total ==> r == 100
    ensures BoardCounts(s).completed == 0 ==> r == 0
    ensures r == Stats.RoundedPercent(BoardCounts(s).completed, BoardCounts(s).total)
  {
    var c := BoardCounts(s);
    Stats.PercentInRange(c.completed, c.total);
    Stats.RoundedPercent(c.completed, c.total)
  }
}

=== FILE: auth.dfy ===
/** The sign-in and registration form (src/components/AuthPage.tsx): the four field
    validators, the order in which the form applies them, and what it hands to the store. */
module Auth {
  import opened Wrappers
  import opened Types
  import opened Engine
  import Session

  predicate IsAsciiLetter(c: char) { 'a' <= c <= 'z' || 'A' <= c <= 'Z' }

  predicate IsDigit(c: char) { '0' <= c <= '9' }

  /** `[a-zA-Z0-9]` */
  predicate IsAsciiAlnum(c: char) { IsAsciiLetter(c) || IsDigit(c) }

  /** `[a-zA-Zа-яА-Я]`: the two ranges leave out `ё` and `Ё`, which lie outside `а-я` and `А-Я`. */
  predicate IsNameLetter(c: char) { IsAsciiLetter(c) || 'а' <= c <= 'я' || 'А' <= c <= 'Я' }

  /** `[a-zA-Z0-9@.]`, the characters an email may contain at all. */
  predicate IsEmailChar(c: char) { IsAsciiAlnum(c) || c == '@' || c == '.' }

  /** `[a-zA-Z0-9._%+-]`, the local part of the address pattern. */
  predicate IsLocalChar(c: char) { IsAsciiAlnum(c) || c == '.' || c == '_' || c == '%' || c == '+' || c == '-' }

  /** `[a-zA-Z0-9.-]`, the domain part of the address pattern. */
  predicate IsDomainChar(c: char) { IsAsciiAlnum(c) || c == '.' || c == '-' }

  /** `/^[...]+$/.test(s)` for a character class `p`, without the non-emptiness. */
  function Every(s: string, p: char -> bool): (r: bool)
    ensures r <==> forall i :: 0 <= i < |s| ==> p(s[i])
  {
    |s| == 0 || (p(s[0]) && Every(s[1..], p))
  }

  /** `/[...]/.test(s)` for a character class `p`. */
  function Any(s: string, p: char -> bool): (r: bool)
    ensures r <==> exists i :: 0 <= i < |s| && p(s[i])
  {
    |s| > 0 && (p(s[0]) || Any(s[1..], p))
  }

  /** Why a field was refused; each stands for one of the form's messages. */
  datatype AuthError =
    | UsernameLength | UsernameCharset
    | PasswordLength | PasswordCharset | PasswordNoLetter
    | EmailLength | EmailCharset | EmailShape
    | NameLength | NameCharset

  /** `validatePassword`: 8 to 30 characters, English letters and digits only, at least one letter. */
  function ValidatePassword(p: string): (r: Option<AuthError>)
    ensures r.None? <==>
      8 <= |p| <= 30 && (forall i :: 0 <= i < |p| ==> IsAsciiAlnum(p[i])) && (exists i :: 0 <= i < |p| && IsAsciiLetter(p[i]))
    ensures r == Some(PasswordLength) <==> |p| < 8 || |p| > 30
    ensures r == Some(PasswordCharset) <==> 8 <= |p| <= 30 && exists i :: 0 <= i < |p| && !IsAsciiAlnum(p[i])
    ensures r == Some(PasswordNoLetter) <==>
      8 <= |p| <= 30 && (forall i :: 0 <= i < |p| ==> IsDigit(p[i]))
  {
    if |p| < 8 || |p| > 30 then Some(PasswordLength)
    else if !Every(p, IsAsciiAlnum) then Some(PasswordCharset)
    else if !Any(p, IsAsciiLetter) then Some(PasswordNoLetter)
    else None
  }

  /** `validateUsername`: 8 to 30 characters, English letters and digits only. */
  function ValidateUsername(u: string): (r: Option<AuthError>)
    ensures r.None? <==> 8 <= |u| <= 30 && forall i :: 0 <= i < |u| ==> IsAsciiAlnum(u[i])
    ensures r == Some(UsernameLength) <==> |u| < 8 || |u| > 30
    ensures r.Some? ==> r == Some(UsernameLength) || r == Some(UsernameCharset)
  {
    if |u| < 8 || |u| > 30 then Some(UsernameLength)
    else if !Every(u, IsAsciiAlnum) then Some(UsernameCharset)
    else None
  }

  /** `validateName`: at least two characters, Latin or Cyrillic letters only; no upper bound. */
  function ValidateName(n: string): (r: Option<AuthError>)
    ensures r.None? <==> |n| >= 2 && forall i :: 0 <= i < |n| ==> IsNameLetter(n[i])
    ensures r == Some(NameLength) <==> |n| < 2
    ensures r.Some? ==> r == Some(NameLength) || r == Some(NameCharset)
  {
    if |n| < 2 then Some(NameLength)
    else if !Every(n, IsNameLetter) then Some(NameCharset)
    else None
  }

  /** The name rule refuses a name spelt with `ё`. */
  lemma NameRuleRefusesYo()
    ensures ValidateName("Фёдор") == Some(NameCharset)
  {
    assert !IsNameLetter("Фёдор"[1]);
  }

  /** The address pattern `local@domain.tld` split at `a` (the `@`) and `d` (the last dot):
      a non-empty local part, a non-empty domain and a top-level domain of two or more letters. */
  predicate AddressSplit(s: string, a: int, d: int) {
    && 0 < a && a + 1 < d && d + 2 < |s| && s[a] == '@' && s[d] == '.'
    && (forall i :: 0 <= i < a ==> IsLocalChar(s[i]))
    && (forall i :: a < i < d ==> IsDomainChar(s[i]))
    && (forall i :: d < i < |s| ==> IsAsciiLetter(s[i]))
  }

  /** What the regular expression accepts: some way of cutting the string fits the pattern. */
  ghost predicate MatchesAddressPattern(s: string) {
    exists a, d :: AddressSplit(s, a, d)
  }

  function FirstIndex(s: string, c: char): (r: Option<nat>)
    ensures r.None? <==> forall i :: 0 <= i < |s| ==> s[i] != c
    ensures r.Some? ==> r.value < |s| && s[r.value] == c && forall i :: 0 <= i < r.value ==> s[i] != c
  {
    if |s| == 0 then None
    else if s[0] == c then Some(0)
    else match FirstIndex(s[1..], c)
      case None => None
      case Some(k) => Some(k + 1)
  }

  function LastIndex(s: string, c: char): (r: Option<nat>)
    ensures r.None? <==> forall i :: 0 <= i < |s| ==> s[i] != c
    ensures r.Some? ==> r.value < |s| && s[r.value] == c && forall i :: r.value < i < |s| ==> s[i] != c
  {
    if |s| == 0 then None
    else if s[|s| - 1] == c then Some(|s| - 1)
    else LastIndex(s[..|s| - 1], c)
  }

  /** The matcher: the only possible cut is at the first `@` and the last dot, since no part
      after the local one may hold an `@` and the top-level domain holds no dot. */
  function HasAddressShape(s: string): bool {
    match (FirstIndex(s, '@'), LastIndex(s, '.'))
    case (Some(a), Some(d)) => AddressSplit(s, a, d)
    case _ => false
  }

  /** The matcher decides the address pattern exactly. */
  lemma HasAddressShapeIffMatches(s: string)
    ensures HasAddressShape(s) <==> MatchesAddressPattern(s)
  {
    if MatchesAddressPattern(s) {
      var a, d :| AddressSplit(s, a, d);
      var fa := FirstIndex(s, '@');
      var ld := LastIndex(s, '.');
      assert fa.Some? && ld.Some?;
      assert fa.value == a;
      assert ld.value == d;
    }
  }

  /** `validateEmail`: 8 to 50 characters, only English letters, digits, `@` and `.`, and the
      shape of an address. */
  function ValidateEmail(e: string): (r: Option<AuthError>)
    ensures r.None? <==>
      8 <= |e| <= 50 && (forall i :: 0 <= i < |e| ==> IsEmailChar(e[i])) && MatchesAddressPattern(e)
    ensures r == Some(EmailLength) <==> |e| < 8 || |e| > 50
    ensures r == Some(EmailCharset) <==> 8 <= |e| <= 50 && exists i :: 0 <= i < |e| && !IsEmailChar(e[i])
  {
    HasAddressShapeIffMatches(e);
    if |e| < 8 || |e| > 50 then Some(EmailLength)
    else if !Every(e, IsEmailChar) then Some(EmailCharset)
    else if !HasAddressShape(e) then Some(EmailShape)
    else None
  }

  /** An accepted email holds exactly one `@`, with a dot somewhere after it. */
  lemma ValidEmailHasOneAt(e: string)
    requires ValidateEmail(e).None?
    ensures exists a ::
      && 0 < a < |e| && e[a] == '@'
      && (forall i :: 0 <= i < |e| && i != a ==> e[i] != '@')
      && (exists d :: a < d < |e| && e[d] == '.')
  {
    var a, d :| AddressSplit(e, a, d);
    assert forall i :: 0 <= i < |e| && i != a ==> e[i] != '@';
  }

  /** The sign-in form: the username rule, then the password rule. */
  function ValidateLoginForm(username: string, password: string): (r: Option<AuthError>)
    ensures r.None? <==> ValidateUsername(username).None? && ValidatePassword(password).None?
    ensures ValidateUsername(username).Some? ==> r == ValidateUsername(username)
  {
    if ValidateUsername(username).Some? then ValidateUsername(username) else ValidatePassword(password)
  }

  /** The store signs in by username or email, but the form's username rule turns an email away. */
  lemma LoginFormRefusesEmail(identifier: string, password: string)
    requires exists i :: 0 <= i < |identifier| && identifier[i] == '@'
    ensures ValidateLoginForm(identifier, password).Some?
  {
  }

  /** The registration form's fields, in the order they are checked. */
  datatype Field = Username | Email | Password | FirstName | LastName | Patronymic {
    function Rank(): nat {
      match this
      case Username => 0 case Email => 1 case Password => 2
      case FirstName => 3 case LastName => 4 case Patronymic => 5
    }
  }

  datatype RegisterForm = RegisterForm(
    username: string, email: string, password: string,
    firstName: string, lastName: string, patronymic: string)

  /** The rule applied to one field; an empty patronymic is not checked. */
  function FieldCheck(f: RegisterForm, field: Field): Option<AuthError> {
    match field
    case Username => ValidateUsername(f.username)
    case Email => ValidateEmail(f.email)
    case Password => ValidatePassword(f.password)
    case FirstName => ValidateName(f.firstName)
    case LastName => ValidateName(f.lastName)
    case Patronymic => if f.patronymic == "" then None else ValidateName(f.patronymic)
  }

  /** The registration form's checks in order; the first failing field is reported. */
  function ValidateRegisterForm(f: RegisterForm): (r: Option<(Field, AuthError)>)
    ensures r.None? <==> forall field: Field :: FieldCheck(f, field).None?
    ensures r.Some? ==> FieldCheck(f, r.value.0) == Some(r.value.1)
    ensures r.Some? ==> forall field: Field :: field.Rank() < r.value.0.Rank() ==> FieldCheck(f, field).None?
  {
    if FieldCheck(f, Username).Some? then Some((Username, FieldCheck(f, Username).value))
    else if FieldCheck(f, Email).Some? then Some((Email, FieldCheck(f, Email).value))
    else if FieldCheck(f, Password).Some? then Some((Password, FieldCheck(f, Password).value))
    else if FieldCheck(f, FirstName).Some? then Some((FirstName, FieldCheck(f, FirstName).value))
    else if FieldCheck(f, LastName).Some? then Some((LastName, FieldCheck(f, LastName).value))
    else if FieldCheck(f, Patronymic).Some? then Some((Patronymic, FieldCheck(f, Patronymic).value))
    else None
  }

  /** What a submission comes to: refused by a rule, refused by the store, or a store step. */
  datatype Submission = Invalid(error: AuthError) | InvalidField(field: Field, fieldError: AuthError) | Refused | Accepted(step: Step)

  /** Submitting the sign-in form: the rules first, then `login` with the board code. */
  function SubmitLogin(s: AppState, username: string, password: string, boardCode: string): (r: Submission)
    ensures ValidateLoginForm(username, password).Some? <==> r.Invalid?
    ensures r.Refused? <==> ValidateLoginForm(username, password).None? && !Session.Login(s, username, password, boardCode).0
    ensures r.Accepted? ==> r.step == Session.Login(s, username, password, boardCode).1
    ensures r.Invalid? || r.Refused? || r.Accepted?
  {
    match ValidateLoginForm(username, password)
    case Some(e) => Invalid(e)
    case None =>
      var (ok, st) := Session.Login(s, username, password, boardCode);
      if ok then Accepted(st) else Refused
  }

  /** The record the form passes to `register`: an empty patronymic becomes `undefined`. */
  function ToRegistration(f: RegisterForm): (r: Session.Registration)
    ensures r.patronymic.None? <==> f.patronymic == ""
    ensures r.patronymic.Some? ==> r.patronymic.value == f.patronymic
    ensures r.username == f.username && r.email == f.email && r.password == f.password
    ensures r.firstName == f.firstName && r.lastName == f.lastName
  {
    Session.Registration(f.username, f.email, f.password, f.firstName, f.lastName,
                         if f.patronymic == "" then None else Some(f.patronymic))
  }

  /** Submitting the registration form: the rules in order, then `register` with the board code. */
  function SubmitRegister(s: AppState, f: RegisterForm, boardCode: string, ids: Session.RegisterIds, now: Timestamp): (r: Submission)
    ensures ValidateRegisterForm(f).Some? <==> r.InvalidField?
    ensures r.InvalidField? ==> ValidateRegisterForm(f) == Some((r.field, r.fieldError))
    ensures r.Refused? <==> ValidateRegisterForm(f).None? && Session.Registered(s, f.username, f.email)
    ensures r.Accepted? ==> r.step == Session.Register(s, ToRegistration(f), boardCode, ids, now).1
    ensures r.InvalidField? || r.Refused? || r.Accepted?
  {
    match ValidateRegisterForm(f)
    case Some((field, e)) => InvalidField(field, e)
    case None =>
      var (ok, st) := Session.Register(s, ToRegistration(f), boardCode, ids, now);
      if ok then Accepted(st) else Refused
  }

  /** An account the registration form lets through can sign in through the sign-in form:
      its username and password pass the sign-in rules. */
  lemma RegisteredAccountPassesLoginForm(s: AppState, f: RegisterForm, boardCode: string, ids: Session.RegisterIds, now: Timestamp)
    requires SubmitRegister(s, f, boardCode, ids, now).Accepted?
    ensures var u := SubmitRegister(s, f, boardCode, ids, now).step.actions[1].user;
      ValidateLoginForm(u.username, u.password).None?
  {
    assert FieldCheck(f, Username).None? && FieldCheck(f, Password).None?;
  }
}

=== FILE: boardops.dfy ===
/** The board mutations of src/context/AppContext.tsx: `addBoard`, `updateBoard`,
    `deleteBoard` and `setCurrentBoard`. */
module BoardOps {
  import opened Wrappers
  import opened Types
  import opened Reducer
  import opened History
  import opened Engine
  import opened Text
  import opened UserOps
  import Seqs

  /** The fields a caller gives `addBoard`: a board without id, code, members and timestamps. */
  datatype BoardFields = BoardFields(name: string, description: Option<string>, createdBy: Id)

  /** The signed-in user's id, or the empty id when nobody is signed in. */
  function ActorId(s: AppState): (r: Id)
    ensures s.currentUser.Some? ==> r == s.currentUser.value.id
    ensures s.currentUser.None? ==> r == ""
  {
    if s.currentUser.Some? then s.currentUser.value.id else ""
  }

  /** `addBoard`: the new board gets upper-cased name and description, the fresh id and code,
      the actor as sole member, and is recorded; the actor's record, taken from the session,
      is written back with the board appended to its `boardIds`. */
  function AddBoard(s: AppState, f: BoardFields, id: Id, code: string, now: Timestamp): (r: Step)
    ensures |r.actions| >= 1 && r.actions[0].AddBoard? && r.drafts == []
    ensures var b := r.actions[0].board;
      && b.id == id && b.code == code && b.createdBy == f.createdBy
      && b.name == ToUpper(f.name) && b.description == UpperOpt(f.description)
      && b.memberIds == [ActorId(s)] && b.createdAt == now && b.updatedAt == now
      && r.entry == Some(AddedBoard(b))
    ensures s.currentUser.None? ==> |r.actions| == 1
    ensures s.currentUser.Some? ==>
      var cu := s.currentUser.value;
      r.actions[1..] == [Action.UpdateUser(cu.id, UserSnapshot(cu).(boardIds := Some(cu.boardIds + [id])))]
  {
    var b := Board(id, ToUpper(f.name), UpperOpt(f.description), code, f.createdBy, [ActorId(s)], now, now);
    var link :=
      match s.currentUser
      case None => []
      case Some(cu) => [Action.UpdateUser(cu.id, UserSnapshot(cu).(boardIds := Some(cu.boardIds + [id])))];
    Step([Action.AddBoard(b)] + link, [], Some(AddedBoard(b)))
  }

  /** A board added by a logged-in user is linked both ways: its members are the actor, and
      the session's user and every user record with the actor's id list the new board last. */
  lemma {:induction false} AddBoardLinksActor(s: AppState, f: BoardFields, id: Id, code: string, ids: nat -> Id, now: Timestamp)
    requires s.currentUser.Some?
    ensures var cu := s.currentUser.value;
      var r := Commit(s, AddBoard(s, f, id, code, now), ids, now);
      && |r.boards| == |s.boards| + 1 && r.boards[|s.boards|].id == id && r.boards[|s.boards|].memberIds == [cu.id]
      && r.currentUser == Some(cu.(boardIds := cu.boardIds + [id]))
      && (forall i :: 0 <= i < |r.users| && r.users[i].id == cu.id ==> r.users[i].boardIds == cu.boardIds + [id])
  {
    var cu := s.currentUser.value;
    var st := AddBoard(s, f, id, code, now);
    var p := UserSnapshot(cu).(boardIds := Some(cu.boardIds + [id]));
    var s1 := Apply(s, st.actions[0], now);
    assert st.actions == [st.actions[0]] + [Action.UpdateUser(cu.id, p)];
    ApplyAllConcat(s, [st.actions[0]], [Action.UpdateUser(cu.id, p)], now);
    ApplyAllSingle(s, st.actions[0], now);
    ApplyAllSingle(s1, Action.UpdateUser(cu.id, p), now);
    UpdateUserSyncsCurrentUser(s1, cu.id, p, now);
    CommitDelivers(s, st, ids, now);
  }

  /** The upper-casing `updateBoard` applies to a name or description it is given. */
  function UpperBoardText(p: BoardPatch): (q: BoardPatch)
    ensures q == p.(name := q.name, description := q.description)
    ensures q.name == UpperOpt(p.name)
    ensures q.description.None? <==> p.description.None?
    ensures p.description.Some? ==> q.description.value == UpperOpt(p.description.value)
  {
    p.(name := if p.name.Some? && p.name.value != "" then Some(ToUpper(p.name.value)) else p.name,
       description := if p.description.Some? && p.description.value.Some? && p.description.value.value != ""
                      then Some(Some(ToUpper(p.description.value.value))) else p.description)
  }

  /** `updateBoard`: unconditionally dispatches the upper-cased patch; nothing is recorded. */
  function UpdateBoard(s: AppState, boardId: Id, p: BoardPatch): (r: Step)
    ensures r.actions == [Action.UpdateBoard(boardId, UpperBoardText(p))] && r.drafts == [] && r.entry.None?
  {
    Step([Action.UpdateBoard(boardId, UpperBoardText(p))], [], None)
  }

  /** A renamed board carries the upper-cased name; other boards are untouched. */
  lemma UpdateBoardStoresUpperName(s: AppState, boardId: Id, name: string, ids: nat -> Id, now: Timestamp)
    ensures var r := Commit(s, UpdateBoard(s, boardId, NoBoardChanges.(name := Some(name))), ids, now);
      && |r.boards| == |s.boards| && r.tasks == s.tasks && r.users == s.users
      && (forall i :: 0 <= i < |s.boards| && s.boards[i].id == boardId ==>
            r.boards[i].name == ToUpper(name) && r.boards[i].memberIds == s.boards[i].memberIds)
      && (forall i :: 0 <= i < |s.boards| && s.boards[i].id != boardId ==> r.boards[i] == s.boards[i])
  {
    var p := UpperBoardText(NoBoardChanges.(name := Some(name)));
    CommitDelivers(s, UpdateBoard(s, boardId, NoBoardChanges.(name := Some(name))), ids, now);
    ApplyAllSingle(s, Action.UpdateBoard(boardId, p), now);
    UpdateBoardChangesOnlyTarget(s, boardId, p, now);
  }

  datatype DeleteBoardError = BoardNotFound | NotPermitted

  /** `canDelete`: an administrator may delete any board; the board's creator may delete it
      while another board exists. Nobody logged in may delete nothing. */
  predicate CanDeleteBoard(s: AppState, b: Board) {
    s.currentUser.Some? &&
    (s.currentUser.value.role == Admin || (b.createdBy == s.currentUser.value.id && |s.boards| > 1))
  }

  /** One UPDATE_USER per user listing the board, with the board filtered out of that
      user's `boardIds` as read from `us`. */
  function UnlinkActions(us: seq<User>, boardId: Id): (acts: seq<Action>)
    ensures |acts| <= |us|
  {
    if |us| == 0 then []
    else
      (if boardId in us[0].boardIds
       then [Action.UpdateUser(us[0].id, NoUserChanges.(boardIds := Some(Seqs.Filter(us[0].boardIds, (x: Id) => x != boardId))))]
       else []) + UnlinkActions(us[1..], boardId)
  }

  /** The boards other than the deleted one, in order. */
  function RemainingBoards(s: AppState, boardId: Id): (r: seq<Board>)
    ensures forall i :: 0 <= i < |r| ==> r[i] in s.boards && r[i].id != boardId
    ensures forall i :: 0 <= i < |s.boards| && s.boards[i].id != boardId ==> s.boards[i] in r
  {
    Seqs.Filter(s.boards, (b: Board) => b.id != boardId)
  }

  /** `deleteBoard`. A missing board, or an actor without the right to delete it, is refused.
      Otherwise the board is deleted, unlinked from every user that lists it, replaced as
      current board by the first remaining one if it was current, and recorded. */
  function DeleteBoard(s: AppState, boardId: Id): (r: Result<Step, DeleteBoardError>)
    ensures r == Failure(BoardNotFound) <==> FindBoard(s, boardId).None?
    ensures r == Failure(NotPermitted) <==> FindBoard(s, boardId).Some? && !CanDeleteBoard(s, FindBoard(s, boardId).value)
    ensures r.Success? ==>
      var rest := RemainingBoards(s, boardId);
      var switch := s.currentBoardId == Some(boardId) && |rest| > 0;
      && r.value.drafts == [] && r.value.entry == Some(DeletedBoard(boardId, FindBoard(s, boardId).value))
      && r.value.actions ==
           [Action.DeleteBoard(boardId)] + UnlinkActions(s.users, boardId) +
           (if switch then [Action.SetCurrentBoard(rest[0].id)] else [])
  {
    match FindBoard(s, boardId)
    case None => Failure(BoardNotFound)
    case Some(b) =>
      if !CanDeleteBoard(s, b) then Failure(NotPermitted)
      else
        var rest := RemainingBoards(s, boardId);
        var switch := if s.currentBoardId == Some(boardId) && |rest| > 0 then [Action.SetCurrentBoard(rest[0].id)] else [];
        Success(Step([Action.DeleteBoard(boardId)] + UnlinkActions(s.users, boardId) + switch, [], Some(DeletedBoard(boardId, b))))
  }

  /** Every user record listing the board shares its id with some user of `us` that lists it. */
  ghost predicate Covered(w: seq<User>, us: seq<User>, boardId: Id) {
    forall i :: 0 <= i < |w| && boardId in w[i].boardIds ==>
      exists j :: 0 <= j < |us| && us[j].id == w[i].id && boardId in us[j].boardIds
  }

  /** The unlinking updates, read from a stale list `us` that covers the current one, leave
      no user record listing the board, and change nothing but users and the session's user. */
  lemma {:induction false} UnlinkClears(w: AppState, us: seq<User>, boardId: Id, now: Timestamp)
    requires Covered(w.users, us, boardId)
    ensures var r := ApplyAll(w, UnlinkActions(us, boardId), now);
      && r == w.(users := r.users, currentUser := r.currentUser)
      && forall i :: 0 <= i < |r.users| ==> boardId !in r.users[i].boardIds
    decreases |us|
  {
    if |us| > 0 {
      var u := us[0];
      if boardId in u.boardIds {
        var kept := Seqs.Filter(u.boardIds, (x: Id) => x != boardId);
        var p := NoUserChanges.(boardIds := Some(kept));
        var a := Action.UpdateUser(u.id, p);
        var w1 := Apply(w, a, now);
        UpdateUserSyncsCurrentUser(w, u.id, p, now);
        assert boardId !in kept;
        forall i | 0 <= i < |w1.users| && boardId in w1.users[i].boardIds
          ensures exists j :: 0 <= j < |us[1..]| && us[1..][j].id == w1.users[i].id && boardId in us[1..][j].boardIds
        {
          assert w.users[i].id != u.id && w1.users[i] == w.users[i];
          var j :| 0 <= j < |us| && us[j].id == w.users[i].id && boardId in us[j].boardIds;
          assert us[1..][j - 1] == us[j];
        }
        assert UnlinkActions(us, boardId) == [a] + UnlinkActions(us[1..], boardId);
        ApplyAllConcat(w, [a], UnlinkActions(us[1..], boardId), now);
        ApplyAllSingle(w, a, now);
        UnlinkClears(w1, us[1..], boardId, now);
      } else {
        forall i | 0 <= i < |w.users| && boardId in w.users[i].boardIds
          ensures exists j :: 0 <= j < |us[1..]| && us[1..][j].id == w.users[i].id && boardId in us[1..][j].boardIds
        {
          var j :| 0 <= j < |us| && us[j].id == w.users[i].id && boardId in us[j].boardIds;
          assert us[1..][j - 1] == us[j];
        }
        assert UnlinkActions(us, boardId) == UnlinkActions(us[1..], boardId);
        UnlinkClears(w, us[1..], boardId, now);
      }
    }
  }

  /** The deletion followed by the unlinking updates. */
  lemma {:induction false} DeleteThenUnlink(s: AppState, boardId: Id, now: Timestamp)
    ensures var r := ApplyAll(s, [Action.DeleteBoard(boardId)] + UnlinkActions(s.users, boardId), now);
      && r.boards == RemainingBoards(s, boardId) && r.currentBoardId == s.currentBoardId
      && (forall i :: 0 <= i < |r.users| ==> boardId !in r.users[i].boardIds)
  {
    var s1 := Apply(s, Action.DeleteBoard(boardId), now);
    ApplyAllSingle(s, Action.DeleteBoard(boardId), now);
    ApplyAllConcat(s, [Action.DeleteBoard(boardId)], UnlinkActions(s.users, boardId), now);
    assert Covered(s1.users, s.users, boardId);
    UnlinkClears(s1, s.users, boardId, now);
  }

  /** After a permitted `deleteBoard` the board is gone, no user record lists it, and if it
      was current the first remaining board is current. */
  lemma {:induction false} DeleteBoardCascades(s: AppState, boardId: Id, ids: nat -> Id, now: Timestamp)
    requires DeleteBoard(s, boardId).Success?
    ensures var r := Commit(s, DeleteBoard(s, boardId).value, ids, now);
      var rest := RemainingBoards(s, boardId);
      && (forall i :: 0 <= i < |r.boards| ==> r.boards[i].id != boardId)
      && (forall i :: 0 <= i < |r.users| ==> boardId !in r.users[i].boardIds)
      && (s.currentBoardId == Some(boardId) && |rest| > 0 ==> r.currentBoardId == Some(rest[0].id) && rest[0] in r.boards)
  {
    var st := DeleteBoard(s, boardId).value;
    var rest := RemainingBoards(s, boardId);
    var head := [Action.DeleteBoard(boardId)] + UnlinkActions(s.users, boardId);
    var switch := if s.currentBoardId == Some(boardId) && |rest| > 0 then [Action.SetCurrentBoard(rest[0].id)] else [];
    assert st.actions == head + switch;
    ApplyAllConcat(s, head, switch, now);
    DeleteThenUnlink(s, boardId, now);
    var s2 := ApplyAll(s, head, now);
    if |switch| > 0 {
      ApplyAllSingle(s2, switch[0], now);
    }
    CommitDelivers(s, st, ids, now);
  }

  /** A creator who is not an administrator cannot delete the only board. */
  lemma SoleBoardCreatorRefused(s: AppState, boardId: Id)
    requires s.currentUser.Some? && s.currentUser.value.role == Member
    requires |s.boards| == 1 && s.boards[0].id == boardId && s.boards[0].createdBy == s.currentUser.value.id
    ensures DeleteBoard(s, boardId) == Failure(NotPermitted)
  {
  }

  /** `setCurrentBoard` */
  function SetCurrentBoard(s: AppState, boardId: Id): (r: Step)
    ensures r.actions == [Action.SetCurrentBoard(boardId)] && r.drafts == [] && r.entry.None?
  {
    Step([Action.SetCurrentBoard(boardId)], [], None)
  }
}

=== FILE: engine.dfy ===
/** How a mutation of src/context/AppContext.tsx takes effect. Every mutation reads the state
    of the render it was created in (the React closure `state`), so it is modelled as a pure
    function of that state returning a `Step`: the reducer actions it dispatches in order, the
    notifications it asks `addNotification` for, and the entry it gives `saveToHistory`.
    Notification ids and the current instant are parameters. */
module Engine {
  import opened Wrappers
  import opened Types
  import opened Reducer
  import opened History

  /** `Omit<Notification, 'id' | 'createdAt'>` with `isRead: false`, as every caller passes it. */
  datatype Draft = Draft(recipient: Id, kind: NotificationKind, title: string, message: string, relatedId: Option<Id>)

  datatype Step = Step(actions: seq<Action>, drafts: seq<Draft>, entry: Option<Entry>)

  /** A mutation whose guard fails: nothing is dispatched, notified or recorded. */
  const NoOp := Step([], [], None)

  /** `addNotification`: the draft completed with a fresh id and the creation instant. */
  function Deliver(d: Draft, id: Id, now: Timestamp): (n: Notification)
    ensures n.userId == d.recipient && n.kind == d.kind && n.relatedId == d.relatedId
    ensures !n.isRead && n.id == id && n.createdAt == now
  {
    Notification(id, d.recipient, d.kind, d.title, d.message, false, now, d.relatedId)
  }

  /** The notifications delivered for `ds`, the `i`-th draft receiving id `ids(i)`. */
  function Delivered(ds: seq<Draft>, ids: nat -> Id, now: Timestamp): (ns: seq<Notification>)
    ensures |ns| == |ds|
    ensures forall i :: 0 <= i < |ds| ==> ns[i] == Deliver(ds[i], ids(i), now)
  {
    seq(|ds|, i requires 0 <= i < |ds| => Deliver(ds[i], ids(i), now))
  }

  /** One ADD_NOTIFICATION per notification, in order. */
  function AddNotifications(ns: seq<Notification>): (acts: seq<Action>)
    ensures |acts| == |ns|
    ensures forall i :: 0 <= i < |ns| ==> acts[i] == AddNotification(ns[i])
  {
    seq(|ns|, i requires 0 <= i < |ns| => AddNotification(ns[i]))
  }

  /** Dispatching those actions appends the notifications and changes nothing else. */
  lemma {:induction false} ApplyAddNotifications(s: AppState, ns: seq<Notification>, now: Timestamp)
    ensures ApplyAll(s, AddNotifications(ns), now) == s.(notifications := s.notifications + ns)
    decreases |ns|
  {
    if |ns| > 0 {
      var s1 := Apply(s, AddNotification(ns[0]), now);
      assert AddNotifications(ns)[1..] == AddNotifications(ns[1..]);
      ApplyAddNotifications(s1, ns[1..], now);
      assert s1.notifications + ns[1..] == s.notifications + ns;
    }
  }

  /** The state after a step: its actions, then its notifications. */
  function Commit(s: AppState, st: Step, ids: nat -> Id, now: Timestamp): AppState {
    ApplyAll(ApplyAll(s, st.actions, now), AddNotifications(Delivered(st.drafts, ids, now)), now)
  }

  /** Committing appends exactly the delivered drafts to what the actions produce. */
  lemma CommitDelivers(s: AppState, st: Step, ids: nat -> Id, now: Timestamp)
    ensures var a := ApplyAll(s, st.actions, now);
      Commit(s, st, ids, now) == a.(notifications := a.notifications + Delivered(st.drafts, ids, now))
  {
    ApplyAddNotifications(ApplyAll(s, st.actions, now), Delivered(st.drafts, ids, now), now);
  }

  /** Every draft of a step arrives, unread, with its id and the commit instant. */
  lemma DraftsArrive(s: AppState, st: Step, ids: nat -> Id, now: Timestamp)
    ensures forall i :: 0 <= i < |st.drafts| ==> Deliver(st.drafts[i], ids(i), now) in Commit(s, st, ids, now).notifications
  {
    CommitDelivers(s, st, ids, now);
    var pre := ApplyAll(s, st.actions, now).notifications;
    forall i | 0 <= i < |st.drafts|
      ensures Deliver(st.drafts[i], ids(i), now) in Commit(s, st, ids, now).notifications
    {
      assert Commit(s, st, ids, now).notifications[|pre| + i] == Deliver(st.drafts[i], ids(i), now);
    }
  }

  /** A step with nothing to do leaves the state unchanged. */
  lemma CommitNoOp(s: AppState, ids: nat -> Id, now: Timestamp)
    ensures Commit(s, NoOp, ids, now) == s
  {
    CommitDelivers(s, NoOp, ids, now);
  }

  /** The whole client state: the entity store and the undo/redo log. */
  datatype Store = Store(app: AppState, log: Log)

  /** Running one mutation: commit its step, then record its entry if it has one. */
  function Perform(st: Store, step: Step, ids: nat -> Id, now: Timestamp): (r: Store)
    requires Valid(st.log)
    ensures Valid(r.log)
    ensures step.entry.None? ==> r.log == st.log
    ensures step.entry.Some? ==> r.log == Record(st.log, step.entry.value) && CanUndo(r.log) && !CanRedo(r.log)
  {
    var app := Commit(st.app, step, ids, now);
    match step.entry
    case None => Store(app, st.log)
    case Some(e) => Store(app, Record(st.log, e))
  }

  /** `undoLastAction` on the whole store. */
  function UndoStore(st: Store, now: Timestamp): (r: Store)
    requires Valid(st.log)
    ensures Valid(r.log)
    ensures !CanUndo(st.log) ==> r == st
  {
    var (app, log) := Undo(st.app, st.log, now);
    Store(app, log)
  }

  /** `redoLastAction` on the whole store. */
  function RedoStore(st: Store, now: Timestamp): (r: Store)
    requires Valid(st.log)
    ensures Valid(r.log)
    ensures !CanRedo(st.log) ==> r == st
  {
    var (app, log) := Redo(st.app, st.log, now);
    Store(app, log)
  }
}

=== FILE: header.dfy ===
/** The header bar (src/components/Header.tsx): the board-name shortening, renaming a board,
    the guarded undo and redo buttons, the active-task and unread counters, the board list
    and when a board's delete button is shown. */
module Header {
  import opened Wrappers
  import opened Types
  import opened Text
  import opened Reducer
  import opened Engine
  import opened History
  import opened Queries
  import BoardOps
  import Kanban
  import Panel
  import Stats
  import Seqs

  /** A board name shortened for the header: at most `maxLength` (15 by default) characters, then "...". */
  function TruncateBoardName(name: string, maxLength: nat := 15): (r: string)
    ensures |name| <= maxLength ==> r == name
    ensures |name| > maxLength ==> |r| == maxLength + 3 && r[..maxLength] == name[..maxLength] && r[maxLength..] == "..."
    ensures |r| <= maxLength + 3
  {
    Ellipsize(name, maxLength)
  }

  /** A shortened name starts with the name's first `maxLength` characters and fits in
      `maxLength + 3`, so shortening it again to that width changes nothing. */
  lemma TruncateKeepsPrefix(name: string, maxLength: nat)
    ensures var r := TruncateBoardName(name, maxLength);
      var k := if |name| < maxLength then |name| else maxLength;
      r[..k] == name[..k]
    ensures TruncateBoardName(TruncateBoardName(name, maxLength), maxLength + 3) == TruncateBoardName(name, maxLength)
  {
  }

  /** `handleSaveBoardName`: `updateBoard` with the trimmed name, unless it is blank. */
  function SaveBoardName(s: AppState, boardId: Id, editingName: string): (r: Step)
    ensures IsBlank(editingName) ==> r == NoOp
    ensures !IsBlank(editingName) ==>
      r == BoardOps.UpdateBoard(s, boardId, NoBoardChanges.(name := Some(Trim(editingName))))
  {
    TrimEmptyIffBlank(editingName);
    if Trim(editingName) != "" then BoardOps.UpdateBoard(s, boardId, NoBoardChanges.(name := Some(Trim(editingName))))
    else NoOp
  }

  /** A saved name is never blank: the board gets the trimmed, upper-cased name, which is not
      empty, and the other boards are untouched. */
  lemma SavedBoardNameNotBlank(s: AppState, boardId: Id, editingName: string, ids: nat -> Id, now: Timestamp)
    requires !IsBlank(editingName)
    ensures Trim(editingName) != []
    ensures var r := Commit(s, SaveBoardName(s, boardId, editingName), ids, now);
      && |r.boards| == |s.boards|
      && (forall i :: 0 <= i < |s.boards| && s.boards[i].id == boardId ==>
            r.boards[i].name == ToUpper(Trim(editingName)))
      && (forall i :: 0 <= i < |s.boards| && s.boards[i].id != boardId ==> r.boards[i] == s.boards[i])
  {
    var name := Trim(editingName);
    TrimEmptyIffBlank(editingName);
    var st := SaveBoardName(s, boardId, editingName);
    assert st == BoardOps.UpdateBoard(s, boardId, NoBoardChanges.(name := Some(name)));
    BoardOps.UpdateBoardStoresUpperName(s, boardId, name, ids, now);
  }

  /** `handleUndo`: `undoLastAction` only when `canUndo`. */
  function HandleUndo(st: Store, now: Timestamp): (r: Store)
    requires Valid(st.log)
    ensures !CanUndo(st.log) ==> r == st
    ensures CanUndo(st.log) ==> r == UndoStore(st, now)
  {
    if CanUndo(st.log) then UndoStore(st, now) else st
  }

  /** `handleRedo`: `redoLastAction` only when `canRedo`. */
  function HandleRedo(st: Store, now: Timestamp): (r: Store)
    requires Valid(st.log)
    ensures !CanRedo(st.log) ==> r == st
    ensures CanRedo(st.log) ==> r == RedoStore(st, now)
  {
    if CanRedo(st.log) then RedoStore(st, now) else st
  }

  /** The buttons' guards repeat the store's own: pressing them is exactly undo and redo. */
  lemma GuardsAreRedundant(st: Store, now: Timestamp)
    requires Valid(st.log)
    ensures HandleUndo(st, now) == UndoStore(st, now)
    ensures HandleRedo(st, now) == RedoStore(st, now)
  {
  }

  /** The number of the current board's tasks that are not completed. */
  function ActiveTaskCount(s: AppState): (r: nat)
    ensures r == Stats.Tally(GetCurrentBoardTasks(s)).created + Stats.Tally(GetCurrentBoardTasks(s)).inProgress
  {
    var ts := GetCurrentBoardTasks(s);
    ActiveAndCompletedPartition(ts);
    |Seqs.Filter(ts, (t: Task) => t.status != Completed)|
  }

  /** Every task is either active or completed. */
  lemma ActiveAndCompletedPartition(ts: seq<Task>)
    ensures |Seqs.Filter(ts, (t: Task) => t.status != Completed)| + |Kanban.ColumnTasks(ts, Completed)| == |ts|
  {
    var active := Seqs.Filter(ts, (t: Task) => t.status != Completed);
    var done := Kanban.ColumnTasks(ts, Completed);
    Seqs.FilterIsOrderedRestriction(ts, (t: Task) => t.status != Completed);
    Seqs.FilterIsOrderedRestriction(ts, (t: Task) => t.status == Completed);
    assert multiset(active) + multiset(done) == multiset(ts);
    assert |multiset(active) + multiset(done)| == |active| + |done|;
  }

  /** The number of the signed-in user's unread notifications, counted before sorting. */
  function UnreadCount(s: AppState): (r: nat)
    ensures r == |Panel.UnreadNotifications(s)|
    ensures r == |Seqs.Filter(s.notifications, (n: Notification) => IsCurrentUser(s, n.userId) && !n.isRead)|
  {
    var own := Panel.OwnNotifications(s);
    Seqs.FilterPermutation(own, Panel.UserNotifications(s), (n: Notification) => !n.isRead);
    var unread := Seqs.Filter(s.notifications, (n: Notification) => IsCurrentUser(s, n.userId) && !n.isRead);
    Seqs.FilterIsOrderedRestriction(s.notifications, (n: Notification) => IsCurrentUser(s, n.userId) && !n.isRead);
    assert multiset(Panel.UnreadNotifications(s)) == multiset(unread);
    |Seqs.Filter(own, (n: Notification) => !n.isRead)|
  }

  /** The unread badge counts exactly the notifications the panel lists as unread, and it is
      zero exactly when the panel has none. */
  lemma BadgeMatchesPanel(s: AppState)
    ensures UnreadCount(s) == 0 <==>
      forall i :: 0 <= i < |s.notifications| && IsCurrentUser(s, s.notifications[i].userId) ==> s.notifications[i].isRead
  {
    if UnreadCount(s) > 0 {
      var n := Panel.UnreadNotifications(s)[0];
      assert n in Panel.UnreadNotifications(s);
    } else {
      forall i | 0 <= i < |s.notifications| && IsCurrentUser(s, s.notifications[i].userId)
        ensures s.notifications[i].isRead
      {
        assert s.notifications[i] in Panel.UnreadNotifications(s) <==> !s.notifications[i].isRead;
      }
    }
  }

  /** The delete button of a board in the list: an administrator or the board's creator, and
      more than one board in the list. */
  predicate DeleteVisible(s: AppState, b: Board) {
    && s.currentUser.Some?
    && (s.currentUser.value.role == Admin || b.createdBy == s.currentUser.value.id)
    && |UserBoards(s)| > 1
  }

  /** Whenever the button is shown, `deleteBoard` lets the deletion through. */
  lemma VisibleDeleteIsPermitted(s: AppState, b: Board)
    requires DeleteVisible(s, b)
    ensures BoardOps.CanDeleteBoard(s, b)
  {
  }

  /** The converse fails: an administrator with a single board may delete it, but is not shown
      the button. */
  lemma PermittedDeleteMayBeHidden()
    ensures var admin := User("1", "admin123", "a@x.io", "A", "B", None, "password1", Admin, None, 0, ["1"]);
      var b := Board("1", "B", None, "C", "1", ["1"], 0, 0);
      var s := InitialState.(currentUser := Some(admin), users := [admin], boards := [b]);
      BoardOps.CanDeleteBoard(s, b) && !DeleteVisible(s, b)
  {
    var admin := User("1", "admin123", "a@x.io", "A", "B", None, "password1", Admin, None, 0, ["1"]);
    var b := Board("1", "B", None, "C", "1", ["1"], 0, 0);
    var s := InitialState.(currentUser := Some(admin), users := [admin], boards := [b]);
    assert |UserBoards(s)| <= 1;
  }
}

=== FILE: history.dfy ===
/** The undo/redo log (`saveToHistory`, `undoLastAction`, `redoLastAction`, `canUndo`, `canRedo`
    in src/context/AppContext.tsx): a sequence of at most fifty entries with a cursor on the
    entry that the next undo reverts. */
module History {
  import opened Wrappers
  import opened Types
  import opened Reducer
  import Seqs

  /** `HistoryAction`: the forward action's payload and, where undo needs it, the prior entity. */
  datatype Entry =
    | AddedTask(task: Task)
    | UpdatedTask(taskId: Id, patch: TaskPatch, before: Task)
    | DeletedTask(taskId: Id, deletedTask: Task)
    | AddedUser(user: User)
    | DeletedUser(userId: Id, deletedUser: User)
    | AddedBoard(board: Board)
    | DeletedBoard(boardId: Id, deletedBoard: Board)

  /** `actionHistory` and `historyIndex`. */
  datatype Log = Log(entries: seq<Entry>, cursor: int)

  const Capacity := 50

  /** The persisted defaults: no entries, cursor -1. */
  const EmptyLog := Log([], -1)

  /** The log's invariant: bounded, and the cursor is -1 or on an entry. */
  predicate Valid(l: Log) {
    |l.entries| <= Capacity && -1 <= l.cursor < |l.entries|
  }

  predicate CanUndo(l: Log) {
    l.cursor >= 0
  }

  predicate CanRedo(l: Log) {
    l.cursor < |l.entries| - 1
  }

  /** `saveToHistory`: drop the redo tail, append, and drop the oldest entry past fifty. */
  function Record(l: Log, e: Entry): (r: Log)
    requires Valid(l)
    ensures Valid(r)
    ensures CanUndo(r) && !CanRedo(r)
    ensures r.cursor == |r.entries| - 1 && r.entries[r.cursor] == e
    ensures l.cursor + 1 < Capacity ==> r.entries == l.entries[..l.cursor + 1] + [e]
    ensures l.cursor + 1 == Capacity ==> r.entries == l.entries[1..] + [e]
  {
    var kept := l.entries[..l.cursor + 1] + [e];
    if |kept| > Capacity then Log(kept[1..], l.cursor) else Log(kept, l.cursor + 1)
  }

  /** The completion notices about `taskId` in `ns`. */
  function CompletionNotices(ns: seq<Notification>, taskId: Id): seq<Notification> {
    Seqs.Filter(ns, (n: Notification) => IsCompletionNotice(n, taskId))
  }

  /** The actions undo dispatches for an entry; `ns` is the notification list undo reads. */
  function UndoActions(e: Entry, ns: seq<Notification>): seq<Action> {
    match e
    case AddedTask(t) => [DeleteTask(t.id)]
    case DeletedTask(_, t) => [AddTask(t)]
    case UpdatedTask(id, p, before) =>
      [UpdateTask(id, TaskSnapshot(before))] +
      (if p.status == Some(Completed) && before.status != Completed
       then DeleteNotifications(CompletionNotices(ns, id)) else [])
    case AddedUser(u) => [DeleteUser(u.id)]
    case DeletedUser(_, u) => [AddUser(u)]
    case AddedBoard(b) => [DeleteBoard(b.id)]
    case DeletedBoard(_, b) => [AddBoard(b)]
  }

  /** The actions redo dispatches: the forward action again. */
  function RedoActions(e: Entry): seq<Action> {
    match e
    case AddedTask(t) => [AddTask(t)]
    case DeletedTask(id, _) => [DeleteTask(id)]
    case UpdatedTask(id, p, _) => [UpdateTask(id, p)]
    case AddedUser(u) => [AddUser(u)]
    case DeletedUser(id, _) => [DeleteUser(id)]
    case AddedBoard(b) => [AddBoard(b)]
    case DeletedBoard(id, _) => [DeleteBoard(id)]
  }

  /** `undoLastAction`: revert the entry under the cursor and step the cursor back by one. */
  function Undo(s: AppState, l: Log, now: Timestamp): (r: (AppState, Log))
    requires Valid(l)
    ensures Valid(r.1) && r.1.entries == l.entries
    ensures CanUndo(l) ==> r.1.cursor == l.cursor - 1 && CanRedo(r.1)
    ensures !CanUndo(l) ==> r == (s, l)
  {
    if 0 <= l.cursor < |l.entries| then
      (ApplyAll(s, UndoActions(l.entries[l.cursor], s.notifications), now), l.(cursor := l.cursor - 1))
    else (s, l)
  }

  /** `redoLastAction`: step the cursor forward by one and re-apply that entry. */
  function Redo(s: AppState, l: Log, now: Timestamp): (r: (AppState, Log))
    requires Valid(l)
    ensures Valid(r.1) && r.1.entries == l.entries
    ensures CanRedo(l) ==> r.1.cursor == l.cursor + 1 && CanUndo(r.1)
    ensures !CanRedo(l) ==> r == (s, l)
  {
    if l.cursor < |l.entries| - 1 then
      (ApplyAll(s, RedoActions(l.entries[l.cursor + 1]), now), l.(cursor := l.cursor + 1))
    else (s, l)
  }

  /** Undo then redo, or redo then undo, returns the log to where it was. */
  lemma UndoRedoCursorRoundTrip(s: AppState, l: Log, now: Timestamp)
    requires Valid(l)
    ensures CanUndo(l) ==> var u := Undo(s, l, now); Redo(u.0, u.1, now).1 == l
    ensures CanRedo(l) ==> var d := Redo(s, l, now); Undo(d.0, d.1, now).1 == l
  {
  }

  /** Right after recording, undo reverts the new entry and redo re-applies it. */
  lemma RecordThenUndoRedo(s: AppState, l: Log, e: Entry, now: Timestamp)
    requires Valid(l)
    ensures var r := Record(l, e);
      var u := Undo(s, r, now);
      && u.0 == ApplyAll(s, UndoActions(e, s.notifications), now)
      && Redo(u.0, u.1, now) == (ApplyAll(u.0, RedoActions(e), now), r)
  {
  }

  /** Undoing ADD_TASK removes every task with the added task's id. */
  lemma {:induction false} UndoAddedTaskRemovesIt(s: AppState, l: Log, now: Timestamp)
    requires Valid(l) && CanUndo(l) && l.entries[l.cursor].AddedTask?
    ensures var t := l.entries[l.cursor].task;
      forall x :: x in Undo(s, l, now).0.tasks ==> x.id != t.id
  {
    var t := l.entries[l.cursor].task;
    ApplyAllSingle(s, DeleteTask(t.id), now);
    DeleteTaskKeepsOthers(s, t.id, now);
  }

  /** Undoing DELETE_TASK appends the captured task, unchanged, to the task list. */
  lemma UndoDeletedTaskRestoresIt(s: AppState, l: Log, now: Timestamp)
    requires Valid(l) && CanUndo(l) && l.entries[l.cursor].DeletedTask?
    ensures Undo(s, l, now).0 == s.(tasks := s.tasks + [l.entries[l.cursor].deletedTask])
  {
    ApplyAllSingle(s, AddTask(l.entries[l.cursor].deletedTask), now);
  }

  /** Undoing DELETE_USER or DELETE_BOARD only re-inserts the entity: no user's `boardIds`
      and no board's `memberIds` is restored. */
  lemma UndoDeletionOnlyReinserts(s: AppState, l: Log, now: Timestamp)
    requires Valid(l) && CanUndo(l)
    ensures l.entries[l.cursor].DeletedUser? ==>
      Undo(s, l, now).0 == s.(users := s.users + [l.entries[l.cursor].deletedUser])
    ensures l.entries[l.cursor].DeletedBoard? ==>
      Undo(s, l, now).0 == s.(boards := s.boards + [l.entries[l.cursor].deletedBoard])
  {
    var e := l.entries[l.cursor];
    if e.DeletedUser? {
      ApplyAllSingle(s, AddUser(e.deletedUser), now);
    } else if e.DeletedBoard? {
      ApplyAllSingle(s, AddBoard(e.deletedBoard), now);
    }
  }

  /** Undoing an update that completed a task restores the task's prior fields (with a fresh
      `updatedAt`) and leaves no `task_completed` notification about it. */
  lemma {:induction false} UndoCompletionRetractsNotices(s: AppState, l: Log, now: Timestamp)
    requires Valid(l) && CanUndo(l)
    requires var e := l.entries[l.cursor];
      e.UpdatedTask? && e.patch.status == Some(Completed) && e.before.status != Completed
    ensures var e := l.entries[l.cursor];
      var r := Undo(s, l, now).0;
      && (forall n :: n in r.notifications ==> !IsCompletionNotice(n, e.taskId))
      && (forall i :: 0 <= i < |r.tasks| && r.tasks[i].id == e.taskId ==>
            r.tasks[i] == e.before.(id := e.taskId, updatedAt := now))
  {
    var e := l.entries[l.cursor];
    var s1 := Apply(s, UpdateTask(e.taskId, TaskSnapshot(e.before)), now);
    var dels := DeleteNotifications(CompletionNotices(s.notifications, e.taskId));
    assert UndoActions(e, s.notifications) == [UpdateTask(e.taskId, TaskSnapshot(e.before))] + dels;
    ApplyAllConcat(s, [UpdateTask(e.taskId, TaskSnapshot(e.before))], dels, now);
    ApplyDeleteNotifications(s1, CompletionNotices(s.notifications, e.taskId), now);
    UpdateTaskChangesOnlyTarget(s, e.taskId, TaskSnapshot(e.before), now);
    MergeTaskLaws(e.before, e.before, TaskSnapshot(e.before), now);
    var r := Undo(s, l, now).0;
    forall i | 0 <= i < |r.tasks| && r.tasks[i].id == e.taskId
      ensures r.tasks[i] == e.before.(id := e.taskId, updatedAt := now)
    {
      MergeTaskLaws(s.tasks[i], e.before, TaskSnapshot(e.before), now);
    }
  }
}

=== FILE: kanban.dfy ===
/** The Kanban view (src/components/KanbanBoard.tsx): three status columns over the current
    board's tasks, and the status a drag-and-drop assigns. */
module Kanban {
  import opened Wrappers
  import opened Types
  import opened Reducer
  import opened Engine
  import opened Queries
  import TaskOps
  import Seqs

  /** The column ids, in display order. */
  const ColumnIds := [StatusTag(Created), StatusTag(InProgress), StatusTag(Completed)]

  /** The tasks whose status is the column's, in their original order. */
  function ColumnTasks(ts: seq<Task>, st: Status): (r: seq<Task>)
    ensures forall i :: 0 <= i < |r| ==> r[i] in ts && r[i].status == st
  {
    Seqs.Filter(ts, (t: Task) => t.status == st)
  }

  /** A column as shown: its tasks in display order. */
  function Column(ts: seq<Task>, st: Status): (r: seq<Task>)
    ensures multiset(r) == multiset(ColumnTasks(ts, st))
    ensures OrderedForDisplay(r)
    ensures forall i :: 0 <= i < |r| ==> r[i] in ts && r[i].status == st
  {
    var r := SortTasks(ColumnTasks(ts, st));
    SortedMeansOrdered(r);
    assert forall i :: 0 <= i < |r| ==> r[i] in multiset(ColumnTasks(ts, st));
    r
  }

  lemma {:induction false} ColumnTasksPartition(ts: seq<Task>)
    ensures multiset(ColumnTasks(ts, Created)) + multiset(ColumnTasks(ts, InProgress)) + multiset(ColumnTasks(ts, Completed)) == multiset(ts)
  {
    var m := multiset(ColumnTasks(ts, Created)) + multiset(ColumnTasks(ts, InProgress)) + multiset(ColumnTasks(ts, Completed));
    forall x: Task ensures m[x] == multiset(ts)[x] {
      Seqs.FilterIsOrderedRestriction(ts, (t: Task) => t.status == Created);
      Seqs.FilterIsOrderedRestriction(ts, (t: Task) => t.status == InProgress);
      Seqs.FilterIsOrderedRestriction(ts, (t: Task) => t.status == Completed);
    }
  }

  /** The three columns partition the tasks: together they hold each task exactly as often
      as the list does (and `Column` keeps each to its own status). */
  lemma ColumnsPartition(ts: seq<Task>)
    ensures multiset(Column(ts, Created)) + multiset(Column(ts, InProgress)) + multiset(Column(ts, Completed)) == multiset(ts)
  {
    ColumnTasksPartition(ts);
  }

  /** `handleDragEnd`'s decision: the task to move and its new status, if any. `over` is the
      drop target's id (none when dropped outside any target). */
  function DragEnd(tasks: seq<Task>, activeId: Id, over: Option<Id>): (r: Option<(Id, Status)>)
    ensures over.None? || over == Some(activeId) ==> r.None?
    ensures (forall i :: 0 <= i < |tasks| ==> tasks[i].id != activeId) ==> r.None?
    ensures r.Some? ==> r.value.0 == activeId && over.Some?
    ensures over.Some? && over != Some(activeId) && (exists i :: 0 <= i < |tasks| && tasks[i].id == activeId) ==>
      && (StatusOfTag(over.value).Some? ==> r == Some((activeId, StatusOfTag(over.value).value)))
      && (StatusOfTag(over.value).None? ==>
            var target := Seqs.FindFirst(tasks, (t: Task) => t.id == over.value);
            && (target.None? ==> r.None?)
            && (target.Some? ==> r == Some((activeId, target.value.status))))
  {
    if over.None? || over.value == activeId then None
    else if Seqs.FindFirst(tasks, (t: Task) => t.id == activeId).None? then None
    else match StatusOfTag(over.value)
      case Some(st) => Some((activeId, st))
      case None =>
        match Seqs.FindFirst(tasks, (t: Task) => t.id == over.value)
        case None => None
        case Some(target) => Some((activeId, target.status))
  }

  /** A drop onto a task hands the dragged task that task's status. */
  lemma DropOnTaskAdoptsStatus(tasks: seq<Task>, activeId: Id, k: nat)
    requires k < |tasks| && tasks[k].id != activeId && StatusOfTag(tasks[k].id).None?
    requires forall i :: 0 <= i < k ==> tasks[i].id != tasks[k].id
    requires exists i :: 0 <= i < |tasks| && tasks[i].id == activeId
    ensures DragEnd(tasks, activeId, Some(tasks[k].id)) == Some((activeId, tasks[k].status))
  {
    var target := Seqs.FindFirst(tasks, (t: Task) => t.id == tasks[k].id);
    var j :| 0 <= j < |tasks| && tasks[j] == target.value && tasks[j].id == tasks[k].id &&
             forall m :: 0 <= m < j ==> tasks[m].id != tasks[k].id;
    assert j == k;
  }

  /** A drop onto a column hands the dragged task that column's status. */
  lemma DropOnColumnSetsStatus(tasks: seq<Task>, activeId: Id, st: Status)
    requires exists i :: 0 <= i < |tasks| && tasks[i].id == activeId
    requires activeId != StatusTag(st)
    ensures DragEnd(tasks, activeId, Some(StatusTag(st))) == Some((activeId, st))
  {
    StatusTagRoundTrip(st);
  }

  /** The drag's effect on the store: `updateTask` with the new status, or nothing. */
  function DragEndStep(s: AppState, activeId: Id, over: Option<Id>, now: Timestamp): (r: Step)
    ensures DragEnd(GetCurrentBoardTasks(s), activeId, over).None? ==> r == NoOp
    ensures DragEnd(GetCurrentBoardTasks(s), activeId, over).Some? ==>
      r == TaskOps.UpdateTask(s, activeId, NoTaskChanges.(status := Some(DragEnd(GetCurrentBoardTasks(s), activeId, over).value.1)), now)
  {
    match DragEnd(GetCurrentBoardTasks(s), activeId, over)
    case None => NoOp
    case Some((id, st)) => TaskOps.UpdateTask(s, id, NoTaskChanges.(status := Some(st)), now)
  }
}

=== FILE: members.dfy ===
/** The users view (src/components/UserManagement.tsx): who is listed for the current board,
    adding an existing account to the board or changing a listed user's role, removing a
    user, and the per-user task statistics. */
module Members {
  import opened Wrappers
  import opened Types
  import opened Reducer
  import opened Engine
  import opened Queries
  import UserOps
  import Seqs
  import Stats
  import Kanban

  /** The current board's id, or the empty id when no board is current. */
  function BoardKey(s: AppState): Id {
    OrElse(s.currentBoardId, "")
  }

  /** The users whose board list holds the current board. */
  function BoardUsers(s: AppState): (r: seq<User>)
    ensures forall i :: 0 <= i < |r| ==> r[i] in s.users && BoardKey(s) in r[i].boardIds
    ensures forall i :: 0 <= i < |s.users| && BoardKey(s) in s.users[i].boardIds ==> s.users[i] in r
    ensures Seqs.IsSubsequence(r, s.users)
    ensures forall u :: multiset(r)[u] == if BoardKey(s) in u.boardIds then multiset(s.users)[u] else 0
  {
    Seqs.FilterIsOrderedRestriction(s.users, (u: User) => BoardKey(s) in u.boardIds);
    Seqs.Filter(s.users, (u: User) => BoardKey(s) in u.boardIds)
  }

  /** The first account whose username equals the given one exactly, case included. */
  function FindByUsername(s: AppState, username: string): (r: Option<User>)
    ensures r.None? <==> forall i :: 0 <= i < |s.users| ==> s.users[i].username != username
    ensures r.Some? ==> r.value in s.users && r.value.username == username
  {
    Seqs.FindFirst(s.users, (u: User) => u.username == username)
  }

  datatype MemberError = UnknownUsername | AlreadyOnBoard

  /** The role-only update of the edit mode. */
  function RolePatch(role: Role): (p: UserPatch)
    ensures forall u: User :: MergeUser(u, p) == u.(role := role)
  {
    NoUserChanges.(role := Some(role))
  }

  /** `handleSubmit` as written. The username must name an account that is not on the board
      yet; then the edited user's role is updated, or (when adding) the account gets the
      board appended to its boards and the chosen role. */
  function SubmitMember(s: AppState, editing: Option<User>, username: string, role: Role): (r: Result<Step, MemberError>)
    ensures FindByUsername(s, username).None? ==> r == Failure(UnknownUsername)
    ensures FindByUsername(s, username).Some? && BoardKey(s) in FindByUsername(s, username).value.boardIds ==>
      r == Failure(AlreadyOnBoard)
    ensures r.Success? ==>
      var u := FindByUsername(s, username).value;
      && BoardKey(s) !in u.boardIds
      && (editing.Some? ==> r.value == UserOps.UpdateUser(s, editing.value.id, RolePatch(role)))
      && (editing.None? ==> r.value == UserOps.UpdateUser(s, u.id, RolePatch(role).(boardIds := Some(u.boardIds + [BoardKey(s)]))))
    ensures r.Failure? || r.Success?
  {
    match FindByUsername(s, username)
    case None => Failure(UnknownUsername)
    case Some(u) =>
      if BoardKey(s) in u.boardIds then Failure(AlreadyOnBoard)
      else if editing.Some? then Success(UserOps.UpdateUser(s, editing.value.id, RolePatch(role)))
      else Success(UserOps.UpdateUser(s, u.id, RolePatch(role).(boardIds := Some(u.boardIds + [BoardKey(s)]))))
  }

  /** Usernames name accounts uniquely, as sign-up and `addUser` keep them. */
  predicate UniqueUsernames(s: AppState) {
    forall i, j :: 0 <= i < |s.users| && 0 <= j < |s.users| && s.users[i].username == s.users[j].username ==> i == j
  }

  /** The edit mode fills the username with the edited user's own, and only users on the board
      are listed for editing, so the membership check always refuses: no role can be changed. */
  lemma EditAlwaysRefused(s: AppState, user: User, role: Role)
    requires user in BoardUsers(s) && UniqueUsernames(s)
    ensures SubmitMember(s, Some(user), user.username, role) == Failure(AlreadyOnBoard)
  {
    var found := FindByUsername(s, user.username);
    assert found.Some?;
    var i :| 0 <= i < |s.users| && s.users[i] == user;
    var j :| 0 <= j < |s.users| && s.users[j] == found.value;
  }

  /** `handleSubmit` with the membership check applied only when adding: editing updates the
      role directly. */
  function SubmitMemberFixed(s: AppState, editing: Option<User>, username: string, role: Role): (r: Result<Step, MemberError>)
    ensures editing.Some? ==> r == Success(UserOps.UpdateUser(s, editing.value.id, RolePatch(role)))
    ensures editing.None? ==> r == SubmitMember(s, None, username, role)
  {
    if editing.Some? then Success(UserOps.UpdateUser(s, editing.value.id, RolePatch(role)))
    else SubmitMember(s, None, username, role)
  }

  /** With the fix, editing a listed user sets that user's role and changes nothing else about
      the users. */
  lemma FixedEditSetsRole(s: AppState, user: User, role: Role, ids: nat -> Id, now: Timestamp)
    requires user in BoardUsers(s)
    ensures SubmitMemberFixed(s, Some(user), user.username, role).Success?
    ensures var r := Commit(s, SubmitMemberFixed(s, Some(user), user.username, role).value, ids, now);
      && |r.users| == |s.users|
      && (forall i :: 0 <= i < |s.users| && s.users[i].id == user.id ==> r.users[i] == s.users[i].(role := role))
      && (forall i :: 0 <= i < |s.users| && s.users[i].id != user.id ==> r.users[i] == s.users[i])
  {
    assert FindUser(s, user.id).Some?;
    UserOps.UpdateUserStoresUpperNames(s, user.id, RolePatch(role), ids, now);
  }

  /** Adding an account to the board appends the board to its boards and sets the role, so the
      account is listed for the board afterwards. */
  lemma AddMemberJoinsBoard(s: AppState, username: string, role: Role, ids: nat -> Id, now: Timestamp)
    requires SubmitMember(s, None, username, role).Success?
    ensures var u := FindByUsername(s, username).value;
      var r := Commit(s, SubmitMember(s, None, username, role).value, ids, now);
      && |r.users| == |s.users|
      && (forall i :: 0 <= i < |s.users| && s.users[i].id == u.id ==>
            && r.users[i].boardIds == u.boardIds + [BoardKey(s)]
            && r.users[i].role == role
            && BoardKey(s) in r.users[i].boardIds)
      && (forall i :: 0 <= i < |s.users| && s.users[i].id != u.id ==> r.users[i] == s.users[i])
  {
    var u := FindByUsername(s, username).value;
    assert FindUser(s, u.id).Some?;
    UserOps.UpdateUserStoresUpperNames(s, u.id, RolePatch(role).(boardIds := Some(u.boardIds + [BoardKey(s)])), ids, now);
  }

  datatype RemoveError = SelfRemoval

  /** `handleDelete`: one's own account is refused; any other user is deleted (the
      confirmation dialog aside). */
  function RemoveUser(s: AppState, user: User): (r: Result<Step, RemoveError>)
    ensures r.Failure? <==> IsCurrentUser(s, user.id)
    ensures r.Success? ==> r.value == UserOps.DeleteUser(s, user.id)
  {
    if IsCurrentUser(s, user.id) then Failure(SelfRemoval) else Success(UserOps.DeleteUser(s, user.id))
  }

  /** Removing a user through the view never removes the signed-in account. */
  lemma RemoveUserSparesViewer(s: AppState, user: User, ids: nat -> Id, now: Timestamp)
    requires RemoveUser(s, user).Success? && s.currentUser.Some?
    ensures var r := Commit(s, RemoveUser(s, user).value, ids, now);
      && r.currentUser == s.currentUser
      && multiset(r.users)[s.currentUser.value] == multiset(s.users)[s.currentUser.value]
  {
    var st := RemoveUser(s, user).value;
    CommitDelivers(s, st, ids, now);
    if FindUser(s, user.id).Some? {
      ApplyAllSingle(s, Action.DeleteUser(user.id), now);
      DeleteUserKeepsOthers(s, user.id, now);
    }
  }

  /** `getUserTaskStats`: the status counts of the current board's tasks assigned to the user;
      the view's total is their sum. */
  function UserTaskStats(s: AppState, userId: Id): (r: Stats.Counts)
    ensures r.completed + r.inProgress + r.created == r.total
    ensures r.total == |Stats.AssignedTo(GetCurrentBoardTasks(s), userId)|
    ensures r.completed == |Kanban.ColumnTasks(Stats.AssignedTo(GetCurrentBoardTasks(s), userId), Completed)|
    ensures r.inProgress == |Kanban.ColumnTasks(Stats.AssignedTo(GetCurrentBoardTasks(s), userId), InProgress)|
    ensures r.created == |Kanban.ColumnTasks(Stats.AssignedTo(GetCurrentBoardTasks(s), userId), Created)|
  {
    Stats.Tally(Stats.AssignedTo(GetCurrentBoardTasks(s), userId))
  }

  /** The efficiency column of a row: the rounded share of completed tasks among the row's
      counted tasks, 0 without tasks. */
  function Efficiency(c: Stats.Counts): (r: nat)
    requires c.completed + c.inProgress + c.created == c.total
    ensures r <= 100
    ensures c.total == 0 ==> r == 0
    ensures c.total > 0 ==> 2 * c.total * r <= 200 * c.completed + c.total < 2 * c.total * (r + 1)
  {
    Stats.PercentInRange(c.completed, c.total);
    Stats.RoundedPercent(c.completed, c.total)
  }
}

=== FILE: notices.dfy ===
/** Notification reads in src/context/AppContext.tsx: `markNotificationAsRead` and
    `markAllNotificationsAsRead`. */
module NoticeOps {
  import opened Wrappers
  import opened Types
  import opened Reducer
  import opened Engine
  import Seqs

  const MarkRead := NotificationPatch(Some(true))

  /** `markNotificationAsRead` */
  function MarkNotificationAsRead(s: AppState, notificationId: Id): (r: Step)
    ensures r.actions == [UpdateNotification(notificationId, MarkRead)] && r.drafts == [] && r.entry.None?
  {
    Step([UpdateNotification(notificationId, MarkRead)], [], None)
  }

  /** One `{ isRead: true }` update per id. */
  function ReadMarks(ids: seq<Id>): (acts: seq<Action>)
    ensures |acts| == |ids|
    ensures forall i :: 0 <= i < |ids| ==> acts[i] == UpdateNotification(ids[i], MarkRead)
  {
    seq(|ids|, i requires 0 <= i < |ids| => UpdateNotification(ids[i], MarkRead))
  }

  /** Applying the read marks for `ids` sets `isRead` on exactly the notifications whose id
      is among them and changes nothing else. */
  lemma {:induction false} ApplyReadMarks(w: AppState, ids: seq<Id>, now: Timestamp)
    ensures var r := ApplyAll(w, ReadMarks(ids), now);
      && r == w.(notifications := r.notifications)
      && |r.notifications| == |w.notifications|
      && forall i :: 0 <= i < |w.notifications| ==>
           r.notifications[i] == if w.notifications[i].id in ids then w.notifications[i].(isRead := true) else w.notifications[i]
    decreases |ids|
  {
    if |ids| > 0 {
      var w1 := Apply(w, UpdateNotification(ids[0], MarkRead), now);
      assert ReadMarks(ids)[1..] == ReadMarks(ids[1..]);
      ApplyReadMarks(w1, ids[1..], now);
      assert forall x :: x in ids <==> x == ids[0] || x in ids[1..];
    }
  }

  /** The ids of the logged-in user's unread notifications (`n.userId === state.currentUser?.id`). */
  function OwnUnreadIds(s: AppState): (r: seq<Id>)
    ensures forall i :: 0 <= i < |s.notifications| && IsCurrentUser(s, s.notifications[i].userId) && !s.notifications[i].isRead ==>
      s.notifications[i].id in r
    ensures forall x :: x in r ==>
      exists i :: 0 <= i < |s.notifications| && s.notifications[i].id == x &&
                  IsCurrentUser(s, s.notifications[i].userId) && !s.notifications[i].isRead
  {
    var own := Seqs.Filter(s.notifications, (n: Notification) => IsCurrentUser(s, n.userId) && !n.isRead);
    var r := seq(|own|, i requires 0 <= i < |own| => own[i].id);
    assert forall i :: 0 <= i < |own| ==> r[i] == own[i].id;
    forall i | 0 <= i < |s.notifications| && IsCurrentUser(s, s.notifications[i].userId) && !s.notifications[i].isRead
      ensures s.notifications[i].id in r
    {
      var j :| 0 <= j < |own| && own[j] == s.notifications[i];
      assert r[j] == s.notifications[i].id;
    }
    r
  }

  /** `markAllNotificationsAsRead`: one read mark per unread notification of the logged-in user. */
  function MarkAllNotificationsAsRead(s: AppState): (r: Step)
    ensures r.actions == ReadMarks(OwnUnreadIds(s)) && r.drafts == [] && r.entry.None?
  {
    Step(ReadMarks(OwnUnreadIds(s)), [], None)
  }

  /** Afterwards every notification of the logged-in user is read, and only the read flag of
      notifications changes. */
  lemma MarkAllReadsOwn(s: AppState, ids: nat -> Id, now: Timestamp)
    ensures var r := Commit(s, MarkAllNotificationsAsRead(s), ids, now);
      && r == s.(notifications := r.notifications)
      && |r.notifications| == |s.notifications|
      && (forall i :: 0 <= i < |s.notifications| ==> r.notifications[i] == s.notifications[i].(isRead := r.notifications[i].isRead))
      && (forall i :: 0 <= i < |s.notifications| && IsCurrentUser(s, s.notifications[i].userId) ==> r.notifications[i].isRead)
  {
    CommitDelivers(s, MarkAllNotificationsAsRead(s), ids, now);
    ApplyReadMarks(s, OwnUnreadIds(s), now);
  }

  /** Clicking a notification marks every notification with that id read and no other. */
  lemma MarkOneReadsOnlyIt(s: AppState, notificationId: Id, ids: nat -> Id, now: Timestamp)
    ensures var r := Commit(s, MarkNotificationAsRead(s, notificationId), ids, now);
      && r == s.(notifications := r.notifications)
      && |r.notifications| == |s.notifications|
      && (forall i :: 0 <= i < |s.notifications| && s.notifications[i].id == notificationId ==>
            r.notifications[i] == s.notifications[i].(isRead := true))
      && (forall i :: 0 <= i < |s.notifications| && s.notifications[i].id != notificationId ==>
            r.notifications[i] == s.notifications[i])
  {
    CommitDelivers(s, MarkNotificationAsRead(s, notificationId), ids, now);
    ApplyAllSingle(s, UpdateNotification(notificationId, MarkRead), now);
  }
}

=== FILE: panel.dfy ===
/** The notification panel (src/components/NotificationPanel.tsx): the signed-in user's
    notifications newest first, the unread ones among them, marking one read on click, and
    the text normalisation applied to titles and messages. */
module Panel {
  import opened Types
  import opened Text
  import opened Sorting
  import opened Engine
  import NoticeOps
  import Seqs

  /** The signed-in user's notifications in stored order; none when nobody is signed in. */
  function OwnNotifications(s: AppState): (r: seq<Notification>)
    ensures forall i :: 0 <= i < |r| ==> r[i] in s.notifications && IsCurrentUser(s, r[i].userId)
    ensures forall i :: 0 <= i < |s.notifications| && IsCurrentUser(s, s.notifications[i].userId) ==> s.notifications[i] in r
  {
    Seqs.Filter(s.notifications, (n: Notification) => IsCurrentUser(s, n.userId))
  }

  /** The comparator `b.createdAt - a.createdAt`: `a` may come first when it is not older. */
  predicate NewerFirst(a: Notification, b: Notification) {
    b.createdAt - a.createdAt <= 0
  }

  lemma NewerFirstIsTotalPreorder()
    ensures IsTotalPreorder(NewerFirst)
  {
  }

  /** `userNotifications`: the user's notifications, each as often as stored, newest first. */
  function UserNotifications(s: AppState): (r: seq<Notification>)
    ensures multiset(r) == multiset(OwnNotifications(s))
    ensures forall i, j :: 0 <= i < j < |r| ==> r[i].createdAt >= r[j].createdAt
    ensures forall n :: n in r <==> n in s.notifications && IsCurrentUser(s, n.userId)
  {
    var own := OwnNotifications(s);
    NewerFirstIsTotalPreorder();
    SortSorted(own, NewerFirst);
    var r := Sort(own, NewerFirst);
    assert forall n :: n in r <==> n in multiset(own);
    r
  }

  /** `unreadNotifications`: the shown notifications not yet read, each as often as stored. */
  function UnreadNotifications(s: AppState): (r: seq<Notification>)
    ensures forall n :: n in r <==> n in s.notifications && IsCurrentUser(s, n.userId) && !n.isRead
    ensures forall n :: multiset(r)[n] == if IsCurrentUser(s, n.userId) && !n.isRead then multiset(s.notifications)[n] else 0
    ensures forall i, j :: 0 <= i < j < |r| ==> r[i].createdAt >= r[j].createdAt
  {
    var shown := UserNotifications(s);
    var r := Seqs.Filter(shown, (n: Notification) => !n.isRead);
    UnreadCounts(s);
    Seqs.FilterIsOrderedRestriction(shown, (n: Notification) => !n.isRead);
    SubsequenceKeepsOrder(r, shown);
    r
  }

  /** The unread filter of the shown notifications keeps each of the user's unread
      notifications exactly as often as it is stored. */
  lemma UnreadCounts(s: AppState)
    ensures forall n ::
      multiset(Seqs.Filter(UserNotifications(s), (n: Notification) => !n.isRead))[n] == if IsCurrentUser(s, n.userId) && !n.isRead then multiset(s.notifications)[n] else 0
  {
    var shown := UserNotifications(s);
    Seqs.FilterIsOrderedRestriction(s.notifications, (n: Notification) => IsCurrentUser(s, n.userId));
    Seqs.FilterIsOrderedRestriction(shown, (n: Notification) => !n.isRead);
  }

  /** A subsequence of a newest-first list is newest first. */
  lemma {:induction false} SubsequenceKeepsOrder(r: seq<Notification>, s: seq<Notification>)
    requires Seqs.IsSubsequence(r, s)
    requires forall i, j :: 0 <= i < j < |s| ==> s[i].createdAt >= s[j].createdAt
    ensures forall i, j :: 0 <= i < j < |r| ==> r[i].createdAt >= r[j].createdAt
    ensures forall i :: 0 <= i < |r| ==> r[i] in s
    decreases |s|
  {
    if |r| > 0 && |s| > 0 {
      if r[0] == s[0] {
        SubsequenceKeepsOrder(r[1..], s[1..]);
        forall j | 0 < j < |r| ensures r[0].createdAt >= r[j].createdAt {
          assert r[j] == r[1..][j - 1];
          var k :| 0 <= k < |s[1..]| && s[1..][k] == r[j];
          assert s[k + 1] == r[j];
        }
        forall i | 0 <= i < |r| ensures r[i] in s {
          if i > 0 { assert r[i] == r[1..][i - 1]; }
        }
      } else {
        SubsequenceKeepsOrder(r, s[1..]);
        forall j, k | 0 <= j < k < |s[1..]| ensures s[1..][j].createdAt >= s[1..][k].createdAt {
          assert s[1..][j] == s[j + 1] && s[1..][k] == s[k + 1];
        }
      }
    }
  }

  /** `handleNotificationClick`: `markNotificationAsRead` with the clicked id. */
  function ClickNotification(s: AppState, notificationId: Id): (r: Step)
    ensures r == NoticeOps.MarkNotificationAsRead(s, notificationId)
    ensures r.drafts == [] && r.entry.None?
  {
    NoticeOps.MarkNotificationAsRead(s, notificationId)
  }

  /** After a click the clicked notification is no longer among the unread ones, and every
      other unread one still is. */
  lemma ClickRemovesFromUnread(s: AppState, notificationId: Id, ids: nat -> Id, now: Timestamp)
    ensures var r := Commit(s, ClickNotification(s, notificationId), ids, now);
      && (forall n :: n in UnreadNotifications(r) ==> n.id != notificationId)
      && (forall n :: n in UnreadNotifications(s) && n.id != notificationId ==> n in UnreadNotifications(r))
  {
    var r := Commit(s, ClickNotification(s, notificationId), ids, now);
    NoticeOps.MarkOneReadsOnlyIt(s, notificationId, ids, now);
    forall n | n in UnreadNotifications(r) ensures n.id != notificationId {
      var i :| 0 <= i < |r.notifications| && r.notifications[i] == n;
    }
    forall n | n in UnreadNotifications(s) && n.id != notificationId ensures n in UnreadNotifications(r) {
      var i :| 0 <= i < |s.notifications| && s.notifications[i] == n;
      assert r.notifications[i] == n;
    }
  }

  /** `formatNotificationText`: the first character upper-cased, the rest lower-cased. */
  function FormatNotificationText(text: string): (r: string)
    ensures |r| == |text|
    ensures |text| > 0 ==> r[0] == UpperChar(text[0])
    ensures forall i :: 0 < i < |text| ==> r[i] == LowerChar(text[i])
  {
    if |text| == 0 then "" else ToUpper(text[..1]) + ToLower(text[1..])
  }

  /** Formatting an already formatted text changes nothing. */
  lemma FormatIdempotent(text: string)
    ensures FormatNotificationText(FormatNotificationText(text)) == FormatNotificationText(text)
  {
    var once := FormatNotificationText(text);
    var twice := FormatNotificationText(once);
    forall i | 0 <= i < |text| ensures twice[i] == once[i] {
      CaseMappingsAbsorb(text[i]);
    }
  }
}

=== FILE: profile.dfy ===
/** The profile dialog (src/components/ProfileModal.tsx): the avatar checks, the checks on
    saving, the update it sends, and the signed-in user's per-board statistics. It applies
    the same name and password rules as the sign-up form. */
module Profile {
  import opened Wrappers
  import opened Types
  import opened Reducer
  import opened Engine
  import Auth
  import UserOps
  import Seqs
  import Stats
  import Queries

  datatype ProfileForm = ProfileForm(
    firstName: string, lastName: string, patronymic: string, email: string, username: string,
    password: string, newPassword: string, confirmPassword: string)

  /** The form as the dialog opens: the signed-in user's details, empty password fields. */
  function InitialForm(s: AppState): (r: ProfileForm)
    ensures r.password == "" && r.newPassword == "" && r.confirmPassword == ""
    ensures s.currentUser.None? ==> r == ProfileForm("", "", "", "", "", "", "", "")
    ensures s.currentUser.Some? ==>
      var u := s.currentUser.value;
      && r.firstName == u.firstName && r.lastName == u.lastName && r.email == u.email && r.username == u.username
      && r.patronymic == OrElse(u.patronymic, "")
  {
    match s.currentUser
    case None => ProfileForm("", "", "", "", "", "", "", "")
    case Some(u) => ProfileForm(u.firstName, u.lastName, OrElse(u.patronymic, ""), u.email, u.username, "", "", "")
  }

  /** The avatar part of the dialog: whether a new file was picked, and the preview shown. */
  datatype AvatarState = AvatarState(picked: bool, preview: Option<string>)

  /** The preview the dialog opens with: the user's avatar when it is a non-empty string, else none. */
  function InitialAvatar(s: AppState): (r: AvatarState)
    ensures !r.picked
    ensures r.preview.Some? <==> s.currentUser.Some? && s.currentUser.value.avatar.Some? && s.currentUser.value.avatar.value != ""
    ensures r.preview.Some? ==> r.preview == s.currentUser.value.avatar
  {
    if s.currentUser.Some? && s.currentUser.value.avatar.Some? && s.currentUser.value.avatar.value != ""
    then AvatarState(false, s.currentUser.value.avatar)
    else AvatarState(false, None)
  }

  /** A picked image file: its MIME type and size in bytes. */
  datatype ImageFile = ImageFile(mime: string, size: int)

  datatype AvatarError = NotAnImage | AvatarTooLarge

  /** 2 MB. */
  const MaxAvatarSize := 2 * 1024 * 1024

  /** `handleAvatarChange`: only an image (a MIME type starting with `image/`) of at most
      2 MB is taken, and it becomes the preview (`dataUrl` is what the file reader yields);
      a refused file changes nothing. */
  function ChooseAvatar(a: AvatarState, f: ImageFile, dataUrl: string): (r: Result<AvatarState, AvatarError>)
    ensures r.Success? <==> "image/" <= f.mime && f.size <= MaxAvatarSize
    ensures r.Failure? ==> (r.error == NotAnImage <==> !("image/" <= f.mime))
    ensures r.Success? ==> r.value == AvatarState(true, Some(dataUrl))
  {
    if !("image/" <= f.mime) then Failure(NotAnImage)
    else if f.size > MaxAvatarSize then Failure(AvatarTooLarge)
    else Success(AvatarState(true, Some(dataUrl)))
  }

  /** `handleRemoveAvatar` */
  function RemoveAvatar(a: AvatarState): (r: AvatarState)
    ensures !r.picked && r.preview.None?
  {
    AvatarState(false, None)
  }

  /** Why saving the profile stops. */
  datatype ProfileError =
    | BadFirstName(nameError: Auth.AuthError)
    | BadLastName(nameError: Auth.AuthError)
    | BadPatronymic(nameError: Auth.AuthError)
    | CurrentPasswordMissing
    | CurrentPasswordWrong
    | BadNewPassword(passwordError: Auth.AuthError)
    | PasswordsDiffer

  /** The password part is checked only when a new password is entered. */
  predicate PasswordChangeAllowed(s: AppState, f: ProfileForm) {
    f.newPassword != "" ==>
      && f.password != ""
      && s.currentUser.Some? && f.password == s.currentUser.value.password
      && Auth.ValidatePassword(f.newPassword).None?
      && f.newPassword == f.confirmPassword
  }

  /** `handleSubmit`'s checks in order: names (the patronymic only when given), then the
      password change. */
  function CheckProfile(s: AppState, f: ProfileForm): (r: Option<ProfileError>)
    ensures r.None? <==>
      && Auth.ValidateName(f.firstName).None? && Auth.ValidateName(f.lastName).None?
      && (f.patronymic != "" ==> Auth.ValidateName(f.patronymic).None?)
      && PasswordChangeAllowed(s, f)
    ensures r == Some(CurrentPasswordMissing) ==> f.newPassword != "" && f.password == ""
    ensures r == Some(CurrentPasswordWrong) ==>
      f.newPassword != "" && f.password != "" && (s.currentUser.None? || f.password != s.currentUser.value.password)
    ensures r == Some(PasswordsDiffer) ==> f.newPassword != f.confirmPassword
  {
    if Auth.ValidateName(f.firstName).Some? then Some(BadFirstName(Auth.ValidateName(f.firstName).value))
    else if Auth.ValidateName(f.lastName).Some? then Some(BadLastName(Auth.ValidateName(f.lastName).value))
    else if f.patronymic != "" && Auth.ValidateName(f.patronymic).Some? then Some(BadPatronymic(Auth.ValidateName(f.patronymic).value))
    else if f.newPassword == "" then None
    else if f.password == "" then Some(CurrentPasswordMissing)
    else if s.currentUser.None? || f.password != s.currentUser.value.password then Some(CurrentPasswordWrong)
    else if Auth.ValidatePassword(f.newPassword).Some? then Some(BadNewPassword(Auth.ValidatePassword(f.newPassword).value))
    else if f.newPassword != f.confirmPassword then Some(PasswordsDiffer)
    else None
  }

  /** The update sent on saving: names and email always, the patronymic (`undefined` when
      empty), the new password only when one was entered, and the avatar only when a new one
      was picked or the existing one was removed. The username is never sent. */
  function ProfileUpdates(s: AppState, f: ProfileForm, a: AvatarState): (p: UserPatch)
    ensures p.firstName == Some(f.firstName) && p.lastName == Some(f.lastName) && p.email == Some(f.email)
    ensures p.patronymic == Some(if f.patronymic == "" then None else Some(f.patronymic))
    ensures p.password.Some? <==> f.newPassword != ""
    ensures p.password.Some? ==> p.password.value == f.newPassword
    ensures a.picked ==> p.avatar == Some(a.preview)
    ensures !a.picked && a.preview.None? && InitialAvatar(s).preview.Some? ==> p.avatar == Some(None)
    ensures !a.picked && (a.preview.Some? || InitialAvatar(s).preview.None?) ==> p.avatar.None?
    ensures p.username.None? && p.role.None? && p.boardIds.None? && p.createdAt.None?
  {
    var hadAvatar := s.currentUser.Some? && s.currentUser.value.avatar.Some? && s.currentUser.value.avatar.value != "";
    NoUserChanges.(
      firstName := Some(f.firstName),
      lastName := Some(f.lastName),
      patronymic := Some(if f.patronymic == "" then None else Some(f.patronymic)),
      email := Some(f.email),
      password := if f.newPassword != "" then Some(f.newPassword) else None,
      avatar := if a.picked then Some(a.preview) else if a.preview.None? && hadAvatar then Some(None) else None)
  }

  /** `handleSubmit`: a failed check stops it; otherwise `updateCurrentUser` with the update. */
  function SubmitProfile(s: AppState, f: ProfileForm, a: AvatarState): (r: Result<Step, ProfileError>)
    ensures r.Failure? <==> CheckProfile(s, f).Some?
    ensures r.Failure? ==> r.error == CheckProfile(s, f).value
    ensures r.Success? ==> r.value == UserOps.UpdateCurrentUser(s, ProfileUpdates(s, f, a))
  {
    match CheckProfile(s, f)
    case Some(e) => Failure(e)
    case None => Success(UserOps.UpdateCurrentUser(s, ProfileUpdates(s, f, a)))
  }

  /** A saved profile keeps the stored password unless a new one was entered, and changes it
      only after the current password was given correctly and the new one passed the rule
      and its confirmation. */
  lemma SavedPasswordChangesOnlyWhenConfirmed(s: AppState, f: ProfileForm, a: AvatarState, ids: nat -> Id, now: Timestamp)
    requires SubmitProfile(s, f, a).Success? && s.currentUser.Some?
    requires FindUser(s, s.currentUser.value.id).Some?
    ensures var r := Commit(s, SubmitProfile(s, f, a).value, ids, now);
      var cu := s.currentUser.value;
      && r.currentUser.Some?
      && (f.newPassword == "" ==> r.currentUser.value.password == cu.password)
      && (f.newPassword != "" ==>
            && r.currentUser.value.password == f.newPassword
            && f.password == cu.password && f.confirmPassword == f.newPassword
            && Auth.ValidatePassword(f.newPassword).None?)
  {
    UserOps.UpdateUserStoresUpperNames(s, s.currentUser.value.id, ProfileUpdates(s, f, a), ids, now);
  }

  /** The signed-in user's id, or the empty id when nobody is signed in. */
  function ViewerId(s: AppState): Id {
    if s.currentUser.Some? then s.currentUser.value.id else ""
  }

  /** The tasks of one board assigned to the signed-in user. */
  function BoardTasksOfViewer(s: AppState, boardId: Id): (r: seq<Task>)
    ensures forall i :: 0 <= i < |r| ==> r[i] in s.tasks && r[i].boardId == boardId && ViewerId(s) in r[i].assigneeIds
    ensures forall i :: 0 <= i < |s.tasks| && s.tasks[i].boardId == boardId && ViewerId(s) in s.tasks[i].assigneeIds ==>
      s.tasks[i] in r
    ensures Seqs.IsSubsequence(r, s.tasks)
    ensures forall x :: multiset(r)[x] == if x.boardId == boardId && ViewerId(s) in x.assigneeIds then multiset(s.tasks)[x] else 0
  {
    Seqs.FilterIsOrderedRestriction(s.tasks, (t: Task) => t.boardId == boardId && ViewerId(s) in t.assigneeIds);
    Seqs.Filter(s.tasks, (t: Task) => t.boardId == boardId && ViewerId(s) in t.assigneeIds)
  }

  /** `boardStats`: for each of the user's boards, the counts of its tasks assigned to the user. */
  function BoardStats(s: AppState): (r: seq<(Board, Stats.Counts)>)
    ensures |r| == |Queries.UserBoards(s)|
    ensures forall i :: 0 <= i < |r| ==>
      && r[i].0 == Queries.UserBoards(s)[i]
      && r[i].1 == Stats.Tally(BoardTasksOfViewer(s, r[i].0.id))
      && r[i].1.completed + r[i].1.inProgress <= r[i].1.total
  {
    var bs := Queries.UserBoards(s);
    seq(|bs|, i requires 0 <= i < |bs| => (bs[i], Stats.Tally(BoardTasksOfViewer(s, bs[i].id))))
  }
}

=== FILE: queries.dfy ===
/** `getCurrentBoardTasks` (src/context/AppContext.tsx) and the task order it shares with
    `sortTasks` (src/components/KanbanBoard.tsx): pinned first, then higher priority, then
    newer `createdAt`. */
module Queries {
  import opened Wrappers
  import opened Types
  import opened Sorting
  import Seqs

  /** The comparator: negative when `a` goes first, positive when `b` does. */
  function Compare(a: Task, b: Task): int {
    if a.isPinned && !b.isPinned then -1
    else if !a.isPinned && b.isPinned then 1
    else if PriorityRank(b.priority) - PriorityRank(a.priority) != 0 then PriorityRank(b.priority) - PriorityRank(a.priority)
    else b.createdAt - a.createdAt
  }

  /** `a` may precede `b`. */
  predicate TaskLe(a: Task, b: Task) {
    Compare(a, b) <= 0
  }

  /** The comparator is consistent: swapping its arguments negates it. */
  lemma CompareAntisymmetric(a: Task, b: Task)
    ensures Compare(a, b) == -Compare(b, a)
  {
  }

  /** `TaskLe` is a total preorder, which the stable sort needs. */
  lemma TaskLeIsTotalPreorder()
    ensures IsTotalPreorder(TaskLe)
  {
    assert forall a, b, c :: TaskLe(a, b) && TaskLe(b, c) ==> TaskLe(a, c) by {
      forall a, b, c | TaskLe(a, b) && TaskLe(b, c) ensures TaskLe(a, c) {
        if a.isPinned == c.isPinned && b.isPinned != a.isPinned {
          assert false;
        }
      }
    }
  }

  /** The three keys of the order, read off a sorted list. */
  ghost predicate OrderedForDisplay(r: seq<Task>) {
    forall i, j :: 0 <= i < j < |r| ==>
      && (r[j].isPinned ==> r[i].isPinned)
      && (r[i].isPinned == r[j].isPinned ==> PriorityRank(r[i].priority) >= PriorityRank(r[j].priority))
      && (r[i].isPinned == r[j].isPinned && r[i].priority == r[j].priority ==> r[i].createdAt >= r[j].createdAt)
  }

  lemma SortedMeansOrdered(r: seq<Task>)
    requires SortedBy(r, TaskLe)
    ensures OrderedForDisplay(r)
  {
    forall i, j | 0 <= i < j < |r|
      ensures r[j].isPinned ==> r[i].isPinned
    {
      assert TaskLe(r[i], r[j]);
    }
  }

  /** `sortTasks` / the sort of `getCurrentBoardTasks`: a copy of the input in display order. */
  function SortTasks(ts: seq<Task>): (r: seq<Task>)
    ensures multiset(r) == multiset(ts)
    ensures SortedBy(r, TaskLe)
  {
    TaskLeIsTotalPreorder();
    SortSorted(ts, TaskLe);
    Sort(ts, TaskLe)
  }

  /** The tasks of the current board (`task.boardId === state.currentBoardId`). */
  function BoardTasks(s: AppState): (r: seq<Task>)
    ensures forall i :: 0 <= i < |r| ==> r[i] in s.tasks && s.currentBoardId == Some(r[i].boardId)
    ensures forall i :: 0 <= i < |s.tasks| && s.currentBoardId == Some(s.tasks[i].boardId) ==> s.tasks[i] in r
    ensures Seqs.IsSubsequence(r, s.tasks)
    ensures forall x :: multiset(r)[x] == if s.currentBoardId == Some(x.boardId) then multiset(s.tasks)[x] else 0
  {
    Seqs.FilterIsOrderedRestriction(s.tasks, (t: Task) => s.currentBoardId == Some(t.boardId));
    Seqs.Filter(s.tasks, (t: Task) => s.currentBoardId == Some(t.boardId))
  }

  /** `getCurrentBoardTasks`: exactly the current board's tasks, each as often as stored,
      in display order. With no current board it is empty. */
  function GetCurrentBoardTasks(s: AppState): (r: seq<Task>)
    ensures multiset(r) == multiset(BoardTasks(s))
    ensures forall t :: t in r <==> t in s.tasks && s.currentBoardId == Some(t.boardId)
    ensures OrderedForDisplay(r)
    ensures s.currentBoardId.None? ==> r == []
  {
    var r := SortTasks(BoardTasks(s));
    SortedMeansOrdered(r);
    assert forall t :: t in r <==> t in multiset(BoardTasks(s));
    r
  }

  /** Filtering the displayed board tasks keeps each board task that passes the filter exactly
      as often as it is stored, and every one of them. */
  lemma BoardFilterCounts(s: AppState, p: Task -> bool)
    ensures forall x ::
      multiset(Seqs.Filter(GetCurrentBoardTasks(s), p))[x] == if s.currentBoardId == Some(x.boardId) && p(x) then multiset(s.tasks)[x] else 0
    ensures forall t :: t in s.tasks && s.currentBoardId == Some(t.boardId) && p(t) ==> t in Seqs.Filter(GetCurrentBoardTasks(s), p)
  {
    var ts := GetCurrentBoardTasks(s);
    Seqs.FilterIsOrderedRestriction(ts, p);
    forall x ensures multiset(Seqs.Filter(ts, p))[x] == if s.currentBoardId == Some(x.boardId) && p(x) then multiset(s.tasks)[x] else 0 {
      assert multiset(ts)[x] == multiset(BoardTasks(s))[x];
    }
    forall t | t in s.tasks && s.currentBoardId == Some(t.boardId) && p(t) ensures t in Seqs.Filter(ts, p) {
      assert t in ts;
    }
  }

  /** The boards the signed-in user belongs to, as the header's board list and the profile
      statistics compute them (`currentUser?.boardIds.includes(board.id)`). */
  function UserBoards(s: AppState): (r: seq<Board>)
    ensures forall i :: 0 <= i < |r| ==> r[i] in s.boards && s.currentUser.Some? && r[i].id in s.currentUser.value.boardIds
    ensures s.currentUser.Some? ==>
      forall i :: 0 <= i < |s.boards| && s.boards[i].id in s.currentUser.value.boardIds ==> s.boards[i] in r
    ensures |r| <= |s.boards|
    ensures Seqs.IsSubsequence(r, s.boards)
    ensures forall b :: multiset(r)[b] == if s.currentUser.Some? && b.id in s.currentUser.value.boardIds then multiset(s.boards)[b] else 0
  {
    Seqs.FilterIsOrderedRestriction(s.boards, (b: Board) => s.currentUser.Some? && b.id in s.currentUser.value.boardIds);
    Seqs.Filter(s.boards, (b: Board) => s.currentUser.Some? && b.id in s.currentUser.value.boardIds)
  }
}

=== FILE: reducer.dfy ===
/** The entity store's reducer (`appReducer`, src/context/AppContext.tsx): a pure function from
    a state and one action to the next state. Partial updates are patches whose `None` fields
    leave the entity's field as it was, as the object spread `{ ...entity, ...updates }` does. */
module Reducer {
  import opened Wrappers
  import opened Types
  import Seqs

  /** `Partial<Task>` without `id` and `updatedAt` (the reducer overwrites `updatedAt`).
      For the optional `deadline`, `Some(None)` is a key present with value `undefined`. */
  datatype TaskPatch = TaskPatch(
    title: Option<string>,
    description: Option<string>,
    status: Option<Status>,
    priority: Option<Priority>,
    assigneeIds: Option<seq<Id>>,
    creatorId: Option<Id>,
    boardId: Option<Id>,
    deadline: Option<Option<Timestamp>>,
    isPinned: Option<bool>,
    attachments: Option<seq<Attachment>>,
    comments: Option<seq<Comment>>,
    voiceMessages: Option<seq<VoiceMessage>>,
    createdAt: Option<Timestamp>)

  const NoTaskChanges := TaskPatch(None, None, None, None, None, None, None, None, None, None, None, None, None)

  /** A task with the patched fields overlaid and `updatedAt` set to the instant. */
  function MergeTask(t: Task, p: TaskPatch, now: Timestamp): Task {
    t.(title := p.title.GetOr(t.title),
       description := p.description.GetOr(t.description),
       status := p.status.GetOr(t.status),
       priority := p.priority.GetOr(t.priority),
       assigneeIds := p.assigneeIds.GetOr(t.assigneeIds),
       creatorId := p.creatorId.GetOr(t.creatorId),
       boardId := p.boardId.GetOr(t.boardId),
       deadline := p.deadline.GetOr(t.deadline),
       isPinned := p.isPinned.GetOr(t.isPinned),
       attachments := p.attachments.GetOr(t.attachments),
       comments := p.comments.GetOr(t.comments),
       voiceMessages := p.voiceMessages.GetOr(t.voiceMessages),
       createdAt := p.createdAt.GetOr(t.createdAt),
       updatedAt := now)
  }

  /** A whole task used as an update (`{ ...task }` passed as `updates`). */
  function TaskSnapshot(t: Task): TaskPatch {
    TaskPatch(Some(t.title), Some(t.description), Some(t.status), Some(t.priority), Some(t.assigneeIds),
              Some(t.creatorId), Some(t.boardId), Some(t.deadline), Some(t.isPinned), Some(t.attachments),
              Some(t.comments), Some(t.voiceMessages), Some(t.createdAt))
  }

  /** Merging changes at most the patched fields and `updatedAt`: an empty patch only refreshes
      the timestamp, and merging a snapshot restores every field of the snapshot but `id` and `updatedAt`. */
  lemma MergeTaskLaws(t: Task, u: Task, p: TaskPatch, now: Timestamp)
    ensures MergeTask(t, p, now).id == t.id && MergeTask(t, p, now).updatedAt == now
    ensures MergeTask(t, NoTaskChanges, now) == t.(updatedAt := now)
    ensures MergeTask(t, TaskSnapshot(u), now) == u.(id := t.id, updatedAt := now)
  {
  }

  /** `Partial<User>` without `id`; optional fields are `Option<Option<_>>` as for tasks. */
  datatype UserPatch = UserPatch(
    username: Option<string>,
    email: Option<string>,
    firstName: Option<string>,
    lastName: Option<string>,
    patronymic: Option<Option<string>>,
    password: Option<string>,
    role: Option<Role>,
    avatar: Option<Option<string>>,
    createdAt: Option<Timestamp>,
    boardIds: Option<seq<Id>>)

  const NoUserChanges := UserPatch(None, None, None, None, None, None, None, None, None, None)

  /** `{ ...user, ...updates }`: users carry no `updatedAt`. */
  function MergeUser(u: User, p: UserPatch): User {
    u.(username := p.username.GetOr(u.username),
       email := p.email.GetOr(u.email),
       firstName := p.firstName.GetOr(u.firstName),
       lastName := p.lastName.GetOr(u.lastName),
       patronymic := p.patronymic.GetOr(u.patronymic),
       password := p.password.GetOr(u.password),
       role := p.role.GetOr(u.role),
       avatar := p.avatar.GetOr(u.avatar),
       createdAt := p.createdAt.GetOr(u.createdAt),
       boardIds := p.boardIds.GetOr(u.boardIds))
  }

  function UserSnapshot(u: User): UserPatch {
    UserPatch(Some(u.username), Some(u.email), Some(u.firstName), Some(u.lastName), Some(u.patronymic),
              Some(u.password), Some(u.role), Some(u.avatar), Some(u.createdAt), Some(u.boardIds))
  }

  /** `Partial<Board>` without `id` and `updatedAt`. */
  datatype BoardPatch = BoardPatch(
    name: Option<string>,
    description: Option<Option<string>>,
    code: Option<string>,
    createdBy: Option<Id>,
    memberIds: Option<seq<Id>>,
    createdAt: Option<Timestamp>)

  const NoBoardChanges := BoardPatch(None, None, None, None, None, None)

  /** A board with the patched fields overlaid and `updatedAt` set to the instant. */
  function MergeBoard(b: Board, p: BoardPatch, now: Timestamp): Board {
    b.(name := p.name.GetOr(b.name),
       description := p.description.GetOr(b.description),
       code := p.code.GetOr(b.code),
       createdBy := p.createdBy.GetOr(b.createdBy),
       memberIds := p.memberIds.GetOr(b.memberIds),
       createdAt := p.createdAt.GetOr(b.createdAt),
       updatedAt := now)
  }

  function BoardSnapshot(b: Board): BoardPatch {
    BoardPatch(Some(b.name), Some(b.description), Some(b.code), Some(b.createdBy), Some(b.memberIds), Some(b.createdAt))
  }

  /** The only notification update the application issues is `{ isRead: true }`. */
  datatype NotificationPatch = NotificationPatch(isRead: Option<bool>)

  function MergeNotification(n: Notification, p: NotificationPatch): Notification {
    n.(isRead := p.isRead.GetOr(n.isRead))
  }

  /** The closed set of actions; `Unrecognized` stands for an object whose `type` is none of them. */
  datatype Action =
    | Login(user: User)
    | Logout
    | SetUsers(users: seq<User>)
    | SetTasks(tasks: seq<Task>)
    | SetBoards(boards: seq<Board>)
    | SetNotifications(notifications: seq<Notification>)
    | SetCurrentBoard(boardId: Id)
    | SetSavedCredentials(credentials: Option<Credentials>)
    | AddTask(task: Task)
    | UpdateTask(taskId: Id, taskPatch: TaskPatch)
    | DeleteTask(taskId: Id)
    | AddUser(user: User)
    | UpdateUser(userId: Id, userPatch: UserPatch)
    | DeleteUser(userId: Id)
    | AddBoard(board: Board)
    | UpdateBoard(boardId: Id, boardPatch: BoardPatch)
    | DeleteBoard(boardId: Id)
    | AddNotification(notification: Notification)
    | UpdateNotification(notificationId: Id, notificationPatch: NotificationPatch)
    | DeleteNotification(notificationId: Id)
    | RestoreState(state: AppState)
    | Unrecognized(tag: string)

  /** The parts of the state an action can replace. */
  datatype Part = TaskList | UserList | BoardList | NotificationList | SignIn | BoardChoice | SavedLogin

  /** The parts an action's reducer case may change; `RESTORE_STATE` may change all of them. */
  predicate Touches(a: Action, part: Part) {
    a.RestoreState? ||
    match part
    case TaskList => a.SetTasks? || a.AddTask? || a.UpdateTask? || a.DeleteTask?
    case UserList => a.SetUsers? || a.AddUser? || a.UpdateUser? || a.DeleteUser?
    case BoardList => a.SetBoards? || a.AddBoard? || a.UpdateBoard? || a.DeleteBoard?
    case NotificationList => a.SetNotifications? || a.AddNotification? || a.UpdateNotification? || a.DeleteNotification?
    case SignIn => a.Login? || a.Logout? || a.UpdateUser?
    case BoardChoice => a.SetCurrentBoard?
    case SavedLogin => a.SetSavedCredentials?
  }

  /** Two states hold the same value in the given part. */
  predicate SamePart(s: AppState, t: AppState, part: Part) {
    match part
    case TaskList => s.tasks == t.tasks
    case UserList => s.users == t.users
    case BoardList => s.boards == t.boards
    case NotificationList => s.notifications == t.notifications
    case SignIn => s.currentUser == t.currentUser && s.isAuthenticated == t.isAuthenticated
    case BoardChoice => s.currentBoardId == t.currentBoardId
    case SavedLogin => s.savedCredentials == t.savedCredentials
  }

  /** `appReducer`; `now` is the instant the reducer stamps into `updatedAt`. */
  function Apply(s: AppState, a: Action, now: Timestamp): AppState {
    match a
    case Login(u) => s.(currentUser := Some(u), isAuthenticated := true)
    case Logout => s.(currentUser := None, isAuthenticated := false)
    case SetUsers(us) => s.(users := us)
    case SetTasks(ts) => s.(tasks := ts)
    case SetBoards(bs) => s.(boards := bs)
    case SetNotifications(ns) => s.(notifications := ns)
    case SetCurrentBoard(bid) => s.(currentBoardId := Some(bid))
    case SetSavedCredentials(c) => s.(savedCredentials := c)
    case AddTask(t) => s.(tasks := s.tasks + [t])
    case UpdateTask(id, p) =>
      s.(tasks := Seqs.MapWhere(s.tasks, (t: Task) => t.id, id, (t: Task) => MergeTask(t, p, now)))
    case DeleteTask(id) => s.(tasks := Seqs.Filter(s.tasks, (t: Task) => t.id != id))
    case AddUser(u) => s.(users := s.users + [u])
    case UpdateUser(id, p) =>
      s.(users := Seqs.MapWhere(s.users, (u: User) => u.id, id, (u: User) => MergeUser(u, p)),
         currentUser := if IsCurrentUser(s, id) then Some(MergeUser(s.currentUser.value, p)) else s.currentUser)
    case DeleteUser(id) => s.(users := Seqs.Filter(s.users, (u: User) => u.id != id))
    case AddBoard(b) => s.(boards := s.boards + [b])
    case UpdateBoard(id, p) =>
      s.(boards := Seqs.MapWhere(s.boards, (b: Board) => b.id, id, (b: Board) => MergeBoard(b, p, now)))
    case DeleteBoard(id) => s.(boards := Seqs.Filter(s.boards, (b: Board) => b.id != id))
    case AddNotification(n) => s.(notifications := s.notifications + [n])
    case UpdateNotification(id, p) =>
      s.(notifications := Seqs.MapWhere(s.notifications, (n: Notification) => n.id, id,
                                        (n: Notification) => MergeNotification(n, p)))
    case DeleteNotification(id) => s.(notifications := Seqs.Filter(s.notifications, (n: Notification) => n.id != id))
    case RestoreState(st) => st
    case Unrecognized(_) => s
  }

  /** Dispatching several actions in order, as one event handler does. */
  function ApplyAll(s: AppState, acts: seq<Action>, now: Timestamp): AppState
    decreases |acts|
  {
    if |acts| == 0 then s else ApplyAll(Apply(s, acts[0], now), acts[1..], now)
  }

  /** Every reducer case returns `{...state, …}` with only its own part replaced: a part the
      action does not touch is left as it was. */
  lemma ApplyKeepsUntouched(s: AppState, a: Action, part: Part, now: Timestamp)
    requires !Touches(a, part)
    ensures SamePart(Apply(s, a, now), s, part)
  {
  }

  /** A run of dispatches leaves alone every part of the state that none of its actions touches. */
  lemma {:induction false} ApplyAllKeepsUntouched(s: AppState, acts: seq<Action>, part: Part, now: Timestamp)
    requires forall i :: 0 <= i < |acts| ==> !Touches(acts[i], part)
    ensures SamePart(ApplyAll(s, acts, now), s, part)
    decreases |acts|
  {
    if |acts| > 0 {
      var m := Apply(s, acts[0], now);
      ApplyKeepsUntouched(s, acts[0], part, now);
      assert forall i :: 0 <= i < |acts[1..]| ==> acts[1..][i] == acts[i + 1];
      ApplyAllKeepsUntouched(m, acts[1..], part, now);
    }
  }

  lemma ApplyAllSingle(s: AppState, a: Action, now: Timestamp)
    ensures ApplyAll(s, [a], now) == Apply(s, a, now)
  {
    assert [a][1..] == [];
  }

  lemma {:induction false} ApplyAllConcat(s: AppState, a: seq<Action>, b: seq<Action>, now: Timestamp)
    ensures ApplyAll(s, a + b, now) == ApplyAll(ApplyAll(s, a, now), b, now)
    decreases |a|
  {
    if |a| == 0 {
      assert a + b == b;
    } else {
      assert (a + b)[0] == a[0];
      assert (a + b)[1..] == a[1..] + b;
      ApplyAllConcat(Apply(s, a[0], now), a[1..], b, now);
    }
  }

  /** UPDATE_TASK merges the patch into exactly the tasks with the given id, stamps their
      `updatedAt`, and leaves every other task and every other part of the state alone. */
  lemma UpdateTaskChangesOnlyTarget(s: AppState, id: Id, p: TaskPatch, now: Timestamp)
    ensures var r := Apply(s, UpdateTask(id, p), now);
      && r == s.(tasks := r.tasks)
      && |r.tasks| == |s.tasks|
      && (forall i :: 0 <= i < |s.tasks| && s.tasks[i].id == id ==>
            r.tasks[i] == MergeTask(s.tasks[i], p, now) && r.tasks[i].updatedAt == now && r.tasks[i].id == id)
      && (forall i :: 0 <= i < |s.tasks| && s.tasks[i].id != id ==> r.tasks[i] == s.tasks[i])
  {
  }

  /** UPDATE_BOARD: the same for boards. */
  lemma UpdateBoardChangesOnlyTarget(s: AppState, id: Id, p: BoardPatch, now: Timestamp)
    ensures var r := Apply(s, UpdateBoard(id, p), now);
      && r == s.(boards := r.boards)
      && |r.boards| == |s.boards|
      && (forall i :: 0 <= i < |s.boards| && s.boards[i].id == id ==>
            r.boards[i] == MergeBoard(s.boards[i], p, now) && r.boards[i].updatedAt == now)
      && (forall i :: 0 <= i < |s.boards| && s.boards[i].id != id ==> r.boards[i] == s.boards[i])
  {
  }

  /** UPDATE_USER merges into the users with that id and into `currentUser` exactly when its id
      matches; a user's record has no timestamp to refresh. */
  lemma UpdateUserSyncsCurrentUser(s: AppState, id: Id, p: UserPatch, now: Timestamp)
    ensures var r := Apply(s, UpdateUser(id, p), now);
      && r == s.(users := r.users, currentUser := r.currentUser)
      && |r.users| == |s.users|
      && (forall i :: 0 <= i < |s.users| ==>
            r.users[i] == if s.users[i].id == id then MergeUser(s.users[i], p) else s.users[i])
      && (s.currentUser.Some? && s.currentUser.value.id == id ==> r.currentUser == Some(MergeUser(s.currentUser.value, p)))
      && (s.currentUser.None? || s.currentUser.value.id != id ==> r.currentUser == s.currentUser)
  {
  }

  /** DELETE_TASK drops exactly the tasks with that id and keeps the others, each as often as
      before and in their original order; nothing else changes. */
  lemma {:induction false} DeleteTaskKeepsOthers(s: AppState, id: Id, now: Timestamp)
    ensures var r := Apply(s, DeleteTask(id), now);
      && r == s.(tasks := r.tasks)
      && Seqs.IsSubsequence(r.tasks, s.tasks)
      && (forall t: Task :: t.id == id ==> t !in r.tasks)
      && (forall t: Task :: t.id != id ==> multiset(r.tasks)[t] == multiset(s.tasks)[t])
  {
    Seqs.FilterIsOrderedRestriction(s.tasks, (t: Task) => t.id != id);
  }

  /** DELETE_USER behaves in the same way on users (and leaves `currentUser` alone). */
  lemma {:induction false} DeleteUserKeepsOthers(s: AppState, id: Id, now: Timestamp)
    ensures var r := Apply(s, DeleteUser(id), now);
      && r == s.(users := r.users) && Seqs.IsSubsequence(r.users, s.users)
      && (forall u: User :: u.id == id ==> u !in r.users)
      && (forall u: User :: u.id != id ==> multiset(r.users)[u] == multiset(s.users)[u])
  {
    Seqs.FilterIsOrderedRestriction(s.users, (u: User) => u.id != id);
  }

  /** DELETE_BOARD behaves in the same way on boards; no membership list is touched. */
  lemma {:induction false} DeleteBoardKeepsOthers(s: AppState, id: Id, now: Timestamp)
    ensures var r := Apply(s, DeleteBoard(id), now);
      && r == s.(boards := r.boards) && Seqs.IsSubsequence(r.boards, s.boards)
      && (forall b: Board :: b.id == id ==> b !in r.boards)
      && (forall b: Board :: b.id != id ==> multiset(r.boards)[b] == multiset(s.boards)[b])
  {
    Seqs.FilterIsOrderedRestriction(s.boards, (b: Board) => b.id != id);
  }

  /** DELETE_NOTIFICATION behaves in the same way on notifications. */
  lemma {:induction false} DeleteNotificationKeepsOthers(s: AppState, id: Id, now: Timestamp)
    ensures var r := Apply(s, DeleteNotification(id), now);
      && r == s.(notifications := r.notifications) && Seqs.IsSubsequence(r.notifications, s.notifications)
      && (forall n: Notification :: n.id == id ==> n !in r.notifications)
      && (forall n: Notification :: n.id != id ==> multiset(r.notifications)[n] == multiset(s.notifications)[n])
  {
    Seqs.FilterIsOrderedRestriction(s.notifications, (n: Notification) => n.id != id);
  }

  /** An action of unknown type returns the state unchanged. */
  lemma UnrecognizedIsIdentity(s: AppState, tag: string, now: Timestamp)
    ensures Apply(s, Unrecognized(tag), now) == s
  {
  }

  /** One DELETE_NOTIFICATION per element of `ns`. */
  function DeleteNotifications(ns: seq<Notification>): (acts: seq<Action>)
    ensures |acts| == |ns|
    ensures forall i :: 0 <= i < |ns| ==> acts[i] == DeleteNotification(ns[i].id)
  {
    seq(|ns|, i requires 0 <= i < |ns| => DeleteNotification(ns[i].id))
  }

  /** Dispatching those deletions removes exactly the notifications sharing an id with `ns`. */
  lemma {:induction false} ApplyDeleteNotifications(s: AppState, ns: seq<Notification>, now: Timestamp)
    ensures var r := ApplyAll(s, DeleteNotifications(ns), now);
      && r == s.(notifications := r.notifications)
      && (forall n :: n in r.notifications <==> n in s.notifications && forall m :: m in ns ==> m.id != n.id)
    decreases |ns|
  {
    if |ns| > 0 {
      var s1 := Apply(s, DeleteNotification(ns[0].id), now);
      DeleteNotificationKeepsOthers(s, ns[0].id, now);
      assert DeleteNotifications(ns)[0] == DeleteNotification(ns[0].id);
      assert DeleteNotifications(ns)[1..] == DeleteNotifications(ns[1..]);
      ApplyDeleteNotifications(s1, ns[1..], now);
      forall n ensures n in s1.notifications <==> n in s.notifications && n.id != ns[0].id {
        assert n in s1.notifications <==> multiset(s1.notifications)[n] > 0;
        assert n in s.notifications <==> multiset(s.notifications)[n] > 0;
      }
      assert forall m :: m in ns <==> m == ns[0] || m in ns[1..];
    }
  }

  /** The first task with the id, if any. */
  function FindTask(s: AppState, id: Id): (r: Option<Task>)
    ensures r.None? <==> forall i :: 0 <= i < |s.tasks| ==> s.tasks[i].id != id
    ensures r.Some? ==> exists i :: 0 <= i < |s.tasks| && s.tasks[i] == r.value && r.value.id == id &&
                                    forall j :: 0 <= j < i ==> s.tasks[j].id != id
  {
    Seqs.FindFirst(s.tasks, (t: Task) => t.id == id)
  }

  /** The first user with the id, if any. */
  function FindUser(s: AppState, id: Id): (r: Option<User>)
    ensures r.None? <==> forall i :: 0 <= i < |s.users| ==> s.users[i].id != id
    ensures r.Some? ==> r.value in s.users && r.value.id == id
  {
    Seqs.FindFirst(s.users, (u: User) => u.id == id)
  }

  /** The first board with the id, if any. */
  function FindBoard(s: AppState, id: Id): (r: Option<Board>)
    ensures r.None? <==> forall i :: 0 <= i < |s.boards| ==> s.boards[i].id != id
    ensures r.Some? ==> r.value in s.boards && r.value.id == id
  {
    Seqs.FindFirst(s.boards, (b: Board) => b.id == id)
  }

  /** The first board whose share code is the given one, if any. */
  function FindBoardByCode(s: AppState, code: string): (r: Option<Board>)
    ensures r.None? <==> forall i :: 0 <= i < |s.boards| ==> s.boards[i].code != code
    ensures r.Some? ==> r.value in s.boards && r.value.code == code
  {
    Seqs.FindFirst(s.boards, (b: Board) => b.code == code)
  }
}

=== FILE: seqs.dfy ===
/** Order-preserving sequence helpers shared by every module: the model's `filter`, `find` and `includes`. */
module Seqs {
  import opened Wrappers

  /** `xs.filter(p)`: the elements satisfying `p`, in their original order. */
  function Filter<T>(s: seq<T>, p: T -> bool): (r: seq<T>)
    ensures |r| <= |s|
    ensures forall i :: 0 <= i < |r| ==> r[i] in s && p(r[i])
    ensures forall i :: 0 <= i < |s| && p(s[i]) ==> s[i] in r
  {
    if |s| == 0 then []
    else if p(s[0]) then [s[0]] + Filter(s[1..], p)
    else Filter(s[1..], p)
  }

  /** `r` is obtained from `s` by deleting some elements, keeping the rest in order. */
  ghost predicate IsSubsequence<T>(r: seq<T>, s: seq<T>)
    decreases |s|
  {
    if |r| == 0 then true
    else if |s| == 0 then false
    else if r[0] == s[0] then IsSubsequence(r[1..], s[1..])
    else IsSubsequence(r, s[1..])
  }

  /** Filtering keeps every kept element as often as it occurs, drops the others, and keeps order. */
  lemma {:induction false} FilterIsOrderedRestriction<T>(s: seq<T>, p: T -> bool)
    ensures IsSubsequence(Filter(s, p), s)
    ensures forall x :: multiset(Filter(s, p))[x] == if p(x) then multiset(s)[x] else 0
  {
    if |s| > 0 {
      FilterIsOrderedRestriction(s[1..], p);
      assert s == [s[0]] + s[1..];
      if p(s[0]) {
        var r := Filter(s, p);
        assert r[1..] == Filter(s[1..], p);
      }
    }
  }

  /** Filtering distributes over concatenation. */
  lemma {:induction false} FilterConcat<T>(a: seq<T>, b: seq<T>, p: T -> bool)
    ensures Filter(a + b, p) == Filter(a, p) + Filter(b, p)
  {
    if |a| == 0 {
      assert a + b == b;
    } else {
      assert (a + b)[0] == a[0];
      assert (a + b)[1..] == a[1..] + b;
      FilterConcat(a[1..], b, p);
    }
  }

  /** Filtering two arrangements of the same elements keeps the same elements. */
  lemma FilterPermutation<T>(a: seq<T>, b: seq<T>, p: T -> bool)
    requires multiset(a) == multiset(b)
    ensures multiset(Filter(a, p)) == multiset(Filter(b, p))
    ensures |Filter(a, p)| == |Filter(b, p)|
  {
    var fa, fb := Filter(a, p), Filter(b, p);
    FilterIsOrderedRestriction(a, p);
    FilterIsOrderedRestriction(b, p);
    assert forall x :: multiset(fa)[x] == multiset(fb)[x];
    assert multiset(fa) == multiset(fb);
    assert |multiset(fa)| == |multiset(fb)|;
  }

  /** A stricter predicate keeps no more elements. */
  lemma {:induction false} FilterStricter<T>(s: seq<T>, p: T -> bool, q: T -> bool)
    requires forall i :: 0 <= i < |s| && p(s[i]) ==> q(s[i])
    ensures |Filter(s, p)| <= |Filter(s, q)|
  {
    if |s| > 0 {
      FilterStricter(s[1..], p, q);
    }
  }

  /** A filter whose predicate every element meets returns its input. */
  lemma {:induction false} FilterAll<T>(s: seq<T>, p: T -> bool)
    requires forall i :: 0 <= i < |s| ==> p(s[i])
    ensures Filter(s, p) == s
  {
    if |s| > 0 {
      FilterAll(s[1..], p);
    }
  }

  /** `xs.find(p)`: the first element satisfying `p`, if any. */
  function FindFirst<T>(s: seq<T>, p: T -> bool): (r: Option<T>)
    ensures r.None? <==> forall i :: 0 <= i < |s| ==> !p(s[i])
    ensures r.Some? ==> exists i :: 0 <= i < |s| && s[i] == r.value && p(s[i]) &&
                                   forall j :: 0 <= j < i ==> !p(s[j])
  {
    if |s| == 0 then None
    else if p(s[0]) then Some(s[0])
    else
      var r := FindFirst(s[1..], p);
      assert r.Some? ==> exists i :: 0 <= i < |s| - 1 && s[1..][i] == r.value && p(s[1..][i]) &&
                                     forall j :: 0 <= j < i ==> !p(s[1..][j]);
      assert r.Some? ==> exists i :: 1 <= i < |s| && s[i] == r.value && p(s[i]) &&
                                     forall j :: 0 <= j < i ==> !p(s[j]) by {
        if r.Some? {
          var i :| 0 <= i < |s| - 1 && s[1..][i] == r.value && p(s[1..][i]) &&
                   forall j :: 0 <= j < i ==> !p(s[1..][j]);
          assert s[i + 1] == r.value && p(s[i + 1]);
          assert forall j :: 0 <= j < i + 1 ==> !p(s[j]) by {
            forall j | 0 <= j < i + 1 ensures !p(s[j]) {
              if j > 0 { assert s[j] == s[1..][j - 1]; }
            }
          }
        }
      }
      r
  }

  /** `xs.map(f)` where `f` is applied only to the elements whose key is `k`: the reducer's update-by-id. */
  function MapWhere<T>(s: seq<T>, key: T -> string, k: string, f: T -> T): (r: seq<T>)
    ensures |r| == |s|
    ensures forall i :: 0 <= i < |s| ==> r[i] == if key(s[i]) == k then f(s[i]) else s[i]
  {
    seq(|s|, i requires 0 <= i < |s| => if key(s[i]) == k then f(s[i]) else s[i])
  }
}

=== FILE: session.dfy ===
/** Sessions in src/context/AppContext.tsx: `joinBoardByCode`, `login`, `register`, `logout`
    and `clearSavedCredentials`. */
module Session {
  import opened Wrappers
  import opened Types
  import opened Reducer
  import opened Engine
  import opened Text
  import opened UserOps
  import Seqs

  /** The record of the logged-in user with `boardId` appended and the role reset to `user`. */
  function JoinedSelf(cu: User, boardId: Id): UserPatch {
    UserSnapshot(cu).(boardIds := Some(cu.boardIds + [boardId]), role := Some(Member))
  }

  /** `joinBoardByCode`: an empty or unknown code fails with nothing dispatched. Otherwise a
      logged-in user who does not list the board joins it (both membership lists, the role
      set to `user`, a `board_added` notification naming the board), and the board becomes
      current in any case. */
  function JoinBoardByCode(s: AppState, code: string): (r: (bool, Step))
    ensures r.0 <==> code != "" && FindBoardByCode(s, code).Some?
    ensures !r.0 ==> r.1 == NoOp
    ensures r.0 ==>
      var b := FindBoardByCode(s, code).value;
      var joins := s.currentUser.Some? && b.id !in s.currentUser.value.boardIds;
      && r.1.entry.None? && |r.1.actions| >= 1
      && r.1.actions[|r.1.actions| - 1] == Action.SetCurrentBoard(b.id)
      && (!joins ==> |r.1.actions| == 1 && r.1.drafts == [])
      && (joins ==>
            var cu := s.currentUser.value;
            && r.1.actions[..|r.1.actions| - 1] ==
                 [Action.UpdateUser(cu.id, JoinedSelf(cu, b.id)), Action.UpdateBoard(b.id, WithMember(b, cu.id))]
            && r.1.drafts == [Draft(cu.id, BoardAdded, "Добавлен в доску",
                                    "Вы были добавлены в доску \"" + b.name + "\"", None)])
  {
    if code == "" then (false, NoOp)
    else match FindBoardByCode(s, code)
      case None => (false, NoOp)
      case Some(b) =>
        if s.currentUser.Some? && b.id !in s.currentUser.value.boardIds then
          var cu := s.currentUser.value;
          (true, Step([Action.UpdateUser(cu.id, JoinedSelf(cu, b.id)), Action.UpdateBoard(b.id, WithMember(b, cu.id)),
                       Action.SetCurrentBoard(b.id)],
                      [Draft(cu.id, BoardAdded, "Добавлен в доску", "Вы были добавлены в доску \"" + b.name + "\"", None)],
                      None))
        else (true, Step([Action.SetCurrentBoard(b.id)], [], None))
  }

  /** Joining a board links the logged-in user to it both ways and makes it current. */
  lemma {:induction false} JoinLinksBothWays(s: AppState, code: string, ids: nat -> Id, now: Timestamp)
    requires JoinBoardByCode(s, code).0 && s.currentUser.Some?
    requires FindBoardByCode(s, code).value.id !in s.currentUser.value.boardIds
    ensures var b := FindBoardByCode(s, code).value;
      var cu := s.currentUser.value;
      var r := Commit(s, JoinBoardByCode(s, code).1, ids, now);
      && r.currentBoardId == Some(b.id)
      && r.currentUser.Some? && b.id in r.currentUser.value.boardIds && r.currentUser.value.role == Member
      && (forall i :: 0 <= i < |r.users| && r.users[i].id == cu.id ==> b.id in r.users[i].boardIds)
      && (forall i :: 0 <= i < |r.boards| && r.boards[i].id == b.id ==> cu.id in r.boards[i].memberIds)
  {
    var b := FindBoardByCode(s, code).value;
    var cu := s.currentUser.value;
    var st := JoinBoardByCode(s, code).1;
    var a0 := Action.UpdateUser(cu.id, JoinedSelf(cu, b.id));
    var a1 := Action.UpdateBoard(b.id, WithMember(b, cu.id));
    var a2 := Action.SetCurrentBoard(b.id);
    assert st.actions == [a0] + ([a1] + [a2]);
    var s1 := Apply(s, a0, now);
    var s2 := Apply(s1, a1, now);
    ApplyAllConcat(s, [a0], [a1] + [a2], now);
    ApplyAllConcat(s1, [a1], [a2], now);
    ApplyAllSingle(s, a0, now);
    ApplyAllSingle(s1, a1, now);
    ApplyAllSingle(s2, a2, now);
    UpdateUserSyncsCurrentUser(s, cu.id, JoinedSelf(cu, b.id), now);
    UpdateBoardChangesOnlyTarget(s1, b.id, WithMember(b, cu.id), now);
    CommitDelivers(s, st, ids, now);
  }

  /** The account `login` finds: username or email equal to the identifier, and the password. */
  function FindAccount(s: AppState, identifier: string, password: string): (r: Option<User>)
    ensures r.None? <==> forall i :: 0 <= i < |s.users| ==>
      !((s.users[i].username == identifier || s.users[i].email == identifier) && s.users[i].password == password)
    ensures r.Some? ==>
      r.value in s.users && r.value.password == password && (r.value.username == identifier || r.value.email == identifier)
  {
    Seqs.FindFirst(s.users, (u: User) => (u.username == identifier || u.email == identifier) && u.password == password)
  }

  /** The actions `login` dispatches before turning to the board. */
  function SignIn(u: User, password: string): seq<Action> {
    [Action.Login(u), SetSavedCredentials(Some(Credentials(u.username, password)))]
  }

  /** Signing in makes the user current and stores the credentials; nothing else changes. */
  lemma SignInEffect(s: AppState, u: User, password: string, now: Timestamp)
    ensures ApplyAll(s, SignIn(u, password), now) ==
      s.(currentUser := Some(u), isAuthenticated := true, savedCredentials := Some(Credentials(u.username, password)))
  {
    var a := SignIn(u, password);
    assert a == [a[0]] + [a[1]];
    ApplyAllConcat(s, [a[0]], [a[1]], now);
    ApplyAllSingle(s, a[0], now);
    ApplyAllSingle(Apply(s, a[0], now), a[1], now);
  }

  /** `login` as written: with a board code it calls `joinBoardByCode`, whose closure still
      holds the state from before LOGIN. */
  function Login(s: AppState, identifier: string, password: string, boardCode: string): (r: (bool, Step))
    ensures r.0 <==> FindAccount(s, identifier, password).Some?
    ensures !r.0 ==> r.1 == NoOp
    ensures r.0 ==>
      var u := FindAccount(s, identifier, password).value;
      && r.1.entry.None? && |r.1.actions| >= 2 && r.1.actions[..2] == SignIn(u, password)
      && (boardCode != "" ==> r.1.actions[2..] == JoinBoardByCode(s, boardCode).1.actions &&
                              r.1.drafts == JoinBoardByCode(s, boardCode).1.drafts)
      && (boardCode == "" ==> r.1.drafts == [] &&
                              r.1.actions[2..] == if |u.boardIds| > 0 then [Action.SetCurrentBoard(u.boardIds[0])] else [])
  {
    match FindAccount(s, identifier, password)
    case None => (false, NoOp)
    case Some(u) =>
      if boardCode != "" then
        var join := JoinBoardByCode(s, boardCode).1;
        (true, Step(SignIn(u, password) + join.actions, join.drafts, None))
      else
        (true, Step(SignIn(u, password) + (if |u.boardIds| > 0 then [Action.SetCurrentBoard(u.boardIds[0])] else []), [], None))
  }

  /** As written, logging in from a signed-out session with a board code never adds the user
      to the board: users and boards are left exactly as they were. */
  lemma {:induction false} LoginCodeJoinsNobody(s: AppState, identifier: string, password: string, boardCode: string, ids: nat -> Id, now: Timestamp)
    requires s.currentUser.None? && boardCode != ""
    requires Login(s, identifier, password, boardCode).0
    ensures var r := Commit(s, Login(s, identifier, password, boardCode).1, ids, now);
      r.users == s.users && r.boards == s.boards
  {
    var u := FindAccount(s, identifier, password).value;
    var st := Login(s, identifier, password, boardCode).1;
    var join := JoinBoardByCode(s, boardCode).1;
    assert st.actions == SignIn(u, password) + join.actions;
    ApplyAllConcat(s, SignIn(u, password), join.actions, now);
    var s1 := ApplyAll(s, SignIn(u, password), now);
    SignInEffect(s, u, password, now);
    if join.actions != [] {
      ApplyAllSingle(s1, join.actions[0], now);
    }
    CommitDelivers(s, st, ids, now);
  }

  /** `login` as evidently intended: the board code is joined as the user just logged in. */
  function LoginJoining(s: AppState, identifier: string, password: string, boardCode: string): (r: (bool, Step))
    ensures r.0 <==> FindAccount(s, identifier, password).Some?
    ensures !r.0 ==> r.1 == NoOp
    ensures r.0 ==>
      var u := FindAccount(s, identifier, password).value;
      var after := ApplyAll(s, SignIn(u, password), 0);
      && r.1.entry.None? && |r.1.actions| >= 2 && r.1.actions[..2] == SignIn(u, password)
      && (boardCode != "" ==> r.1.actions[2..] == JoinBoardByCode(after, boardCode).1.actions &&
                              r.1.drafts == JoinBoardByCode(after, boardCode).1.drafts)
      && (boardCode == "" ==> r == Login(s, identifier, password, boardCode))
  {
    match FindAccount(s, identifier, password)
    case None => (false, NoOp)
    case Some(u) =>
      if boardCode != "" then
        var join := JoinBoardByCode(ApplyAll(s, SignIn(u, password), 0), boardCode).1;
        (true, Step(SignIn(u, password) + join.actions, join.drafts, None))
      else Login(s, identifier, password, boardCode)
  }

  /** With the correction, a user who logs in with the code of a board they do not list
      becomes a member of it in both directions. */
  lemma {:induction false} LoginJoiningLinksBothWays(s: AppState, identifier: string, password: string, boardCode: string, ids: nat -> Id, now: Timestamp)
    requires LoginJoining(s, identifier, password, boardCode).0 && boardCode != ""
    requires FindBoardByCode(s, boardCode).Some?
    requires FindBoardByCode(s, boardCode).value.id !in FindAccount(s, identifier, password).value.boardIds
    ensures var u := FindAccount(s, identifier, password).value;
      var b := FindBoardByCode(s, boardCode).value;
      var r := Commit(s, LoginJoining(s, identifier, password, boardCode).1, ids, now);
      && r.currentBoardId == Some(b.id)
      && (forall i :: 0 <= i < |r.users| && r.users[i].id == u.id ==> b.id in r.users[i].boardIds)
      && (forall i :: 0 <= i < |r.boards| && r.boards[i].id == b.id ==> u.id in r.boards[i].memberIds)
  {
    var u := FindAccount(s, identifier, password).value;
    var st := LoginJoining(s, identifier, password, boardCode).1;
    var s1 := ApplyAll(s, SignIn(u, password), now);
    var s0 := ApplyAll(s, SignIn(u, password), 0);
    SignInEffect(s, u, password, now);
    SignInEffect(s, u, password, 0);
    assert FindBoardByCode(s1, boardCode) == FindBoardByCode(s, boardCode);
    var join := JoinBoardByCode(s1, boardCode).1;
    assert st.actions == SignIn(u, password) + join.actions;
    ApplyAllConcat(s, SignIn(u, password), join.actions, now);
    JoinLinksBothWays(s1, boardCode, ids, now);
    CommitDelivers(s, st, ids, now);
    CommitDelivers(s1, join, ids, now);
  }

  /** The registration form's data; an empty patronymic arrives as `undefined`. */
  datatype Registration = Registration(
    username: string, email: string, password: string,
    firstName: string, lastName: string, patronymic: Option<string>)

  /** The values `register` draws from separate `Date.now()` calls and from the code
      generator; separate calls may or may not agree. */
  datatype RegisterIds = RegisterIds(joinStamp: Id, boardId: Id, boardCreator: Id, boardMember: Id, userId: Id, code: string)

  /** `register`'s duplicate check, which unlike `addUser` respects case. */
  predicate Registered(s: AppState, username: string, email: string) {
    exists i :: 0 <= i < |s.users| && (s.users[i].username == username || s.users[i].email == email)
  }

  /** The personal board created for a registration without a usable board code. */
  function PersonalBoard(d: Registration, ids: RegisterIds, now: Timestamp): Board {
    var fullName := ToUpper(d.firstName) + " " + ToUpper(d.lastName);
    Board(ids.boardId, "ДОСКА " + fullName, Some("ПЕРСОНАЛЬНАЯ ДОСКА ДЛЯ " + fullName), ids.code,
          ids.boardCreator, [ids.boardMember], now, now)
  }

  /** `register`. A username or email already in use (case-sensitively) fails with nothing
      dispatched. With the code of an existing board the account joins it as `user`, the
      board listing the join stamp; otherwise a personal board is created and the account
      is its `admin`. The account is added with upper-cased names, signed in, and its board
      made current. */
  function Register(s: AppState, d: Registration, boardCode: string, ids: RegisterIds, now: Timestamp): (r: (bool, Step))
    ensures r.0 <==> !Registered(s, d.username, d.email)
    ensures !r.0 ==> r.1 == NoOp
    ensures r.0 ==>
      var joined := boardCode != "" && FindBoardByCode(s, boardCode).Some?;
      var bid := if joined then FindBoardByCode(s, boardCode).value.id else ids.boardId;
      && r.1.entry.None? && r.1.drafts == [] && |r.1.actions| == 5
      && (joined ==> r.1.actions[0] == Action.UpdateBoard(bid, WithMember(FindBoardByCode(s, boardCode).value, ids.joinStamp)))
      && (!joined ==> r.1.actions[0] == Action.AddBoard(PersonalBoard(d, ids, now)))
      && r.1.actions[1].AddUser?
      && var u := r.1.actions[1].user;
      && u.id == ids.userId && u.username == d.username && u.email == d.email && u.password == d.password
      && u.firstName == ToUpper(d.firstName) && u.lastName == ToUpper(d.lastName) && u.patronymic == UpperOpt(d.patronymic)
      && u.role == (if joined then Member else Admin) && u.boardIds == [bid] && u.avatar.None? && u.createdAt == now
      && r.1.actions[2..] == [Action.Login(u), SetSavedCredentials(Some(Credentials(d.username, d.password))), Action.SetCurrentBoard(bid)]
  {
    if Seqs.FindFirst(s.users, (u: User) => u.username == d.username || u.email == d.email).Some? then (false, NoOp)
    else
      var found := if boardCode != "" then FindBoardByCode(s, boardCode) else None;
      var (board, bid, role) :=
        match found
        case Some(b) => (Action.UpdateBoard(b.id, WithMember(b, ids.joinStamp)), b.id, Member)
        case None => (Action.AddBoard(PersonalBoard(d, ids, now)), ids.boardId, Admin);
      var u := User(ids.userId, d.username, d.email, ToUpper(d.firstName), ToUpper(d.lastName), UpperOpt(d.patronymic),
                    d.password, role, None, now, [bid]);
      (true, Step([board, Action.AddUser(u), Action.Login(u), SetSavedCredentials(Some(Credentials(d.username, d.password))),
                   Action.SetCurrentBoard(bid)], [], None))
  }

  /** The four account actions of `register` after the board action. */
  lemma {:induction false} AccountSteps(w: AppState, u: User, c: Credentials, bid: Id, now: Timestamp)
    ensures ApplyAll(w, [Action.AddUser(u), Action.Login(u), SetSavedCredentials(Some(c)), Action.SetCurrentBoard(bid)], now) ==
      w.(users := w.users + [u], currentUser := Some(u), isAuthenticated := true, savedCredentials := Some(c), currentBoardId := Some(bid))
  {
    var a := [Action.AddUser(u), Action.Login(u), SetSavedCredentials(Some(c)), Action.SetCurrentBoard(bid)];
    var w1 := Apply(w, a[0], now);
    var w2 := Apply(w1, a[1], now);
    var w3 := Apply(w2, a[2], now);
    assert ApplyAll(w, a, now) == ApplyAll(w1, a[1..], now);
    assert ApplyAll(w1, a[1..], now) == ApplyAll(w2, a[2..], now);
    assert ApplyAll(w2, a[2..], now) == ApplyAll(w3, a[3..], now);
    ApplyAllSingle(w3, a[3], now);
  }

  /** After a successful registration the new account is signed in, on a board that exists;
      with a board code that board lists the join stamp, which need not be the account's id. */
  lemma {:induction false} RegisterSignsIn(s: AppState, d: Registration, boardCode: string, ids: RegisterIds, ids2: nat -> Id, now: Timestamp)
    requires Register(s, d, boardCode, ids, now).0
    ensures var st := Register(s, d, boardCode, ids, now).1;
      var u := st.actions[1].user;
      var r := Commit(s, st, ids2, now);
      && r.currentUser == Some(u) && r.isAuthenticated
      && r.currentBoardId == Some(u.boardIds[0])
      && r.users == s.users + [u]
      && (exists i :: 0 <= i < |r.boards| && r.boards[i].id == u.boardIds[0])
      && (boardCode != "" && FindBoardByCode(s, boardCode).Some? ==>
            forall i :: 0 <= i < |r.boards| && r.boards[i].id == u.boardIds[0] ==> ids.joinStamp in r.boards[i].memberIds)
  {
    var st := Register(s, d, boardCode, ids, now).1;
    var a := st.actions;
    var u := a[1].user;
    var bid := u.boardIds[0];
    var s1 := Apply(s, a[0], now);
    assert a == [a[0]] + a[1..];
    assert a[1..] == [Action.AddUser(u), Action.Login(u), SetSavedCredentials(Some(Credentials(d.username, d.password))), Action.SetCurrentBoard(bid)];
    ApplyAllConcat(s, [a[0]], a[1..], now);
    ApplyAllSingle(s, a[0], now);
    AccountSteps(s1, u, Credentials(d.username, d.password), bid, now);
    CommitDelivers(s, st, ids2, now);
    if boardCode != "" && FindBoardByCode(s, boardCode).Some? {
      var b := FindBoardByCode(s, boardCode).value;
      UpdateBoardChangesOnlyTarget(s, b.id, WithMember(b, ids.joinStamp), now);
      var k :| 0 <= k < |s.boards| && s.boards[k] == b;
      assert s1.boards[k].id == b.id;
    } else {
      assert s1.boards[|s.boards|].id == ids.boardId;
    }
  }

  /** `register` treats usernames that differ only in case as different, while `addUser`
      refuses them as duplicates. */
  lemma DuplicateChecksDisagreeOnCase()
    ensures var alice := User("1", "alice", "a@x.io", "A", "B", None, "password1", Member, None, 0, []);
      var s := InitialState.(users := [alice]);
      && Register(s, Registration("Alice", "b@x.io", "password1", "C", "D", None), "", RegisterIds("", "", "", "", "2", ""), 0).0
      && UserOps.AddUser(s, UserFields("Alice", "b@x.io", "C", "D", None, "password1", Member, None), "2", 0) == Failure(DuplicateUsername)
  {
    var alice := User("1", "alice", "a@x.io", "A", "B", None, "password1", Member, None, 0, []);
    var s := InitialState.(users := [alice]);
    assert "alice"[0] != "Alice"[0];
    assert "a@x.io"[0] != "b@x.io"[0];
    assert !Registered(s, "Alice", "b@x.io");
    assert ToLower("a@x.io")[0] != ToLower("b@x.io")[0];
    assert !EmailTaken(s, "b@x.io");
    assert ToLower("alice") == ToLower("Alice") by {
      assert forall i :: 0 <= i < 5 ==> LowerChar("alice"[i]) == LowerChar("Alice"[i]);
    }
    assert s.users[0].username == "alice";
    assert UsernameTaken(s, "Alice");
  }

  /** `logout`: the session ends; every collection and the current board are kept. */
  function Logout(s: AppState): (r: Step)
    ensures r.actions == [Action.Logout] && r.drafts == [] && r.entry.None?
  {
    Step([Action.Logout], [], None)
  }

  lemma LogoutEndsSession(s: AppState, ids: nat -> Id, now: Timestamp)
    ensures Commit(s, Logout(s), ids, now) == s.(currentUser := None, isAuthenticated := false)
  {
    CommitDelivers(s, Logout(s), ids, now);
    ApplyAllSingle(s, Action.Logout, now);
  }

  /** `clearSavedCredentials` */
  function ClearSavedCredentials(s: AppState): (r: Step)
    ensures r.actions == [SetSavedCredentials(None)] && r.drafts == [] && r.entry.None?
  {
    Step([SetSavedCredentials(None)], [], None)
  }
}

=== FILE: sorting.dfy ===
/** A stable insertion sort over sequences, parameterised by the "may come first" relation
    `le(a, b)` (a JavaScript comparator returning a value <= 0). `Array.prototype.sort` is stable,
    and both sorts of the application use it with such a comparator. */
module Sorting {

  /** `le` is total and transitive, as a comparator that compares keys is. */
  ghost predicate IsTotalPreorder<T(!new)>(le: (T, T) -> bool) {
    && (forall a, b :: le(a, b) || le(b, a))
    && (forall a, b, c :: le(a, b) && le(b, c) ==> le(a, c))
  }

  predicate SortedBy<T>(s: seq<T>, le: (T, T) -> bool) {
    forall i, j :: 0 <= i < j < |s| ==> le(s[i], s[j])
  }

  /** Inserts `x` after every trailing element that may come before it. */
  function Insert<T>(s: seq<T>, x: T, le: (T, T) -> bool): (r: seq<T>)
    ensures |r| == |s| + 1
    ensures multiset(r) == multiset(s) + multiset{x}
  {
    if |s| == 0 || le(s[|s| - 1], x) then s + [x]
    else
      assert s == s[..|s| - 1] + [s[|s| - 1]];
      Insert(s[..|s| - 1], x, le) + [s[|s| - 1]]
  }

  function Sort<T>(s: seq<T>, le: (T, T) -> bool): (r: seq<T>)
    ensures |r| == |s|
    ensures multiset(r) == multiset(s)
  {
    if |s| == 0 then []
    else
      assert s == s[..|s| - 1] + [s[|s| - 1]];
      Insert(Sort(s[..|s| - 1], le), s[|s| - 1], le)
  }

  lemma {:induction false} InsertSorted<T(!new)>(s: seq<T>, x: T, le: (T, T) -> bool)
    requires IsTotalPreorder(le)
    requires SortedBy(s, le)
    ensures SortedBy(Insert(s, x, le), le)
  {
    if |s| == 0 || le(s[|s| - 1], x) {
    } else {
      var last := s[|s| - 1];
      var init := s[..|s| - 1];
      InsertSorted(init, x, le);
      var head := Insert(init, x, le);
      assert le(x, last);
      forall k | 0 <= k < |head| ensures le(head[k], last) {
        assert head[k] in multiset(head);
        if head[k] != x {
          assert head[k] in multiset(init);
          var m :| 0 <= m < |init| && init[m] == head[k];
          assert s[m] == head[k];
        }
      }
    }
  }

  /** The sort returns a permutation of its input, ordered by `le`. */
  lemma {:induction false} SortSorted<T(!new)>(s: seq<T>, le: (T, T) -> bool)
    requires IsTotalPreorder(le)
    ensures SortedBy(Sort(s, le), le)
    ensures multiset(Sort(s, le)) == multiset(s)
  {
    if |s| > 0 {
      SortSorted(s[..|s| - 1], le);
      InsertSorted(Sort(s[..|s| - 1], le), s[|s| - 1], le);
    }
  }
}

=== FILE: stats.dfy ===
/** The counting the views share: tasks per status, tasks per assignee, and the rounded
    percentages shown as efficiency and completion rate. */
module Stats {
  import opened Types
  import Seqs
  import Kanban

  /** A task count and its split by status. */
  datatype Counts = Counts(total: nat, completed: nat, inProgress: nat, created: nat)

  /** The status counts of a task list: the three `filter(...).length` calls and the length. */
  function Tally(ts: seq<Task>): (r: Counts)
    ensures r.total == |ts|
    ensures r.completed == |Kanban.ColumnTasks(ts, Completed)|
    ensures r.inProgress == |Kanban.ColumnTasks(ts, InProgress)|
    ensures r.created == |Kanban.ColumnTasks(ts, Created)|
    ensures r.completed + r.inProgress + r.created == r.total
  {
    var done, doing, todo := Kanban.ColumnTasks(ts, Completed), Kanban.ColumnTasks(ts, InProgress), Kanban.ColumnTasks(ts, Created);
    Kanban.ColumnTasksPartition(ts);
    assert |multiset(todo) + multiset(doing) + multiset(done)| == |todo| + |doing| + |done|;
    Counts(|ts|, |done|, |doing|, |todo|)
  }

  /** The tasks that list the user among their assignees. */
  function AssignedTo(ts: seq<Task>, userId: Id): (r: seq<Task>)
    ensures forall i :: 0 <= i < |r| ==> r[i] in ts && userId in r[i].assigneeIds
    ensures forall i :: 0 <= i < |ts| && userId in ts[i].assigneeIds ==> ts[i] in r
    ensures Seqs.IsSubsequence(r, ts)
    ensures forall x :: multiset(r)[x] == if userId in x.assigneeIds then multiset(ts)[x] else 0
  {
    Seqs.FilterIsOrderedRestriction(ts, (t: Task) => userId in t.assigneeIds);
    Seqs.Filter(ts, (t: Task) => userId in t.assigneeIds)
  }

  /** `whole > 0 ? Math.round((part / whole) * 100) : 0` in exact arithmetic: the nearest
      whole percentage, halves rounded up. */
  function RoundedPercent(part: nat, whole: nat): (r: nat)
    ensures whole == 0 ==> r == 0
    ensures whole > 0 ==> 2 * whole * r <= 200 * part + whole < 2 * whole * (r + 1)
  {
    if whole == 0 then 0 else (200 * part + whole) / (2 * whole)
  }

  /** A share of a whole is a percentage between 0 and 100: none is 0 and all is 100. */
  lemma PercentInRange(part: nat, whole: nat)
    requires part <= whole
    ensures RoundedPercent(part, whole) <= 100
    ensures part == 0 ==> RoundedPercent(part, whole) == 0
    ensures part == whole && whole > 0 ==> RoundedPercent(part, whole) == 100
  {
    var r := RoundedPercent(part, whole);
    if whole > 0 {
      MulCancel(2 * whole, r, 100);
      if part == 0 {
        MulCancel(2 * whole, r, 0);
      }
      if part == whole {
        MulCancel(2 * whole, 100, r);
      }
    }
  }

  /** Dividing a strict bound by a positive factor. */
  lemma MulCancel(a: nat, x: nat, y: nat)
    requires a > 0 && a * x < a * (y + 1)
    ensures x <= y
  {
    assert a * (y + 1) - a * x == a * (y + 1 - x);
  }

}

=== FILE: taskcard.dfy ===
/** A task's card on the board (src/components/TaskCard.tsx): who may delete from it, the
    assignee badges, the deadline markers, the latest comment and the description preview.
    The pin button is `toggleTaskPin` itself. */
module TaskCard {
  import opened Wrappers
  import opened Types
  import opened Text
  import opened Reducer
  import opened Engine
  import TaskOps
  import Seqs

  /** The users the task lists as assignees, in the order of the user list. */
  function Assignees(users: seq<User>, t: Task): (r: seq<User>)
    ensures forall i :: 0 <= i < |r| ==> r[i] in users && r[i].id in t.assigneeIds
    ensures forall i :: 0 <= i < |users| && users[i].id in t.assigneeIds ==> users[i] in r
    ensures Seqs.IsSubsequence(r, users)
    ensures forall u :: multiset(r)[u] == if u.id in t.assigneeIds then multiset(users)[u] else 0
  {
    Seqs.FilterIsOrderedRestriction(users, (u: User) => u.id in t.assigneeIds);
    Seqs.Filter(users, (u: User) => u.id in t.assigneeIds)
  }

  /** The badges: at most three avatars, then a `+n` counter for the rest. */
  datatype Badges = Badges(shown: seq<User>, more: nat)

  function AssigneeBadges(assignees: seq<User>): (r: Badges)
    ensures |r.shown| <= 3
    ensures |r.shown| + r.more == |assignees|
    ensures r.shown == assignees[..|r.shown|]
    ensures r.more > 0 ==> |r.shown| == 3
  {
    if |assignees| <= 3 then Badges(assignees, 0) else Badges(assignees[..3], |assignees| - 3)
  }

  /** The badges show every assignee of the card once: the avatars and the counter together
      account for all of them. */
  lemma BadgesCoverAssignees(users: seq<User>, t: Task)
    ensures var a := Assignees(users, t);
      var b := AssigneeBadges(a);
      b.shown + a[|b.shown|..] == a && |a[|b.shown|..]| == b.more
  {
  }

  datatype CardError = NotCreator

  /** Only an administrator or the task's creator may delete from the card. */
  predicate CanDeleteFromCard(s: AppState, t: Task) {
    s.currentUser.Some? && (s.currentUser.value.role == Admin || t.creatorId == s.currentUser.value.id)
  }

  /** `handleDeleteClick`: refused to anyone else; otherwise `deleteTask` (the confirmation
      dialog aside). */
  function DeleteFromCard(s: AppState, t: Task): (r: Result<Step, CardError>)
    ensures r.Failure? <==> !CanDeleteFromCard(s, t)
    ensures r.Success? ==> r.value == TaskOps.DeleteTask(s, t.id)
  {
    if !CanDeleteFromCard(s, t) then Failure(NotCreator) else Success(TaskOps.DeleteTask(s, t.id))
  }

  /** The card is the only guard: `deleteTask` itself deletes a task for anybody, so a member
      who did not create a task is stopped only by the card. */
  lemma CardIsOnlyGuard(s: AppState, t: Task)
    requires FindTask(s, t.id).Some? && !CanDeleteFromCard(s, t)
    ensures DeleteFromCard(s, t).Failure?
    ensures TaskOps.DeleteTask(s, t.id).actions == [Action.DeleteTask(t.id)]
  {
  }

  /** A member (not an administrator) deletes from the card only tasks of their own. */
  lemma MemberDeletesOnlyOwn(s: AppState, t: Task)
    requires DeleteFromCard(s, t).Success? && s.currentUser.value.role != Admin
    ensures s.currentUser.Some? && t.creatorId == s.currentUser.value.id
  {
  }

  /** `isOverdue` on the card: a deadline before the start of today. */
  predicate OverdueOnCard(t: Task, startOfToday: Timestamp) {
    t.deadline.Some? && t.deadline.value < startOfToday
  }

  /** Two days in milliseconds. */
  const TwoDays := 2 * 24 * 60 * 60 * 1000

  /** `isDueSoon`: a deadline after now and less than two days away. */
  predicate DueSoon(t: Task, now: Timestamp) {
    t.deadline.Some? && now < t.deadline.value < now + TwoDays
  }

  /** A card is never marked both overdue and due soon. */
  lemma OverdueExcludesDueSoon(t: Task, startOfToday: Timestamp, now: Timestamp)
    requires startOfToday <= now
    ensures !(OverdueOnCard(t, startOfToday) && DueSoon(t, now))
  {
  }

  /** `latestComment`: the last comment, if any. */
  function LatestComment(t: Task): (r: Option<Comment>)
    ensures r.None? <==> |t.comments| == 0
    ensures r.Some? ==> r.value == t.comments[|t.comments| - 1] && r.value in t.comments
  {
    if |t.comments| > 0 then Some(t.comments[|t.comments| - 1]) else None
  }

  /** A comment appended to a task, as `addComment` does, is the one the card shows. */
  lemma AppendedCommentIsLatest(t: Task, c: Comment)
    ensures LatestComment(t.(comments := t.comments + [c])) == Some(c)
  {
  }

  /** The latest comment's text, cut to 50 characters. */
  function CommentPreview(c: Comment): (r: string)
    ensures |c.content| <= 50 ==> r == c.content
    ensures |c.content| > 50 ==> r == c.content[..50] + "..."
  {
    Ellipsize(c.content, 50)
  }

  /** `formatDescription` on a description without markup: trimmed, cut to 100 characters. */
  function DescriptionPreview(text: string): (r: string)
    ensures text == "" ==> r == ""
    ensures |r| <= 103
    ensures |Trim(text)| <= 100 ==> r == Trim(text)
    ensures |Trim(text)| > 100 ==> r == Trim(text)[..100] + "..."
  {
    if text == "" then "" else Ellipsize(Trim(text), 100)
  }

  /** The preview is blank exactly when the description is. */
  lemma PreviewEmptyIffBlank(text: string)
    ensures DescriptionPreview(text) == "" <==> IsBlank(text)
  {
    TrimEmptyIffBlank(text);
  }
}

=== FILE: taskform.dfy ===
/** The task form (src/components/TaskModal.tsx): its starting values, the checks on
    submission, the attachment ceiling, the description formatting buttons, the assignee
    check boxes and the comment box. */
module TaskForm {
  import opened Wrappers
  import opened Types
  import opened Text
  import opened Reducer
  import opened Engine
  import TaskOps
  import Seqs

  /** The form's editable fields; the deadline is a date string and a time string. */
  datatype Form = Form(
    title: string,
    description: string,
    status: Status,
    priority: Priority,
    assigneeIds: seq<Id>,
    deadlineDate: string,
    deadlineTime: string,
    isPinned: bool)

  /** A fresh form for a new task: empty texts, medium priority, unpinned, no deadline, and the
      signed-in user (when there is one with a non-empty id) as the only assignee. */
  function NewTaskForm(s: AppState, defaultStatus: Status): (r: Form)
    ensures r.title == "" && r.description == "" && r.deadlineDate == "" && r.deadlineTime == ""
    ensures r.status == defaultStatus && r.priority == Medium && !r.isPinned
    ensures s.currentUser.Some? && s.currentUser.value.id != "" ==> r.assigneeIds == [s.currentUser.value.id]
    ensures s.currentUser.None? || s.currentUser.value.id == "" ==> r.assigneeIds == []
  {
    var assignees := if s.currentUser.Some? && s.currentUser.value.id != "" then [s.currentUser.value.id] else [];
    Form("", "", defaultStatus, Medium, assignees, "", "", false)
  }

  /** Why `handleSubmit` stops before calling the store. */
  datatype SubmitError = BlankTitle | DeadlineIncomplete | DeadlineInPast

  /** `handleSubmit`'s checks, in order. `deadlineAt` is the instant the date and time name. */
  function CheckForm(f: Form, deadlineAt: Timestamp, now: Timestamp): (r: Option<SubmitError>)
    ensures r == Some(BlankTitle) <==> IsBlank(f.title)
    ensures r == Some(DeadlineIncomplete) <==> !IsBlank(f.title) && (f.deadlineDate == "") != (f.deadlineTime == "")
    ensures r == Some(DeadlineInPast) <==>
      !IsBlank(f.title) && f.deadlineDate != "" && f.deadlineTime != "" && deadlineAt <= now
    ensures r.None? <==>
      !IsBlank(f.title) && (f.deadlineDate == "") == (f.deadlineTime == "") && (f.deadlineDate != "" ==> deadlineAt > now)
  {
    TrimEmptyIffBlank(f.title);
    if Trim(f.title) == "" then Some(BlankTitle)
    else if f.deadlineDate != "" || f.deadlineTime != "" then
      if f.deadlineDate == "" || f.deadlineTime == "" then Some(DeadlineIncomplete)
      else if deadlineAt <= now then Some(DeadlineInPast)
      else None
    else None
  }

  /** A file picked for upload. */
  datatype Upload = Upload(name: string, size: int, mime: string)

  /** 5 MB. */
  const MaxFileSize := 5 * 1024 * 1024

  /** The uploads within the ceiling, in the order they were picked. */
  function AcceptedUploads(files: seq<Upload>): (r: seq<Upload>)
    ensures forall i :: 0 <= i < |r| ==> r[i] in files && r[i].size <= MaxFileSize
    ensures forall i :: 0 <= i < |files| && files[i].size <= MaxFileSize ==> files[i] in r
  {
    Seqs.Filter(files, (u: Upload) => u.size <= MaxFileSize)
  }

  /** The ceiling keeps each small enough file exactly as often as it was picked, drops the
      larger ones, and keeps order; a file of exactly 5 MB is kept. */
  lemma AcceptedUploadsRestrict(files: seq<Upload>)
    ensures Seqs.IsSubsequence(AcceptedUploads(files), files)
    ensures forall u :: multiset(AcceptedUploads(files))[u] == if u.size <= MaxFileSize then multiset(files)[u] else 0
    ensures forall name, mime :: Upload(name, MaxFileSize, mime) in files ==> Upload(name, MaxFileSize, mime) in AcceptedUploads(files)
  {
    Seqs.FilterIsOrderedRestriction(files, (u: Upload) => u.size <= MaxFileSize);
  }

  /** The attachments saved with the task: the ones already there, then the accepted uploads
      in order, each with a generated id and object URL. */
  function ProcessedAttachments(existing: seq<Attachment>, files: seq<Upload>, ids: nat -> Id, urls: nat -> string): (r: seq<Attachment>)
    ensures |r| == |existing| + |AcceptedUploads(files)|
    ensures r[..|existing|] == existing
    ensures forall j :: 0 <= j < |AcceptedUploads(files)| ==>
      var u := AcceptedUploads(files)[j];
      r[|existing| + j] == Attachment(ids(j), u.name, u.size, u.mime, urls(j))
  {
    var ok := AcceptedUploads(files);
    existing + seq(|ok|, j requires 0 <= j < |ok| => Attachment(ids(j), ok[j].name, ok[j].size, ok[j].mime, urls(j)))
  }

  /** `handleFileUpload`: the picked files within the ceiling join the pending uploads. */
  function AddUploads(pending: seq<Upload>, files: seq<Upload>): (r: seq<Upload>)
    ensures |pending| <= |r| <= |pending| + |files|
    ensures r[..|pending|] == pending
    ensures forall i :: |pending| <= i < |r| ==> r[i] in files && r[i].size <= MaxFileSize
    ensures forall i :: 0 <= i < |files| && files[i].size <= MaxFileSize ==> files[i] in r
    ensures Seqs.IsSubsequence(r[|pending|..], files)
    ensures forall u :: multiset(r[|pending|..])[u] == if u.size <= MaxFileSize then multiset(files)[u] else 0
  {
    AcceptedUploadsRestrict(files);
    var r := pending + AcceptedUploads(files);
    assert r[|pending|..] == AcceptedUploads(files);
    r
  }

  /** Picking files in two rounds leaves the same pending uploads as picking them all at once. */
  lemma AddUploadsInRounds(pending: seq<Upload>, a: seq<Upload>, b: seq<Upload>)
    ensures AddUploads(AddUploads(pending, a), b) == AddUploads(pending, a + b)
  {
    var fa, fb := AcceptedUploads(a), AcceptedUploads(b);
    Seqs.FilterConcat(a, b, (u: Upload) => u.size <= MaxFileSize);
    assert AcceptedUploads(a + b) == fa + fb;
    assert (pending + fa) + fb == pending + (fa + fb);
  }

  /** `removeNewAttachment`: the pending upload at `index` is dropped; an index outside the
      list drops nothing. */
  function RemoveUpload(pending: seq<Upload>, index: int): (r: seq<Upload>)
    ensures 0 <= index < |pending| ==> |r| == |pending| - 1 && r[..index] == pending[..index] && r[index..] == pending[index + 1..]
    ensures !(0 <= index < |pending|) ==> r == pending
  {
    if 0 <= index < |pending| then pending[..index] + pending[index + 1..] else pending
  }

  /** Removing the upload just added restores the pending list. */
  lemma RemoveLastUpload(pending: seq<Upload>, u: Upload)
    ensures RemoveUpload(pending + [u], |pending|) == pending
  {
  }

  /** `removeExistingAttachment`: every attachment with that id is dropped. */
  function RemoveAttachment(atts: seq<Attachment>, attachmentId: Id): (r: seq<Attachment>)
    ensures forall i :: 0 <= i < |r| ==> r[i] in atts && r[i].id != attachmentId
    ensures forall i :: 0 <= i < |atts| && atts[i].id != attachmentId ==> atts[i] in r
    ensures Seqs.IsSubsequence(r, atts)
    ensures forall a :: multiset(r)[a] == if a.id != attachmentId then multiset(atts)[a] else 0
  {
    Seqs.FilterIsOrderedRestriction(atts, (a: Attachment) => a.id != attachmentId);
    Seqs.Filter(atts, (a: Attachment) => a.id != attachmentId)
  }

  /** The values `handleSubmit` draws from outside the form. */
  datatype Extras = Extras(
    attachments: seq<Attachment>,
    uploads: seq<Upload>,
    voiceMessages: seq<VoiceMessage>,
    comments: seq<Comment>,
    attachmentIds: nat -> Id,
    attachmentUrls: nat -> string)

  /** The task data `handleSubmit` builds: the form, the deadline when both halves are given,
      the editor as creator, and the task's own board, else the current one, else `'1'`. */
  function TaskData(s: AppState, task: Option<Task>, f: Form, x: Extras, deadlineAt: Timestamp): (r: TaskOps.TaskFields)
    ensures r.title == f.title && r.description == f.description && r.status == f.status
    ensures r.priority == f.priority && r.assigneeIds == f.assigneeIds && r.isPinned == f.isPinned
    ensures r.deadline == if f.deadlineDate != "" && f.deadlineTime != "" then Some(deadlineAt) else None
    ensures r.creatorId == if s.currentUser.Some? then s.currentUser.value.id else ""
    ensures task.Some? && task.value.boardId != "" ==> r.boardId == task.value.boardId
    ensures (task.None? || task.value.boardId == "") ==> r.boardId == TaskOps.TargetBoard(s, "")
    ensures r.attachments == ProcessedAttachments(x.attachments, x.uploads, x.attachmentIds, x.attachmentUrls)
    ensures r.comments == x.comments && r.voiceMessages == x.voiceMessages
  {
    var boardId := if task.Some? && task.value.boardId != "" then task.value.boardId else TaskOps.TargetBoard(s, "");
    TaskOps.TaskFields(
      f.title, f.description, f.status, f.priority, f.assigneeIds,
      if s.currentUser.Some? then s.currentUser.value.id else "",
      boardId,
      if f.deadlineDate != "" && f.deadlineTime != "" then Some(deadlineAt) else None,
      f.isPinned,
      ProcessedAttachments(x.attachments, x.uploads, x.attachmentIds, x.attachmentUrls),
      x.comments, x.voiceMessages)
  }

  /** Every field of the task data as an update: `deadline: undefined` clears the deadline. */
  function AsPatch(d: TaskOps.TaskFields): (p: TaskPatch)
    ensures p.createdAt.None?
    ensures forall t: Task, now :: TaskOps.FieldsOf(MergeTask(t, p, now)) == d
  {
    TaskPatch(Some(d.title), Some(d.description), Some(d.status), Some(d.priority), Some(d.assigneeIds),
              Some(d.creatorId), Some(d.boardId), Some(d.deadline), Some(d.isPinned), Some(d.attachments),
              Some(d.comments), Some(d.voiceMessages), None)
  }

  /** `handleSubmit`: a failed check stops it; otherwise the task is updated (when editing) or
      added with the task data. */
  function Submit(s: AppState, task: Option<Task>, f: Form, x: Extras, deadlineAt: Timestamp, newId: Id, now: Timestamp): (r: Result<Step, SubmitError>)
    ensures CheckForm(f, deadlineAt, now).Some? <==> r.Failure?
    ensures r.Failure? ==> r.error == CheckForm(f, deadlineAt, now).value
    ensures r.Success? && task.Some? ==> r.value == TaskOps.UpdateTask(s, task.value.id, AsPatch(TaskData(s, task, f, x, deadlineAt)), now)
    ensures r.Success? && task.None? ==> r.value == TaskOps.AddTask(s, TaskData(s, task, f, x, deadlineAt), newId, now)
  {
    match CheckForm(f, deadlineAt, now)
    case Some(e) => Failure(e)
    case None =>
      var d := TaskData(s, task, f, x, deadlineAt);
      if task.Some? then Success(TaskOps.UpdateTask(s, task.value.id, AsPatch(d), now))
      else Success(TaskOps.AddTask(s, d, newId, now))
  }

  /** A new task saved from the form carries the form's fields, the accepted uploads after the
      existing attachments, and a deadline exactly when both halves were filled in. */
  lemma SubmitNewTaskStoresForm(s: AppState, f: Form, x: Extras, deadlineAt: Timestamp, newId: Id, now: Timestamp)
    requires Submit(s, None, f, x, deadlineAt, newId, now).Success?
    ensures var t := Submit(s, None, f, x, deadlineAt, newId, now).value.actions[0].task;
      && !IsBlank(t.title) && t.title == f.title && t.assigneeIds == f.assigneeIds && t.status == f.status
      && t.attachments[..|x.attachments|] == x.attachments
      && |t.attachments| == |x.attachments| + |AcceptedUploads(x.uploads)|
      && (t.deadline.Some? <==> f.deadlineDate != "")
      && (t.deadline.Some? ==> t.deadline.value > now)
  {
  }

  /** Saving an edit makes the editor the task's creator. */
  lemma EditReassignsCreator(s: AppState, t: Task, f: Form, x: Extras, deadlineAt: Timestamp, newId: Id, now: Timestamp, ids: nat -> Id)
    requires Submit(s, Some(t), f, x, deadlineAt, newId, now).Success?
    requires FindTask(s, t.id) == Some(t) && s.currentUser.Some?
    ensures Submit(s, Some(t), f, x, deadlineAt, newId, now).value.actions[0] ==
      Action.UpdateTask(t.id, AsPatch(TaskData(s, Some(t), f, x, deadlineAt)))
    ensures AsPatch(TaskData(s, Some(t), f, x, deadlineAt)).creatorId == Some(s.currentUser.value.id)
  {
  }

  /** The formatting buttons. */
  datatype TextFormat = Bold | Italic | Underline | BulletList | OrderedList | AlignLeft | AlignCenter | AlignRight | Plain

  /** What a format puts before the selection. */
  function Opener(fmt: TextFormat): string {
    match fmt
    case Bold => "**"
    case Italic => "*"
    case Underline => "<u>"
    case BulletList => "\n• "
    case OrderedList => "\n1. "
    case AlignLeft => "<div style=\"text-align: left\">"
    case AlignCenter => "<div style=\"text-align: center\">"
    case AlignRight => "<div style=\"text-align: right\">"
    case Plain => ""
  }

  /** What a format puts after the selection. */
  function Closer(fmt: TextFormat): string {
    match fmt
    case Bold => "**"
    case Italic => "*"
    case Underline => "</u>"
    case AlignLeft | AlignCenter | AlignRight => "</div>"
    case BulletList | OrderedList | Plain => ""
  }

  /** `applyTextFormat` on a selection `[start, end)` of the description: the new text and the
      caret position after the inserted text. The browser keeps `start <= end <= |text|`. */
  function ApplyTextFormat(text: string, start: nat, end: nat, fmt: TextFormat): (r: (string, nat))
    requires start <= end <= |text|
    ensures var o, c := |Opener(fmt)|, |Closer(fmt)|;
      && |r.0| == |text| + o + c
      && r.0[..start] == text[..start]
      && r.0[start..start + o] == Opener(fmt)
      && r.0[start + o..start + o + (end - start)] == text[start..end]
      && r.0[start + o + (end - start)..end + o + c] == Closer(fmt)
      && r.0[end + o + c..] == text[end..]
      && r.1 == end + o + c
    ensures fmt == Plain ==> r.0 == text
  {
    var formatted := Opener(fmt) + text[start..end] + Closer(fmt);
    WrapSlices(text, start, end, Opener(fmt), Closer(fmt));
    (text[..start] + formatted + text[end..], start + |formatted|)
  }

  /** Where each piece lands when a selection is wrapped in two markers. */
  lemma WrapSlices(text: string, start: nat, end: nat, op: string, cl: string)
    requires start <= end <= |text|
    ensures var r, o, c := text[..start] + (op + text[start..end] + cl) + text[end..], |op|, |cl|;
      && |r| == |text| + o + c
      && r[..start] == text[..start]
      && r[start..start + o] == op
      && r[start + o..start + o + (end - start)] == text[start..end]
      && r[start + o + (end - start)..end + o + c] == cl
      && r[end + o + c..] == text[end..]
      && (op == [] && cl == [] ==> r == text)
      && r[..start] + r[start + o..end + o] + r[end + o + c..] == text
  {
    assert text == text[..start] + text[start..end] + text[end..];
    var a := text[..start] + op;
    var b := a + text[start..end];
    var c := b + cl;
    var r := c + text[end..];
    assert r == text[..start] + (op + text[start..end] + cl) + text[end..];
    assert r[..|c|] == c && c[..|b|] == b && b[..|a|] == a;
    assert r[..start] == a[..start] == text[..start];
    assert r[start..|a|] == a[start..] == op;
    assert r[|a|..|b|] == b[|a|..] == text[start..end];
    assert r[|b|..|c|] == c[|b|..] == cl;
    assert r[|c|..] == text[end..];
  }

  /** Cutting the opener and closer back out of the formatted text gives the original text. */
  lemma FormatRoundTrip(text: string, start: nat, end: nat, fmt: TextFormat)
    requires start <= end <= |text|
    ensures var t, o, c := ApplyTextFormat(text, start, end, fmt).0, |Opener(fmt)|, |Closer(fmt)|;
      t[..start] + t[start + o..end + o] + t[end + o + c..] == text
  {
    WrapSlices(text, start, end, Opener(fmt), Closer(fmt));
  }

  /** `handleAssigneeChange`: checking appends the user; unchecking drops every occurrence. */
  function AssigneeChange(ids: seq<Id>, userId: Id, checked: bool): (r: seq<Id>)
    ensures checked ==> r == ids + [userId]
    ensures !checked ==> userId !in r
    ensures !checked ==> Seqs.IsSubsequence(r, ids)
    ensures !checked ==> forall x :: x != userId ==> multiset(r)[x] == multiset(ids)[x]
  {
    if checked then ids + [userId]
    else
      Seqs.FilterIsOrderedRestriction(ids, (x: Id) => x != userId);
      Seqs.Filter(ids, (x: Id) => x != userId)
  }

  /** Checking and then unchecking a user who was not assigned leaves the list as it was. */
  lemma {:induction false} CheckThenUncheck(ids: seq<Id>, userId: Id)
    requires userId !in ids
    ensures AssigneeChange(AssigneeChange(ids, userId, true), userId, false) == ids
  {
    Seqs.FilterConcat(ids, [userId], (x: Id) => x != userId);
    Seqs.FilterAll(ids, (x: Id) => x != userId);
    assert Seqs.Filter([userId], (x: Id) => x != userId) == [];
  }

  /** `handleAddComment`: blank content or a non-administrator is ignored. Otherwise the
      comment is appended to the form's list and, when editing, stored with `addComment`. */
  function AddFormComment(s: AppState, task: Option<Task>, comments: seq<Comment>, content: string,
                          localId: Id, storeId: Id, now: Timestamp): (r: (seq<Comment>, Step))
    ensures IsBlank(content) || !TaskOps.ActorIsAdmin(s) ==> r == (comments, NoOp)
    ensures !IsBlank(content) && TaskOps.ActorIsAdmin(s) ==>
      && r.0 == comments + [Comment(localId, s.currentUser.value.id, content, now)]
      && (task.None? ==> r.1 == NoOp)
      && (task.Some? ==> r.1 == TaskOps.AddComment(s, task.value.id, content, storeId, now))
  {
    TrimEmptyIffBlank(content);
    if Trim(content) == "" || !TaskOps.ActorIsAdmin(s) then (comments, NoOp)
    else
      var c := Comment(localId, s.currentUser.value.id, content, now);
      match task
      case Some(t) => (comments + [c], TaskOps.AddComment(s, t.id, content, storeId, now))
      case None => (comments + [c], NoOp)
  }

  /** `handleSaveComment`: blank text is ignored. Otherwise the form's comments with that id
      get the text and, when editing, the store is asked for the same with `updateComment`. */
  function SaveFormComment(s: AppState, task: Option<Task>, comments: seq<Comment>, commentId: Id, text: string,
                           now: Timestamp): (r: (seq<Comment>, Step))
    ensures IsBlank(text) ==> r == (comments, NoOp)
    ensures !IsBlank(text) ==>
      && |r.0| == |comments|
      && (forall i :: 0 <= i < |comments| ==>
            r.0[i] == if comments[i].id == commentId then comments[i].(content := text) else comments[i])
      && (task.None? ==> r.1 == NoOp)
      && (task.Some? ==> r.1 == TaskOps.UpdateComment(s, task.value.id, commentId, text, now))
  {
    TrimEmptyIffBlank(text);
    if Trim(text) == "" then (comments, NoOp)
    else
      var cs := Seqs.MapWhere(comments, (c: Comment) => c.id, commentId, (c: Comment) => c.(content := text));
      (cs, if task.Some? then TaskOps.UpdateComment(s, task.value.id, commentId, text, now) else NoOp)
  }

  /** When an administrator edits a stored task whose comments the form shows, the form's list
      after saving is exactly the list the store is asked to keep. */
  lemma SavedCommentAgreesWithStore(s: AppState, t: Task, commentId: Id, text: string, now: Timestamp)
    requires TaskOps.ActorIsAdmin(s) && FindTask(s, t.id) == Some(t) && !IsBlank(text)
    ensures var r := SaveFormComment(s, Some(t), t.comments, commentId, text, now);
      && |r.1.actions| == 1 && r.1.actions[0].UpdateTask?
      && r.1.actions[0].taskPatch.comments == Some(r.0)
  {
    var r := SaveFormComment(s, Some(t), t.comments, commentId, text, now);
    var ncs := r.1.actions[0].taskPatch.comments.value;
    assert |ncs| == |r.0|;
    assert forall i :: 0 <= i < |ncs| ==> ncs[i] == r.0[i];
  }

  /** `handleDeleteComment` once confirmed: the form drops the comments with that id and, when
      editing, the store is asked for the same with `deleteComment`. */
  function DeleteFormComment(s: AppState, task: Option<Task>, comments: seq<Comment>, commentId: Id,
                             now: Timestamp): (r: (seq<Comment>, Step))
    ensures forall i :: 0 <= i < |r.0| ==> r.0[i] in comments && r.0[i].id != commentId
    ensures forall i :: 0 <= i < |comments| && comments[i].id != commentId ==> comments[i] in r.0
    ensures Seqs.IsSubsequence(r.0, comments)
    ensures forall c :: multiset(r.0)[c] == if c.id != commentId then multiset(comments)[c] else 0
    ensures task.None? ==> r.1 == NoOp
    ensures task.Some? ==> r.1 == TaskOps.DeleteComment(s, task.value.id, commentId, now)
  {
    Seqs.FilterIsOrderedRestriction(comments, (c: Comment) => c.id != commentId);
    (Seqs.Filter(comments, (c: Comment) => c.id != commentId),
     if task.Some? then TaskOps.DeleteComment(s, task.value.id, commentId, now) else NoOp)
  }

  /** The same agreement for deletion: the form's list is the one the store is asked to keep. */
  lemma DeletedCommentAgreesWithStore(s: AppState, t: Task, commentId: Id, now: Timestamp)
    requires TaskOps.ActorIsAdmin(s) && FindTask(s, t.id) == Some(t)
    ensures var r := DeleteFormComment(s, Some(t), t.comments, commentId, now);
      && |r.1.actions| == 1 && r.1.actions[0].UpdateTask?
      && r.1.actions[0].taskPatch.comments == Some(r.0)
  {
  }

  /** `handleDelete` once confirmed: `deleteTask` when editing a stored task, nothing for a new one. */
  function DeleteFromForm(s: AppState, task: Option<Task>): (r: Step)
    ensures task.None? ==> r == NoOp
    ensures task.Some? ==> r == TaskOps.DeleteTask(s, task.value.id)
  {
    if task.Some? then TaskOps.DeleteTask(s, task.value.id) else NoOp
  }
}

=== FILE: taskops.dfy ===
/** The task mutations of src/context/AppContext.tsx: `addTask`, `updateTask`, `deleteTask`,
    `toggleTaskPin` and the administrators' comment operations. */
module TaskOps {
  import opened Wrappers
  import opened Types
  import opened Reducer
  import opened History
  import opened Engine
  import Seqs

  /** `Omit<Task, 'id' | 'createdAt' | 'updatedAt'>`; an empty `boardId` is falsy. */
  datatype TaskFields = TaskFields(
    title: string,
    description: string,
    status: Status,
    priority: Priority,
    assigneeIds: seq<Id>,
    creatorId: Id,
    boardId: Id,
    deadline: Option<Timestamp>,
    isPinned: bool,
    attachments: seq<Attachment>,
    comments: seq<Comment>,
    voiceMessages: seq<VoiceMessage>)

  /** The caller-supplied part of a task. */
  function FieldsOf(t: Task): TaskFields {
    TaskFields(t.title, t.description, t.status, t.priority, t.assigneeIds, t.creatorId, t.boardId,
               t.deadline, t.isPinned, t.attachments, t.comments, t.voiceMessages)
  }

  /** The titles `updateTask` gives its completion and assignment notifications. */
  const CompletedTitle := "Задача завершена"
  const AssignedTitle := "Назначена задача"

  function AssignedMessage(taskTitle: string): string {
    "Вам назначена задача \"" + taskTitle + "\""
  }

  function CompletedMessage(taskTitle: string): string {
    "Задача \"" + taskTitle + "\" была завершена"
  }

  /** The candidates other than the acting user (`userId !== state.currentUser?.id`). */
  function Recipients(s: AppState, candidates: seq<Id>): (r: seq<Id>)
    ensures forall u :: u in r <==> u in candidates && !IsCurrentUser(s, u)
  {
    Seqs.Filter(candidates, (u: Id) => !IsCurrentUser(s, u))
  }

  /** One `task_assigned` draft per recipient. */
  function AssignedDrafts(recipients: seq<Id>, title: string, taskTitle: string, taskId: Id): (ds: seq<Draft>)
    ensures |ds| == |recipients|
    ensures forall i :: 0 <= i < |ds| ==>
      ds[i] == Draft(recipients[i], TaskAssigned, title, AssignedMessage(taskTitle), Some(taskId))
  {
    seq(|recipients|, i requires 0 <= i < |recipients| =>
      Draft(recipients[i], TaskAssigned, title, AssignedMessage(taskTitle), Some(taskId)))
  }

  /** One `task_completed` draft per assignee. */
  function CompletedDrafts(assignees: seq<Id>, taskTitle: string, taskId: Id): (ds: seq<Draft>)
    ensures |ds| == |assignees|
    ensures forall i :: 0 <= i < |ds| ==>
      ds[i] == Draft(assignees[i], TaskCompleted, CompletedTitle, CompletedMessage(taskTitle), Some(taskId))
  {
    seq(|assignees|, i requires 0 <= i < |assignees| =>
      Draft(assignees[i], TaskCompleted, CompletedTitle, CompletedMessage(taskTitle), Some(taskId)))
  }

  /** The board a new task goes to: the one given, else the current board, else board "1". */
  function TargetBoard(s: AppState, boardId: Id): (r: Id)
    ensures boardId != "" ==> r == boardId
    ensures boardId == "" && s.currentBoardId.Some? && s.currentBoardId.value != "" ==> r == s.currentBoardId.value
    ensures boardId == "" && (s.currentBoardId.None? || s.currentBoardId.value == "") ==> r == "1"
  {
    if boardId != "" then boardId else OrElse(s.currentBoardId, "1")
  }

  /** `addTask`: the new task gets the fresh `id`, the resolved board and both timestamps;
      every assignee but the actor is told; the addition is recorded. */
  function AddTask(s: AppState, f: TaskFields, id: Id, now: Timestamp): (r: Step)
    ensures |r.actions| == 1 && r.actions[0].AddTask?
    ensures var t := r.actions[0].task;
      && t.id == id && t.createdAt == now && t.updatedAt == now
      && t.boardId == TargetBoard(s, f.boardId)
      && FieldsOf(t) == f.(boardId := t.boardId)
      && r.entry == Some(AddedTask(t))
    ensures forall d :: d in r.drafts ==>
      d.kind == TaskAssigned && d.relatedId == Some(id) && d.recipient in f.assigneeIds && !IsCurrentUser(s, d.recipient)
    ensures forall u :: u in f.assigneeIds && !IsCurrentUser(s, u) ==> exists d :: d in r.drafts && d.recipient == u
  {
    var t := Task(id, f.title, f.description, f.status, f.priority, f.assigneeIds, f.creatorId,
                  TargetBoard(s, f.boardId), f.deadline, f.isPinned, f.attachments, f.comments,
                  f.voiceMessages, now, now);
    var ds := AssignedDrafts(Recipients(s, f.assigneeIds), "Назначена новая задача", f.title, id);
    assert forall u :: u in Recipients(s, f.assigneeIds) ==> exists d :: d in ds && d.recipient == u by {
      forall u | u in Recipients(s, f.assigneeIds) ensures exists d :: d in ds && d.recipient == u {
        var i :| 0 <= i < |Recipients(s, f.assigneeIds)| && Recipients(s, f.assigneeIds)[i] == u;
        assert ds[i] in ds;
      }
    }
    Step([Action.AddTask(t)], ds, Some(AddedTask(t)))
  }

  /** The update moves the task into `completed`. */
  predicate Completes(before: Task, p: TaskPatch) {
    p.status == Some(Completed) && before.status != Completed
  }

  /** The update moves the task out of `completed` (`updates.status` is set and differs). */
  predicate Reopens(before: Task, p: TaskPatch) {
    before.status == Completed && p.status.Some? && p.status.value != Completed
  }

  /** The assignees a patch adds to `before`, other than the actor. */
  function NewAssignees(s: AppState, before: Task, p: TaskPatch): (r: seq<Id>)
    ensures forall u :: u in r <==>
      p.assigneeIds.Some? && u in p.assigneeIds.value && u !in before.assigneeIds && !IsCurrentUser(s, u)
  {
    if p.assigneeIds.Some? then
      Seqs.Filter(p.assigneeIds.value, (u: Id) => u !in before.assigneeIds && !IsCurrentUser(s, u))
    else []
  }

  /** The notifications `updateTask` asks for, as a list: the completion notices, then the
      assignment notices. */
  function NoticeList(s: AppState, t: Task, p: TaskPatch): seq<Draft> {
    (if Completes(t, p) then CompletedDrafts(t.assigneeIds, t.title, t.id) else [])
      + AssignedDrafts(NewAssignees(s, t, p), AssignedTitle, t.title, t.id)
  }

  /** The list opens with one completion notice per prior assignee when the task enters
      `completed`; the assignment notices follow, one per new assignee. */
  lemma NoticeListLayout(s: AppState, t: Task, p: TaskPatch)
    ensures var a, ds := t.assigneeIds, NoticeList(s, t, p);
      var k := if Completes(t, p) then |a| else 0;
      && |ds| == k + |NewAssignees(s, t, p)|
      && (forall i :: 0 <= i < k ==>
            ds[i] == Draft(a[i], TaskCompleted, CompletedTitle, CompletedMessage(t.title), Some(t.id)))
      && (forall j :: 0 <= j < |NewAssignees(s, t, p)| ==>
            ds[k + j] == Draft(NewAssignees(s, t, p)[j], TaskAssigned, AssignedTitle, AssignedMessage(t.title), Some(t.id)))
  {
  }

  /** Every notice after the completion notices tells a newly added assignee other than the
      actor of the assignment. */
  lemma NoticeListRecipients(s: AppState, t: Task, p: TaskPatch)
    ensures var a, ds := t.assigneeIds, NoticeList(s, t, p);
      var k := if Completes(t, p) then |a| else 0;
      forall i :: k <= i < |ds| ==>
        ds[i].kind == TaskAssigned && ds[i].relatedId == Some(t.id) &&
        p.assigneeIds.Some? && ds[i].recipient in p.assigneeIds.value &&
        ds[i].recipient !in a && !IsCurrentUser(s, ds[i].recipient)
  {
    var a, ds, added := t.assigneeIds, NoticeList(s, t, p), NewAssignees(s, t, p);
    var k := if Completes(t, p) then |a| else 0;
    NoticeListLayout(s, t, p);
    forall i | k <= i < |ds|
      ensures ds[i].kind == TaskAssigned && ds[i].relatedId == Some(t.id)
      ensures p.assigneeIds.Some? && ds[i].recipient in p.assigneeIds.value
      ensures ds[i].recipient !in a && !IsCurrentUser(s, ds[i].recipient)
    {
      assert ds[k + (i - k)] == ds[i];
      assert added[i - k] in added;
    }
  }

  /** The notifications `updateTask` asks for: entering `completed` tells every prior assignee
      (the actor included), in order; then every newly added assignee other than the actor is
      told of the assignment. */
  function UpdateNotices(s: AppState, t: Task, p: TaskPatch): (ds: seq<Draft>)
    ensures var a := t.assigneeIds;
      var k := if Completes(t, p) then |a| else 0;
      && |ds| >= k
      && (forall i :: 0 <= i < k ==>
            ds[i] == Draft(a[i], TaskCompleted, CompletedTitle, CompletedMessage(t.title), Some(t.id)))
      && (forall i :: k <= i < |ds| ==>
            ds[i].kind == TaskAssigned && ds[i].relatedId == Some(t.id) &&
            p.assigneeIds.Some? && ds[i].recipient in p.assigneeIds.value &&
            ds[i].recipient !in a && !IsCurrentUser(s, ds[i].recipient))
      && |ds| == k + |NewAssignees(s, t, p)|
      && (forall j :: 0 <= j < |NewAssignees(s, t, p)| ==>
            ds[k + j] == Draft(NewAssignees(s, t, p)[j], TaskAssigned, AssignedTitle, AssignedMessage(t.title), Some(t.id)))
  {
    NoticeListLayout(s, t, p);
    NoticeListRecipients(s, t, p);
    NoticeList(s, t, p)
  }

  /** `updateTask`: a missing task is a no-op. Otherwise the patch is dispatched; leaving
      `completed` also deletes the task's completion notifications; the notifications of
      `UpdateNotices` are sent; the update is recorded with the prior task. */
  function UpdateTask(s: AppState, taskId: Id, p: TaskPatch, now: Timestamp): (r: Step)
    ensures FindTask(s, taskId).None? ==> r == NoOp
    ensures FindTask(s, taskId).Some? ==>
      var t := FindTask(s, taskId).value;
      && |r.actions| >= 1 && r.actions[0] == Action.UpdateTask(taskId, p)
      && r.entry == Some(UpdatedTask(taskId, p, t))
      && (Reopens(t, p) ==> r.actions[1..] == DeleteNotifications(CompletionNotices(s.notifications, taskId)))
      && (!Reopens(t, p) ==> |r.actions| == 1)
      && r.drafts == UpdateNotices(s, t, p)
  {
    match FindTask(s, taskId)
    case None => NoOp
    case Some(t) =>
      var retract := if Reopens(t, p) then DeleteNotifications(CompletionNotices(s.notifications, taskId)) else [];
      Step([Action.UpdateTask(taskId, p)] + retract, UpdateNotices(s, t, p), Some(UpdatedTask(taskId, p, t)))
  }

  /** The reducer part of a reopening update: the task update, then the deletions. */
  lemma {:induction false} UpdateThenRetract(s: AppState, taskId: Id, p: TaskPatch, dels: seq<Notification>, now: Timestamp)
    ensures forall n :: n in ApplyAll(s, [Action.UpdateTask(taskId, p)] + DeleteNotifications(dels), now).notifications ==>
      n in s.notifications && forall m :: m in dels ==> m.id != n.id
  {
    ApplyAllConcat(s, [Action.UpdateTask(taskId, p)], DeleteNotifications(dels), now);
    ApplyAllSingle(s, Action.UpdateTask(taskId, p), now);
    ApplyDeleteNotifications(Apply(s, Action.UpdateTask(taskId, p), now), dels, now);
  }

  /** Leaving `completed` leaves no `task_completed` notification about the task. */
  lemma {:induction false} ReopenRetractsCompletionNotices(s: AppState, t: Task, p: TaskPatch, ids: nat -> Id, now: Timestamp)
    requires FindTask(s, t.id) == Some(t) && Reopens(t, p)
    ensures forall n :: n in Commit(s, UpdateTask(s, t.id, p, now), ids, now).notifications ==>
      !IsCompletionNotice(n, t.id)
  {
    var st := UpdateTask(s, t.id, p, now);
    var dels := CompletionNotices(s.notifications, t.id);
    assert st.actions == [Action.UpdateTask(t.id, p)] + DeleteNotifications(dels) by {
      assert st.actions == [st.actions[0]] + st.actions[1..];
    }
    var a := ApplyAll(s, st.actions, now);
    UpdateThenRetract(s, t.id, p, dels, now);
    CommitDelivers(s, st, ids, now);
    var delivered := Delivered(st.drafts, ids, now);
    OnlyAssignmentsUnlessCompletes(s, t, p);
    forall n | n in delivered ensures !IsCompletionNotice(n, t.id) {
      var i :| 0 <= i < |delivered| && delivered[i] == n;
      assert st.drafts[i].kind == TaskAssigned;
    }
  }

  /** An update that does not enter `completed` asks only for assignment notifications. */
  lemma OnlyAssignmentsUnlessCompletes(s: AppState, t: Task, p: TaskPatch)
    requires !Completes(t, p)
    ensures forall i :: 0 <= i < |UpdateNotices(s, t, p)| ==> UpdateNotices(s, t, p)[i].kind == TaskAssigned
  {
  }

  /** Entering `completed` leaves, for every prior assignee, an unread `task_completed`
      notification about the task addressed to them. */
  lemma {:induction false} CompletionNotifiesPriorAssignees(s: AppState, t: Task, p: TaskPatch, ids: nat -> Id, now: Timestamp)
    requires FindTask(s, t.id) == Some(t) && Completes(t, p)
    ensures forall u :: u in t.assigneeIds ==>
      exists n :: n in Commit(s, UpdateTask(s, t.id, p, now), ids, now).notifications &&
        n.userId == u && IsCompletionNotice(n, t.id) && !n.isRead
  {
    var st := UpdateTask(s, t.id, p, now);
    var ds := UpdateNotices(s, t, p);
    assert st.drafts == ds;
    DraftsArrive(s, st, ids, now);
    var r := Commit(s, st, ids, now);
    forall u | u in t.assigneeIds
      ensures exists n :: n in r.notifications && n.userId == u && IsCompletionNotice(n, t.id) && !n.isRead
    {
      var i :| 0 <= i < |t.assigneeIds| && t.assigneeIds[i] == u;
      var n := Deliver(ds[i], ids(i), now);
      assert n in r.notifications;
    }
  }

  /** `deleteTask`: a missing task is a no-op; otherwise the task is deleted and recorded. */
  function DeleteTask(s: AppState, taskId: Id): (r: Step)
    ensures FindTask(s, taskId).None? ==> r == NoOp
    ensures FindTask(s, taskId).Some? ==>
      r.actions == [Action.DeleteTask(taskId)] && r.drafts == [] && r.entry == Some(DeletedTask(taskId, FindTask(s, taskId).value))
  {
    match FindTask(s, taskId)
    case None => NoOp
    case Some(t) => Step([Action.DeleteTask(taskId)], [], Some(DeletedTask(taskId, t)))
  }

  /** Deleting a task and undoing the deletion brings the task back, appended after the
      tasks that remained; redoing deletes it again. */
  lemma DeleteThenUndoRestores(st: Store, taskId: Id, ids: nat -> Id, now: Timestamp)
    requires Valid(st.log) && FindTask(st.app, taskId).Some?
    ensures var t := FindTask(st.app, taskId).value;
      var d := Perform(st, DeleteTask(st.app, taskId), ids, now);
      var u := UndoStore(d, now);
      && d.app.tasks == Seqs.Filter(st.app.tasks, (x: Task) => x.id != taskId)
      && u.app.tasks == d.app.tasks + [t]
      && RedoStore(u, now).log == d.log
  {
    var t := FindTask(st.app, taskId).value;
    var step := DeleteTask(st.app, taskId);
    var d := Perform(st, step, ids, now);
    assert d.app.tasks == Seqs.Filter(st.app.tasks, (x: Task) => x.id != taskId) by {
      CommitDelivers(st.app, step, ids, now);
      ApplyAllSingle(st.app, Action.DeleteTask(taskId), now);
    }
    assert UndoStore(d, now).app.tasks == d.app.tasks + [t] by {
      ApplyAllSingle(d.app, Action.AddTask(t), now);
    }
    assert RedoStore(UndoStore(d, now), now).log == d.log by {
      UndoRedoCursorRoundTrip(d.app, d.log, now);
    }
  }

  /** `toggleTaskPin`: an update of `isPinned` to the negation of the task's current flag. */
  function ToggleTaskPin(s: AppState, taskId: Id, now: Timestamp): (r: Step)
    ensures FindTask(s, taskId).None? ==> r == NoOp
    ensures FindTask(s, taskId).Some? ==>
      r == UpdateTask(s, taskId, NoTaskChanges.(isPinned := Some(!FindTask(s, taskId).value.isPinned)), now)
  {
    match FindTask(s, taskId)
    case None => NoOp
    case Some(t) => UpdateTask(s, taskId, NoTaskChanges.(isPinned := Some(!t.isPinned)), now)
  }

  /** Toggling flips the pin of every task with that id, sends nothing and is undoable. */
  lemma {:induction false} TogglePinFlips(s: AppState, taskId: Id, ids: nat -> Id, now: Timestamp)
    requires FindTask(s, taskId).Some?
    ensures var t := FindTask(s, taskId).value;
      var st := ToggleTaskPin(s, taskId, now);
      var r := Commit(s, st, ids, now);
      && st.drafts == [] && st.entry.Some?
      && |r.tasks| == |s.tasks|
      && (forall i :: 0 <= i < |s.tasks| && s.tasks[i].id == taskId ==> r.tasks[i].isPinned == !t.isPinned)
      && (forall i :: 0 <= i < |s.tasks| && s.tasks[i].id != taskId ==> r.tasks[i] == s.tasks[i])
  {
    var t := FindTask(s, taskId).value;
    var p := NoTaskChanges.(isPinned := Some(!t.isPinned));
    var st := ToggleTaskPin(s, taskId, now);
    assert !Completes(t, p) && !Reopens(t, p);
    assert st.drafts == [] by {
      assert NewAssignees(s, t, p) == [];
    }
    CommitDelivers(s, st, ids, now);
    ApplyAllSingle(s, Action.UpdateTask(taskId, p), now);
    UpdateTaskChangesOnlyTarget(s, taskId, p, now);
  }

  /** Only an administrator may touch comments (`state.currentUser?.role !== 'admin'`). */
  predicate ActorIsAdmin(s: AppState) {
    s.currentUser.Some? && s.currentUser.value.role == Admin
  }

  /** `addComment`: an administrator's comment is appended to the task's comments. */
  function AddComment(s: AppState, taskId: Id, content: string, commentId: Id, now: Timestamp): (r: Step)
    ensures !ActorIsAdmin(s) || FindTask(s, taskId).None? ==> r == NoOp
    ensures ActorIsAdmin(s) && FindTask(s, taskId).Some? ==>
      var cs := FindTask(s, taskId).value.comments;
      && r.drafts == [] && |r.actions| == 1 && r.actions[0].UpdateTask? && r.actions[0].taskId == taskId
      && r.actions[0].taskPatch == NoTaskChanges.(comments := r.actions[0].taskPatch.comments)
      && r.entry == Some(UpdatedTask(taskId, r.actions[0].taskPatch, FindTask(s, taskId).value))
      && r.actions[0].taskPatch.comments.Some?
      && var ncs := r.actions[0].taskPatch.comments.value;
      && |ncs| == |cs| + 1 && ncs[..|cs|] == cs
      && ncs[|cs|] == Comment(commentId, s.currentUser.value.id, content, now)
  {
    if !ActorIsAdmin(s) then NoOp
    else match FindTask(s, taskId)
      case None => NoOp
      case Some(t) =>
        var p := NoTaskChanges.(comments := Some(t.comments + [Comment(commentId, s.currentUser.value.id, content, now)]));
        assert !Completes(t, p) && !Reopens(t, p) && NewAssignees(s, t, p) == [];
        UpdateTask(s, taskId, p, now)
  }

  /** `updateComment`: the comments with that id get the new content; the rest are kept. */
  function UpdateComment(s: AppState, taskId: Id, commentId: Id, content: string, now: Timestamp): (r: Step)
    ensures !ActorIsAdmin(s) || FindTask(s, taskId).None? ==> r == NoOp
    ensures ActorIsAdmin(s) && FindTask(s, taskId).Some? ==>
      var cs := FindTask(s, taskId).value.comments;
      && r.drafts == [] && |r.actions| == 1 && r.actions[0].UpdateTask? && r.actions[0].taskId == taskId
      && r.actions[0].taskPatch == NoTaskChanges.(comments := r.actions[0].taskPatch.comments)
      && r.entry == Some(UpdatedTask(taskId, r.actions[0].taskPatch, FindTask(s, taskId).value))
      && r.actions[0].taskPatch.comments.Some?
      && var ncs := r.actions[0].taskPatch.comments.value;
      && |ncs| == |cs|
      && forall i :: 0 <= i < |cs| ==>
           ncs[i] == if cs[i].id == commentId then cs[i].(content := content) else cs[i]
  {
    if !ActorIsAdmin(s) then NoOp
    else match FindTask(s, taskId)
      case None => NoOp
      case Some(t) =>
        var ncs := Seqs.MapWhere(t.comments, (c: Comment) => c.id, commentId, (c: Comment) => c.(content := content));
        var p := NoTaskChanges.(comments := Some(ncs));
        assert !Completes(t, p) && !Reopens(t, p) && NewAssignees(s, t, p) == [];
        UpdateTask(s, taskId, p, now)
  }

  /** `deleteComment`: the comments with that id are dropped; the rest are kept in order. */
  function DeleteComment(s: AppState, taskId: Id, commentId: Id, now: Timestamp): (r: Step)
    ensures !ActorIsAdmin(s) || FindTask(s, taskId).None? ==> r == NoOp
    ensures ActorIsAdmin(s) && FindTask(s, taskId).Some? ==>
      var cs := FindTask(s, taskId).value.comments;
      && r.drafts == [] && |r.actions| == 1 && r.actions[0].UpdateTask? && r.actions[0].taskId == taskId
      && r.actions[0].taskPatch == NoTaskChanges.(comments := r.actions[0].taskPatch.comments)
      && r.entry == Some(UpdatedTask(taskId, r.actions[0].taskPatch, FindTask(s, taskId).value))
      && r.actions[0].taskPatch.comments.Some?
      && var ncs := r.actions[0].taskPatch.comments.value;
      && (forall i :: 0 <= i < |ncs| ==> ncs[i] in cs && ncs[i].id != commentId)
      && (forall i :: 0 <= i < |cs| && cs[i].id != commentId ==> cs[i] in ncs)
      && Seqs.IsSubsequence(ncs, cs)
      && forall c :: multiset(ncs)[c] == if c.id != commentId then multiset(cs)[c] else 0
  {
    if !ActorIsAdmin(s) then NoOp
    else match FindTask(s, taskId)
      case None => NoOp
      case Some(t) =>
        Seqs.FilterIsOrderedRestriction(t.comments, (c: Comment) => c.id != commentId);
        var p := NoTaskChanges.(comments := Some(Seqs.Filter(t.comments, (c: Comment) => c.id != commentId)));
        assert !Completes(t, p) && !Reopens(t, p) && NewAssignees(s, t, p) == [];
        UpdateTask(s, taskId, p, now)
  }
}

=== FILE: text.dfy ===
/** String helpers with the behaviour of the JavaScript built-ins the application calls:
    `trim`, `toUpperCase`/`toLowerCase` (on the Latin and Cyrillic letters the application
    deals with), and the "cut and add an ellipsis" idiom. */
module Text {

  /** The characters JavaScript's `String.prototype.trim` removes: white space and line terminators. */
  predicate IsSpace(c: char) {
    c == '\t' || c == '\n' || c == '\U{B}' || c == '\U{C}' || c == '\r' || c == ' ' ||
    c == '\U{A0}' || c == '\U{1680}' || ('\U{2000}' <= c <= '\U{200A}') ||
    c == '\U{2028}' || c == '\U{2029}' || c == '\U{202F}' || c == '\U{205F}' ||
    c == '\U{3000}' || c == '\U{FEFF}'
  }

  /** `!s.trim()`: the string is empty or white space only. */
  predicate IsBlank(s: string) {
    forall i :: 0 <= i < |s| ==> IsSpace(s[i])
  }

  function TrimStart(s: string): (r: string)
    ensures |r| <= |s| && r == s[|s| - |r|..]
    ensures |r| > 0 ==> !IsSpace(r[0])
    ensures forall i :: 0 <= i < |s| - |r| ==> IsSpace(s[i])
  {
    if |s| > 0 && IsSpace(s[0]) then TrimStart(s[1..]) else s
  }

  function TrimEnd(s: string): (r: string)
    ensures |r| <= |s| && r == s[..|r|]
    ensures |r| > 0 ==> !IsSpace(r[|r| - 1])
    ensures forall i :: |r| <= i < |s| ==> IsSpace(s[i])
  {
    if |s| > 0 && IsSpace(s[|s| - 1]) then TrimEnd(s[..|s| - 1]) else s
  }

  /** The text without leading and trailing white space. */
  function Trim(s: string): (r: string)
    ensures exists i, j :: 0 <= i <= j <= |s| && r == s[i..j]
    ensures |r| > 0 ==> !IsSpace(r[0]) && !IsSpace(r[|r| - 1])
  {
    var a := TrimStart(s);
    var r := TrimEnd(a);
    assert r == s[|s| - |a|..|s| - |a| + |r|];
    r
  }

  /** Trimming leaves nothing exactly when the string is blank. */
  lemma TrimEmptyIffBlank(s: string)
    ensures Trim(s) == [] <==> IsBlank(s)
  {
  }

  /** `toUpperCase` of one character: Latin a-z, Cyrillic а-я and ѐ-џ map to their capitals. */
  function UpperChar(c: char): char {
    if 'a' <= c <= 'z' then (c as int - 32) as char
    else if 'а' <= c <= 'я' then (c as int - 0x20) as char
    else if 'ѐ' <= c <= 'џ' then (c as int - 0x50) as char
    else c
  }

  /** `toLowerCase` of one character, the inverse mapping of `UpperChar`. */
  function LowerChar(c: char): char {
    if 'A' <= c <= 'Z' then (c as int + 32) as char
    else if 'А' <= c <= 'Я' then (c as int + 0x20) as char
    else if 'Ѐ' <= c <= 'Џ' then (c as int + 0x50) as char
    else c
  }

  function ToUpper(s: string): (r: string)
    ensures |r| == |s|
    ensures forall i :: 0 <= i < |s| ==> r[i] == UpperChar(s[i])
  {
    seq(|s|, i requires 0 <= i < |s| => UpperChar(s[i]))
  }

  function ToLower(s: string): (r: string)
    ensures |r| == |s|
    ensures forall i :: 0 <= i < |s| ==> r[i] == LowerChar(s[i])
  {
    seq(|s|, i requires 0 <= i < |s| => LowerChar(s[i]))
  }

  /** Case mapping is idempotent and each direction absorbs the other. */
  lemma CaseMappingsAbsorb(c: char)
    ensures UpperChar(UpperChar(c)) == UpperChar(c)
    ensures LowerChar(LowerChar(c)) == LowerChar(c)
    ensures UpperChar(LowerChar(c)) == UpperChar(c)
    ensures LowerChar(UpperChar(c)) == LowerChar(c)
  {
  }

  /** The text itself when it has at most `n` characters, else its first `n` characters followed by "...". */
  function Ellipsize(s: string, n: nat): (r: string)
    ensures |s| <= n ==> r == s
    ensures |s| > n ==> |r| == n + 3 && r[..n] == s[..n] && r[n..] == "..."
  {
    if |s| <= n then s else s[..n] + "..."
  }
}

=== FILE: types.dfy ===
/** The entities of the task board: users, tasks, boards and notifications, and the
    application state that holds them (src/types/index.ts). */
module Types {
  import opened Wrappers

  /** Entity ids are opaque strings (`Date.now().toString()` in the application). */
  type Id = string

  /** Instants are milliseconds since the epoch; the ISO strings of the application stand for them. */
  type Timestamp = int

  /** `'admin' | 'user'` */
  datatype Role = Admin | Member

  /** `'created' | 'in-progress' | 'completed'` */
  datatype Status = Created | InProgress | Completed

  /** `'low' | 'medium' | 'high'` */
  datatype Priority = Low | Medium | High

  /** The five notification types. */
  datatype NotificationKind = BoardAdded | AdminAssigned | TaskAssigned | TaskDeadline | TaskCompleted

  datatype User = User(
    id: Id,
    username: string,
    email: string,
    firstName: string,
    lastName: string,
    patronymic: Option<string>,
    password: string,
    role: Role,
    avatar: Option<string>,
    createdAt: Timestamp,
    boardIds: seq<Id>)

  datatype Comment = Comment(id: Id, userId: Id, content: string, createdAt: Timestamp)

  /** `size` is in bytes; `mime` is the file's MIME type. */
  datatype Attachment = Attachment(id: Id, name: string, size: int, mime: string, url: string)

  datatype VoiceMessage = VoiceMessage(id: Id, userId: Id, url: string, duration: int, createdAt: Timestamp)

  datatype Task = Task(
    id: Id,
    title: string,
    description: string,
    status: Status,
    priority: Priority,
    assigneeIds: seq<Id>,
    creatorId: Id,
    boardId: Id,
    deadline: Option<Timestamp>,
    isPinned: bool,
    attachments: seq<Attachment>,
    comments: seq<Comment>,
    voiceMessages: seq<VoiceMessage>,
    createdAt: Timestamp,
    updatedAt: Timestamp)

  datatype Board = Board(
    id: Id,
    name: string,
    description: Option<string>,
    code: string,
    createdBy: Id,
    memberIds: seq<Id>,
    createdAt: Timestamp,
    updatedAt: Timestamp)

  datatype Notification = Notification(
    id: Id,
    userId: Id,
    kind: NotificationKind,
    title: string,
    message: string,
    isRead: bool,
    createdAt: Timestamp,
    relatedId: Option<Id>)

  datatype Credentials = Credentials(username: string, password: string)

  datatype AppState = AppState(
    currentUser: Option<User>,
    users: seq<User>,
    tasks: seq<Task>,
    boards: seq<Board>,
    notifications: seq<Notification>,
    currentBoardId: Option<Id>,
    isAuthenticated: bool,
    savedCredentials: Option<Credentials>)

  /** The reducer's initial state: nobody logged in, every collection empty. */
  const InitialState := AppState(None, [], [], [], [], None, false, None)

  /** `x || fallback` for an optional string: JavaScript treats both `null` and `''` as false. */
  function OrElse(o: Option<string>, fallback: string): (r: string)
    ensures o.Some? && o.value != "" ==> r == o.value
    ensures o.None? || o.value == "" ==> r == fallback
  {
    if o.Some? && o.value != "" then o.value else fallback
  }

  /** `state.currentUser?.id === uid`: false when nobody is logged in. */
  predicate IsCurrentUser(s: AppState, uid: Id) {
    s.currentUser.Some? && s.currentUser.value.id == uid
  }

  /** A `task_completed` notification about task `taskId`. */
  predicate IsCompletionNotice(n: Notification, taskId: Id) {
    n.kind == TaskCompleted && n.relatedId == Some(taskId)
  }

  /** The string tag of a status, which is also the id of its Kanban column. */
  function StatusTag(st: Status): string {
    match st
    case Created => "created"
    case InProgress => "in-progress"
    case Completed => "completed"
  }

  /** The status a tag names, if any (`col.id === over.id` over the three columns). */
  function StatusOfTag(tag: string): (r: Option<Status>)
    ensures r.Some? ==> StatusTag(r.value) == tag
  {
    if tag == "created" then Some(Created)
    else if tag == "in-progress" then Some(InProgress)
    else if tag == "completed" then Some(Completed)
    else None
  }

  /** Every status is named by exactly one tag, and reading the tag back gives the status. */
  lemma StatusTagRoundTrip(st: Status)
    ensures StatusOfTag(StatusTag(st)) == Some(st)
  {
  }

  /** `priorityOrder`: high 3, medium 2, low 1. */
  function PriorityRank(p: Priority): (r: int)
    ensures 1 <= r <= 3
    ensures r == 3 <==> p == High
    ensures r == 1 <==> p == Low
  {
    match p
    case High => 3
    case Medium => 2
    case Low => 1
  }
}

=== FILE: userops.dfy ===
/** The user mutations of src/context/AppContext.tsx: `addUser`, `updateUser`,
    `updateCurrentUser` and `deleteUser`. */
module UserOps {
  import opened Wrappers
  import opened Types
  import opened Reducer
  import opened History
  import opened Engine
  import opened Text
  import Seqs

  /** The fields a caller gives `addUser`: a user without id, creation time and boards. */
  datatype UserFields = UserFields(
    username: string,
    email: string,
    firstName: string,
    lastName: string,
    patronymic: Option<string>,
    password: string,
    role: Role,
    avatar: Option<string>)

  /** Why `addUser` refuses, with the message it returns. */
  datatype AddUserError = DuplicateEmail | DuplicateUsername {
    function Message(): string {
      match this
      case DuplicateEmail => "Пользователь с таким email уже существует"
      case DuplicateUsername => "Пользователь с таким именем пользователя уже существует"
    }
  }

  const CreatedMessage := "Пользователь успешно создан"

  /** An optional text upper-cased when present. */
  function UpperOpt(o: Option<string>): (r: Option<string>)
    ensures r.None? <==> o.None?
    ensures o.Some? ==> r.value == ToUpper(o.value)
  {
    match o
    case None => None
    case Some(x) => Some(ToUpper(x))
  }

  /** Some user's email equals `email` ignoring case. */
  predicate EmailTaken(s: AppState, email: string) {
    exists i :: 0 <= i < |s.users| && ToLower(s.users[i].email) == ToLower(email)
  }

  /** Some user's username equals `username` ignoring case. */
  predicate UsernameTaken(s: AppState, username: string) {
    exists i :: 0 <= i < |s.users| && ToLower(s.users[i].username) == ToLower(username)
  }

  /** The record `addUser` creates: names upper-cased, fresh id, joined to the current board
      when there is one (`state.currentBoardId ? [state.currentBoardId] : []`). */
  function NewUser(s: AppState, f: UserFields, id: Id, now: Timestamp): User {
    User(id, f.username, f.email, ToUpper(f.firstName), ToUpper(f.lastName), UpperOpt(f.patronymic),
         f.password, f.role, f.avatar, now,
         if OrElse(s.currentBoardId, "") != "" then [s.currentBoardId.value] else [])
  }

  /** The board `b` with `id` appended to its members, as a whole-board update. */
  function WithMember(b: Board, id: Id): (p: BoardPatch)
    ensures forall c: Board, now: Timestamp :: MergeBoard(c, p, now) == b.(id := c.id, memberIds := b.memberIds + [id], updatedAt := now)
  {
    BoardSnapshot(b).(memberIds := Some(b.memberIds + [id]))
  }

  /** `addUser`. A duplicate email (checked first) or username, compared ignoring case, is
      refused with nothing dispatched. Otherwise the new user is added, appended to the
      members of the current board if that board exists, told that they were added, told
      that they are an administrator if they are one, and the addition is recorded. */
  function AddUser(s: AppState, f: UserFields, id: Id, now: Timestamp): (r: Result<Step, AddUserError>)
    ensures r == Failure(DuplicateEmail) <==> EmailTaken(s, f.email)
    ensures r == Failure(DuplicateUsername) <==> !EmailTaken(s, f.email) && UsernameTaken(s, f.username)
    ensures r.Success? ==>
      var st := r.value;
      && |st.actions| >= 1 && st.actions[0].AddUser?
      && var u := st.actions[0].user;
      && u.id == id && u.createdAt == now
      && u.username == f.username && u.email == f.email && u.password == f.password
      && u.role == f.role && u.avatar == f.avatar
      && u.firstName == ToUpper(f.firstName) && u.lastName == ToUpper(f.lastName)
      && u.patronymic == UpperOpt(f.patronymic)
      && (OrElse(s.currentBoardId, "") != "" ==> u.boardIds == [s.currentBoardId.value])
      && (OrElse(s.currentBoardId, "") == "" ==> u.boardIds == [])
      && st.entry == Some(AddedUser(u))
      && (|st.actions| == 2 <==> OrElse(s.currentBoardId, "") != "" && FindBoard(s, s.currentBoardId.value).Some?)
      && (|st.actions| == 2 ==>
            st.actions[1] == UpdateBoard(s.currentBoardId.value, WithMember(FindBoard(s, s.currentBoardId.value).value, id)))
      && |st.actions| <= 2
      && |st.drafts| >= 1
      && st.drafts[0] == Draft(id, BoardAdded, "Добавлен в доску", "Вы были добавлены в доску администратором", None)
      && (|st.drafts| == 2 <==> f.role == Admin) && |st.drafts| <= 2
      && (f.role == Admin ==> st.drafts[1] == Draft(id, AdminAssigned, "Назначен администратором", "Вам назначена роль администратора", None))
  {
    if Seqs.FindFirst(s.users, (u: User) => ToLower(u.email) == ToLower(f.email)).Some? then
      Failure(DuplicateEmail)
    else if Seqs.FindFirst(s.users, (u: User) => ToLower(u.username) == ToLower(f.username)).Some? then
      Failure(DuplicateUsername)
    else
      var u := NewUser(s, f, id, now);
      var join :=
        if OrElse(s.currentBoardId, "") != "" then
          match FindBoard(s, s.currentBoardId.value)
          case Some(b) => [UpdateBoard(s.currentBoardId.value, WithMember(b, id))]
          case None => []
        else [];
      var added := Draft(id, BoardAdded, "Добавлен в доску", "Вы были добавлены в доску администратором", None);
      var admin := Draft(id, AdminAssigned, "Назначен администратором", "Вам назначена роль администратора", None);
      Success(Step([Action.AddUser(u)] + join, [added] + (if f.role == Admin then [admin] else []), Some(AddedUser(u))))
  }

  /** A successful `addUser` on a current board leaves the new user a member of that board
      in both directions: the board lists the new id and the new user lists the board. */
  lemma {:induction false} AddUserJoinsCurrentBoard(s: AppState, f: UserFields, id: Id, ids: nat -> Id, now: Timestamp)
    requires AddUser(s, f, id, now).Success?
    requires OrElse(s.currentBoardId, "") != "" && FindBoard(s, s.currentBoardId.value).Some?
    ensures var r := Commit(s, AddUser(s, f, id, now).value, ids, now);
      var cb := s.currentBoardId.value;
      && |r.users| == |s.users| + 1 && r.users[|s.users|].id == id && r.users[|s.users|].boardIds == [cb]
      && (forall i :: 0 <= i < |r.boards| && r.boards[i].id == cb ==> id in r.boards[i].memberIds)
  {
    var st := AddUser(s, f, id, now).value;
    var cb := s.currentBoardId.value;
    var b := FindBoard(s, cb).value;
    var s1 := Apply(s, st.actions[0], now);
    assert st.actions == [st.actions[0]] + [st.actions[1]];
    ApplyAllConcat(s, [st.actions[0]], [st.actions[1]], now);
    ApplyAllSingle(s, st.actions[0], now);
    ApplyAllSingle(s1, st.actions[1], now);
    UpdateBoardChangesOnlyTarget(s1, cb, WithMember(b, id), now);
    CommitDelivers(s, st, ids, now);
  }

  /** `if (updates.x) updates.x = updates.x.toUpperCase()` for the three name fields. */
  function UpperNames(p: UserPatch): (q: UserPatch)
    ensures q == p.(firstName := q.firstName, lastName := q.lastName, patronymic := q.patronymic)
    ensures q.firstName == UpperOpt(p.firstName) && q.lastName == UpperOpt(p.lastName)
    ensures q.patronymic.None? <==> p.patronymic.None?
    ensures p.patronymic.Some? ==> q.patronymic.value == UpperOpt(p.patronymic.value)
  {
    p.(firstName := if p.firstName.Some? && p.firstName.value != "" then Some(ToUpper(p.firstName.value)) else p.firstName,
       lastName := if p.lastName.Some? && p.lastName.value != "" then Some(ToUpper(p.lastName.value)) else p.lastName,
       patronymic := if p.patronymic.Some? && p.patronymic.value.Some? && p.patronymic.value.value != ""
                     then Some(Some(ToUpper(p.patronymic.value.value))) else p.patronymic)
  }

  /** `updateUser`: a missing user is a no-op; otherwise the patch with upper-cased names is
      dispatched, and a promotion to administrator is notified. Nothing is recorded. */
  function UpdateUser(s: AppState, userId: Id, p: UserPatch): (r: Step)
    ensures FindUser(s, userId).None? ==> r == NoOp
    ensures FindUser(s, userId).Some? ==>
      && r.actions == [Action.UpdateUser(userId, UpperNames(p))] && r.entry.None?
      && (p.role == Some(Admin) && FindUser(s, userId).value.role != Admin ==>
            r.drafts == [Draft(userId, AdminAssigned, "Назначен администратором", "Вам назначена роль администратора", None)])
      && (p.role != Some(Admin) || FindUser(s, userId).value.role == Admin ==> r.drafts == [])
  {
    match FindUser(s, userId)
    case None => NoOp
    case Some(u) =>
      var promoted := p.role == Some(Admin) && u.role != Admin;
      Step([Action.UpdateUser(userId, UpperNames(p))],
           if promoted then [Draft(userId, AdminAssigned, "Назначен администратором", "Вам назначена роль администратора", None)] else [],
           None)
  }

  /** After `updateUser` every user with that id, and the current user if it is the one,
      carries the patch with its names upper-cased. */
  lemma UpdateUserStoresUpperNames(s: AppState, userId: Id, p: UserPatch, ids: nat -> Id, now: Timestamp)
    requires FindUser(s, userId).Some?
    ensures var r := Commit(s, UpdateUser(s, userId, p), ids, now);
      && |r.users| == |s.users|
      && (forall i :: 0 <= i < |s.users| && s.users[i].id == userId ==>
            r.users[i] == MergeUser(s.users[i], UpperNames(p)) &&
            (p.firstName.Some? ==> r.users[i].firstName == ToUpper(p.firstName.value)))
      && (forall i :: 0 <= i < |s.users| && s.users[i].id != userId ==> r.users[i] == s.users[i])
      && (IsCurrentUser(s, userId) ==> r.currentUser == Some(MergeUser(s.currentUser.value, UpperNames(p))))
  {
    var st := UpdateUser(s, userId, p);
    CommitDelivers(s, st, ids, now);
    ApplyAllSingle(s, Action.UpdateUser(userId, UpperNames(p)), now);
    UpdateUserSyncsCurrentUser(s, userId, UpperNames(p), now);
  }

  /** `updateCurrentUser`: `updateUser` on the logged-in user, a no-op when nobody is. */
  function UpdateCurrentUser(s: AppState, p: UserPatch): (r: Step)
    ensures s.currentUser.None? ==> r == NoOp
    ensures s.currentUser.Some? ==> r == UpdateUser(s, s.currentUser.value.id, p)
  {
    match s.currentUser
    case None => NoOp
    case Some(cu) => UpdateUser(s, cu.id, p)
  }

  /** `deleteUser`: a missing user is a no-op; otherwise the user is deleted and recorded. */
  function DeleteUser(s: AppState, userId: Id): (r: Step)
    ensures FindUser(s, userId).None? ==> r == NoOp
    ensures FindUser(s, userId).Some? ==>
      r.actions == [Action.DeleteUser(userId)] && r.drafts == [] && r.entry == Some(DeletedUser(userId, FindUser(s, userId).value))
  {
    match FindUser(s, userId)
    case None => NoOp
    case Some(u) => Step([Action.DeleteUser(userId)], [], Some(DeletedUser(userId, u)))
  }

  /** `deleteUser` has no self-deletion guard: deleting the logged-in user's own record
      succeeds, and the session keeps the deleted user as current user. */
  lemma DeleteUserAllowsSelf(s: AppState, ids: nat -> Id, now: Timestamp)
    requires s.currentUser.Some? && FindUser(s, s.currentUser.value.id).Some?
    ensures var id := s.currentUser.value.id;
      var r := Commit(s, DeleteUser(s, id), ids, now);
      && (forall i :: 0 <= i < |r.users| ==> r.users[i].id != id)
      && r.currentUser == s.currentUser
  {
    var id := s.currentUser.value.id;
    CommitDelivers(s, DeleteUser(s, id), ids, now);
    ApplyAllSingle(s, Action.DeleteUser(id), now);
    DeleteUserKeepsOthers(s, id, now);
  }
}

=== FILE: wrappers.dfy ===
/** Option and Result, the shapes in which the application reports an absent value or a refusal. */
module Wrappers {

  /** A value that may be missing: `undefined`/`null` in the application. */
  datatype Option<+T> = None | Some(value: T) {

    /** Returns the value in Some, or `default` when None */
    function GetOr(default: T): T {
      match this
      case Some(v) => v
      case None => default
    }
  }

  /** Either a success value or the reason an operation was declined. */
  datatype Result<+R, +E> = Success(value: R) | Failure(error: E)
}
